=== FILE: README.md ===
# Dev_Collab core logic in Dafny

This project models the logic at the centre of Dev_Collab, a platform where users post
programming problems, answer and vote on solutions, collaborate in live rooms, and earn
points and badges. It covers four pieces, each as immutable datatypes and pure functions
whose contracts state what the code promises:

- **The collaboration room coordinator** (`Collab`). The `activeRooms` map of
  `socketController.js` becomes a registry from problem id to room. A room holds a socket
  set, a code buffer and a chat scrollback capped at 100 entries. Every socket event
  handler is a transition that returns the new registry and the log of events it emits.
  Each event carries its audience: the sender alone, the others in a room, or the whole
  room.
- **Gamification rules** (`GamificationConfig`, `Users`, `Awards`). This covers:
  - the points table, the badge catalogue, `checkBadgeEligibility` and `calculatePoints`;
  - the user document's level, progress, badge summary and save hook;
  - the per-(user, action, day) tracker that caps chat points;
  - `awardPointsAndBadges` with its badge scan, and `trackLanguageUsage`;
  - the status and badge-detail listings, and leaderboard and rank arithmetic.
- **The problem and solution lifecycle** (`Problems`). The problem and solution documents
  and the seven request handlers of `problemController.js`. Each handler returns the new
  store or the HTTP error it answers with.
- **Client-side reducers**:
  - `Notifications`: the notification context and page;
  - `ProblemView`: the problem page's socket listeners and local handlers, and the
    convergence of a sender and its peers;
  - `GamificationView`: the points and badge handlers, and how the client follows an
    award.

The support modules are:

- `Common`: `Option` and `Result`.
- `Seqs`: counting, filtering, first index and subsequences.
- `Text`: the JavaScript string operations the handlers rely on.
- `Sorting`: a descending sort by key, standing in for `Array.prototype.sort` and the
  store's `sort({field: -1})`.

The database, socket.io and the clock are parameters:

- A store is a sequence of documents, and `findById` finds the first match.
- Whether socket.io is present is a flag.
- The calendar day, timestamps and new document ids are arguments.

Behaviour of `socketController.js` worth knowing:

- `user_joined` goes to the other sockets of the room only. It is not echoed to the joiner.
- There is no `leave` handler.
- A chat message is not persisted before it is relayed.
- `code_change` on an unknown room still relays the code to the room.

The model also keeps a mismatch between badge-id conventions as written. `checkBadgeEligibility` returns lower-case `id`s. The user document and the status report use upper-case `BADGES` keys. So those ids would never be reported (`Awards.EligibilityIdsNotReported`). The controller grants badges by its own scan, which uses the keys.

## Model

All source paths are under `PRO_3/`.

| member | source | states |
|---|---|---|
| Collab.OnJoinProblem | PRO_3/backend/controllers/socketController.js:10-35 | A join on a missing room creates it with no users, code `""` and no chat, appended to the map's order. An existing room keeps its code and chat. The socket is added with set semantics and no other room changes. Exactly three events are emitted. |
| Collab.RejoinKeepsRoom | PRO_3/backend/controllers/socketController.js:22-23 | Joining again with the same socket leaves the registry exactly as it was, so the user count does not change. |
| Collab.JoinDeliveries | PRO_3/backend/controllers/socketController.js:26-35 | The joiner receives the current code and then the chat history, and nothing else. Every other user of the room receives `user_joined` with the number of distinct sockets now in the room. Sockets outside the room receive nothing. |
| Collab.OnCodeChange | PRO_3/backend/controllers/socketController.js:41-50 | On a known room the stored code becomes exactly the new value and nothing else changes. An unknown room is not created, yet `code_update` is still relayed to the others. |
| Collab.CodeChangeDeliveries | PRO_3/backend/controllers/socketController.js:49 | Every other user of the room receives the new code; the sender receives nothing. |
| Collab.OnNewSolution | PRO_3/backend/controllers/socketController.js:53-55 | The registry is unchanged and the payload, whatever document it is, is relayed untouched to the others in the room. |
| Collab.OnSolutionVote | PRO_3/backend/controllers/socketController.js:58-63 | The registry is unchanged and `vote_updated` with the id and count is relayed to the others. |
| Collab.OnSolutionAccepted | PRO_3/backend/controllers/socketController.js:66-71 | The registry is unchanged and `acceptance_updated` with `isAccepted: true` is relayed to the others. |
| Collab.AppendCapped | PRO_3/backend/controllers/socketController.js:86-91 | From a scrollback within the cap, push-then-shift gives the newest 100 entries of the old scrollback plus the new one. The new entry is last. |
| Collab.ScrollbackKeepsNewest | PRO_3/backend/controllers/socketController.js:86-91 | However many messages arrive, the scrollback is the newest 100 of all entries, in arrival order. |
| Collab.OnChatMessage | PRO_3/backend/controllers/socketController.js:74-96 | An unknown room changes nothing and emits nothing. Otherwise the entry, stamped with the sender's socket id, joins the capped scrollback of that room only and is broadcast to the room. |
| Collab.ChatDeliveries | PRO_3/backend/controllers/socketController.js:94 | Every user of the room, the sender included, receives the chat entry; sockets outside the room receive nothing. |
| Collab.Leave | PRO_3/backend/controllers/socketController.js:104-116 | Leaving one room removes the socket from it and deletes the room exactly when the socket was its only user. Other rooms are untouched. |
| Collab.LeaveAllRoom | PRO_3/backend/controllers/socketController.js:103-118 | The `forEach` sweep leaves a room it does not visit untouched. A visited room loses the socket, and it is gone exactly when the socket was its only user. |
| Collab.Surviving | PRO_3/backend/controllers/socketController.js:115 | Deleting rooms keeps the map's order of the rooms that remain, without repeats. |
| Collab.OnDisconnect | PRO_3/backend/controllers/socketController.js:99-119 | Every room in the map that held the socket loses it and is deleted if that emptied it. Other rooms are unchanged and no room is added. |
| Collab.DisconnectNotifies | PRO_3/backend/controllers/socketController.js:103-112 | The log is exactly one `user_left` for each room that held the socket, in the map's insertion order, carrying one user fewer. No room is told twice, and nothing else is emitted. |
| Collab.LeaveAllEmitsNotices | PRO_3/backend/controllers/socketController.js:103-112 | With distinct ids, the in-order sweep emits exactly the notices computed from the rooms as they were before it. Leaving one room does not change what another is told. |
| Collab.LeaveNoticesDistinct | PRO_3/backend/controllers/socketController.js:103-112 | Each notice goes to the whole of a visited room, and no two go to the same room. |
| Collab.DisconnectLeavesNoTrace | PRO_3/backend/controllers/socketController.js:103-106 | After a disconnect the socket is in no room. |
| Collab.HandlePreservesValid | PRO_3/backend/controllers/socketController.js:10-119 | Every handler keeps the registry invariant: each room is listed once in the order, has at least one user, and holds at most 100 chat entries. |
| Collab.RunPreservesValid | PRO_3/backend/controllers/socketController.js:6-120 | The invariant holds after any sequence of events from any sockets. |
| Collab.Handle | PRO_3/backend/controllers/socketController.js:6-120 | Only `join_problem` creates a room. Every event other than a join or a disconnect keeps the set of rooms and each room's users. |
| Collab.RejoinAfterEmptyStartsFresh | PRO_3/backend/controllers/socketController.js:13-19 | A room whose last user disconnected is gone. Joining it again starts with empty code and empty chat. |
| GamificationConfig.RulePoints | PRO_3/backend/config/gamificationConfig.js:1-6 | `POINTS_RULES[actionType] \|\| 0` is 0 exactly for action types with no rule; a chat message is worth 1. |
| GamificationConfig.CalculatePoints | PRO_3/backend/config/gamificationConfig.js:83-92 | Non-chat actions get their rule's points. A chat message gets at most 1, never takes the total past the cap of 20, and is 1 unless it lands exactly on the cap. |
| GamificationConfig.CalculatePointsIgnoresCurrent | PRO_3/backend/config/gamificationConfig.js:83-92 | For every action but chat, the result does not depend on `currentPoints`. |
| GamificationConfig.ChatPointsAroundCap | PRO_3/backend/config/gamificationConfig.js:87-89 | Chat points are 1 below the cap, at most 0 from the cap on, and negative past it: there is no lower clamp. |
| GamificationConfig.CatalogueDistinct | PRO_3/backend/config/gamificationConfig.js:8-60 | The catalogue's `id` fields are distinct, and so are its keys. |
| GamificationConfig.EarnedIn | PRO_3/backend/config/gamificationConfig.js:66-77 | Over any catalogue, the result is a subsequence of the ids in declaration order. Each listed id belongs to a badge that is earned, and every earned badge's id is listed. |
| GamificationConfig.CheckBadgeEligibility | PRO_3/backend/config/gamificationConfig.js:63-80 | A catalogue badge is returned iff it is current, not owned, of this requirement type, and `actionCount` reaches its count. No owned or future id is returned. The result has no repeats and follows declaration order. |
| GamificationConfig.EarnedExactly | PRO_3/backend/config/gamificationConfig.js:66-77 | When ids are distinct, a badge's id is listed exactly when the badge is earned, and nothing owned is listed. |
| GamificationConfig.NeverProblemSolver | PRO_3/backend/config/gamificationConfig.js:58-68 | No action type or count ever yields the future Problem Solver badge. |
| Users.CalculateLevel | PRO_3/backend/models/userModel.js:115-121 | The level is the one whose 100-point band holds the points, and it is at least 1 for non-negative points. |
| Users.LevelUnique | PRO_3/backend/models/userModel.js:115-121 | Any level whose band holds the points is `calculateLevel`'s level. |
| Users.LevelMonotone | PRO_3/backend/models/userModel.js:118 | More points never give a lower level. |
| Users.GetLevelProgress | PRO_3/backend/models/userModel.js:124-137 | The current level is the stored one and `requiredPoints` is always 100. The progress points plus the band start give the points. |
| Users.ProgressWithinBand | PRO_3/backend/models/userModel.js:124-134 | When the stored level is the derived one, the progress lies in [0, 100). |
| Users.GetBadgeSummary | PRO_3/backend/models/userModel.js:140-151 | `totalBadges` is the badge count and `badgeIds` are the badges. The recent list holds min(5, count) achievements, newest first, all taken from the achievements. It is a permutation of them when there are at most five. |
| Users.AfterBadgeSummary | PRO_3/backend/models/userModel.js:146-148 | The in-place `sort` leaves the document otherwise unchanged, with its achievements permuted newest first. The summary's recent list is the front of that order. |
| Users.SummaryKeepsNewest | PRO_3/backend/models/userModel.js:146-148 | No achievement left out of the summary is newer than one shown. |
| Users.Save | PRO_3/backend/models/userModel.js:175-180 | A save fails exactly when points are below the schema minimum of 0 (lines 30-34). Otherwise only the level can change. When points were modified, the level is the band of the points; otherwise the document is saved as is. |
| Users.SavedLevelConsistent | PRO_3/backend/models/userModel.js:175-180 | A saved document whose points changed has level at least 1 and progress within its band. |
| Awards.GetDailyActionCount | PRO_3/backend/controllers/gamificationController.js:9-13 | The count under the user-action-day key, or 0 for a key never seen. |
| Awards.IncrementDailyActionCount | PRO_3/backend/controllers/gamificationController.js:16-22 | Returns the old count plus one, and a later get returns that value. Only that key is added or changed. |
| Awards.CleanupOldTrackers | PRO_3/backend/controllers/gamificationController.js:25-35 | Removes exactly the keys that contain the day string and keeps every other count. |
| Awards.CleanupRemovesDay | PRO_3/backend/controllers/gamificationController.js:30-33 | After cleanup, every user's count for that day reads 0. |
| Awards.PointsToAward | PRO_3/backend/controllers/gamificationController.js:45-58 | A chat message earns 1 iff fewer than 20 were counted today, else 0. The counter is incremented only when a point is awarded. Other actions earn their rule's points, or 0, and leave the tracker alone. |
| Awards.ChatPointsCapped | PRO_3/backend/controllers/gamificationController.js:48-55 | `k` chat messages earn min(k, 20 - c) points once `c` have been counted (0 when c ≥ 20), and the counter ends at `c` plus the points. No day yields more than 20 chat points. |
| Awards.Credit | PRO_3/backend/controllers/gamificationController.js:65-72 | Adds exactly the points and raises exactly `actionCounts[actionType]` by one. Badges, languages, achievements and level are unchanged. |
| Awards.ScanBadges | PRO_3/backend/controllers/gamificationController.js:78-114 | The granted badges are catalogue badges in declaration order, each not held, current and qualifying. With distinct keys, every badge that passes is granted. |
| Awards.Qualifies | PRO_3/backend/controllers/gamificationController.js:86-103 | A requirement type outside the five the `switch` knows never qualifies. |
| Awards.QualifiesMonotone | PRO_3/backend/controllers/gamificationController.js:86-103 | Requirements are lower bounds: a document with at least the points, languages and action counts of a qualifying one also qualifies. |
| Awards.CreditDominates | PRO_3/backend/controllers/gamificationController.js:65-72 | Crediting an action never lowers the points, languages or any action count, so no qualification is lost. |
| Awards.ScanKeepsBadgesDistinct | PRO_3/backend/controllers/gamificationController.js:80-106 | If the held keys have no repeats, they still have none after the scan's keys are appended, so no badge is granted twice. |
| Awards.ScanGrantsQualified | PRO_3/backend/controllers/gamificationController.js:84-106 | Every current catalogue badge that the document qualifies for and does not hold ends up among its keys. `TOTAL_POINTS` is judged on the credited points. |
| Awards.InfoOf | PRO_3/backend/controllers/gamificationController.js:107-112 | A `newBadges` entry carries the badge's key as `id`, with its name, description and icon. |
| Awards.BadgeMessage | PRO_3/backend/controllers/gamificationController.js:130 | The notification text is "Congratulations! You earned ", then the number of badges in decimal, then " new badge", then an optional "s" and "!". The length pins that down. The "s" is there exactly when more than one badge was earned. |
| Awards.AwardEvents | PRO_3/backend/controllers/gamificationController.js:119-134 | Without socket.io nothing is emitted. With it, `gamification_update` goes to the user's room first, followed by the badge notification exactly when badges were granted. |
| Awards.AwardPointsAndBadges | PRO_3/backend/controllers/gamificationController.js:38-146 | A missing user is an error and leaves the tracker alone. Otherwise the tracker is the one the points decision leaves. A zero award returns `{0, []}` with the document unchanged. |
| Awards.PositiveAward | PRO_3/backend/controllers/gamificationController.js:64-140 | A positive award fails exactly when the credited points would fall below the schema minimum of 0. On success: the points rise by exactly the award; only the action's counter moves, by one; the scanned keys are appended and the level is recomputed. The result reports the award, the new total and exactly the granted badges, and the events match. |
| Awards.TrackLanguageUsage | PRO_3/backend/controllers/gamificationController.js:149-168 | A missing user stays missing. A known language, or a failed save (negative points), leaves the document as it was. A new language is appended and nothing else changes. Languages stay free of repeats. |
| Awards.LanguageExplorerNotGranted | PRO_3/backend/controllers/gamificationController.js:158-163 | A user who reaches three languages through this call holds no Language Explorer badge when the call returns. |
| Awards.TrackLanguageUsageChecked | PRO_3/backend/controllers/gamificationController.js:158-163 | The intended version never changes points, keeps languages free of repeats, and appends a new language. |
| Awards.CheckedGrantsLanguageExplorer | PRO_3/backend/controllers/gamificationController.js:162-163 | With the badge check in place, recording a third language grants Language Explorer. |
| Awards.LookupIn | PRO_3/backend/controllers/gamificationController.js:180 | `BADGES[badgeId]` finds an entry with that key when there is one, and none otherwise. |
| Awards.StatusIn | PRO_3/backend/controllers/gamificationController.js:179-187 | The status badge list has one entry per held key that names a catalogue entry, future ones included, in held order. Each entry carries that entry's public fields. Other keys are dropped. |
| Awards.StatusReportsAllKnown | PRO_3/backend/controllers/gamificationController.js:179-187 | When every held key names an entry, the report's ids are exactly the held keys, in order. |
| Awards.NoneReported | PRO_3/backend/controllers/gamificationController.js:181-187 | Keys that name no entry are all filtered out. |
| Awards.CaseConventions | PRO_3/backend/config/gamificationConfig.js:8-60 | Every catalogue `id` starts with a lower-case letter and every key with an upper-case one. |
| Awards.EligibilityIdsNotReported | PRO_3/backend/controllers/gamificationController.js:179-187 | Ids produced by `checkBadgeEligibility` (lower-case) are never reported by the status list, which looks up upper-case keys. |
| Awards.DetailsOf | PRO_3/backend/controllers/gamificationController.js:254-262 | There is one entry per current badge. |
| Awards.DetailsSource | PRO_3/backend/controllers/gamificationController.js:254-262 | Every listed entry is the detail of a current badge of the list. |
| Awards.DetailsCover | PRO_3/backend/controllers/gamificationController.js:254-262 | Every current badge has its detail listed. |
| Awards.CurrentBadges | PRO_3/backend/config/gamificationConfig.js:8-60 | Exactly four catalogue badges are current. |
| Awards.GetBadgeDetails | PRO_3/backend/controllers/gamificationController.js:252-267 | `getBadgeDetails` lists four entries: every current badge, keyed by its `BADGES` key, and never Problem Solver. |
| Awards.BadgeDetailsListing | PRO_3/backend/controllers/gamificationController.js:254-262 | The filter-then-map over the catalogue yields four entries: every current badge, and never Problem Solver. |
| Awards.Standings | PRO_3/backend/controllers/gamificationController.js:205-206 | The users are ordered by points, most first, as a permutation of the input. |
| Awards.GetLeaderboard | PRO_3/backend/controllers/gamificationController.js:203-231 | A negative skip is refused. Otherwise: the board is the standings window after `skip`, at most `limit` long; entry `i` has rank `skip+i+1` and points never increase; `totalUsers` is the user count. `currentPage` is the page holding position `skip` and `totalPages` the fewest pages that hold everyone. |
| Awards.LeaderboardPageOfRequest | PRO_3/backend/routes/gamificationRoutes.js:15-19 | Asking for page `p` with `skip = (p-1)*limit` succeeds and reports page `p`. |
| Awards.GetUserRank | PRO_3/backend/controllers/gamificationController.js:234-249 | A user has no rank exactly when no user has the id. A known user's rank lies between 1 and the user count. |
| Awards.RankOrder | PRO_3/backend/controllers/gamificationController.js:240-244 | For two known users, more points give a strictly smaller (better) rank. |
| Awards.RankOneIffTop | PRO_3/backend/controllers/gamificationController.js:240-244 | A known user has rank 1 exactly when no user has more points. |
| Awards.TiesShareRank | PRO_3/backend/controllers/gamificationController.js:240-244 | Users with equal points have equal ranks. |
| Awards.LeaderboardRankNotBetter | PRO_3/backend/controllers/gamificationController.js:211-244 | With distinct user ids, no leaderboard position claims a better rank than `getUserRank` gives the same user. |
| Problems.ParseStatus | PRO_3/backend/models/problemModel.js:54-58 | The status enum accepts exactly the four stored names. |
| Problems.StatusRoundTrip | PRO_3/backend/models/problemModel.js:54-58 | Every status survives being stored and read back. |
| Problems.NewProblem | PRO_3/backend/models/problemModel.js:49-63 | A new problem is open, unviewed and unanswered, with empty tags unless tags are given. |
| Problems.FindProblem | PRO_3/backend/controllers/problemController.js:72 | Finds a document with the id, or reports that none has it. |
| Problems.FindSolution | PRO_3/backend/controllers/problemController.js:196 | Finds the first solution with the id, or reports that none has it. |
| Problems.ClassifyMedia | PRO_3/backend/controllers/problemController.js:18-26 | As many images as uploads with an `image/` type, and no more paths than uploads. |
| Problems.ClassifyMediaSound | PRO_3/backend/controllers/problemController.js:19-25 | Images are the paths of the `image/` uploads and videos those of the remaining `video/` uploads, in upload order. Everything else is dropped. |
| Problems.ClassifyMediaAppend | PRO_3/backend/controllers/problemController.js:19-25 | Classifying two batches together is classifying each and concatenating. |
| Problems.ParseTags | PRO_3/backend/controllers/problemController.js:31 | There is one tag per comma plus one. Each is the trimmed comma-free piece at its position. |
| Problems.ParseTagsOfTrimmedList | PRO_3/backend/controllers/problemController.js:31 | Comma-free, already-trimmed tags joined with commas parse back to themselves. |
| Problems.CreateProblem | PRO_3/backend/controllers/problemController.js:8-44 | Missing `tags` throws (500). Otherwise it succeeds iff title and description are non-empty and the id is new. On success the store gains exactly one open problem with parsed tags and classified media. |
| Problems.PageOf | PRO_3/backend/controllers/problemController.js:52 | A missing or zero page number means page 1; any other number is kept. |
| Problems.GetProblems | PRO_3/backend/controllers/problemController.js:49-65 | A page below 1 fails with 500. Otherwise the page holds the newest-first window after `10*(page-1)`. `count` is the store size and `pages` is the ceiling of count/10. |
| Problems.GetProblemsPage | PRO_3/backend/controllers/problemController.js:55-59 | A page holds at most ten problems, newest first, all from the store. |
| Problems.GetProblemById | PRO_3/backend/controllers/problemController.js:70-88 | A missing problem is a 404. A found one is returned and stored with its view count raised by exactly one. |
| Problems.SearchProblems | PRO_3/backend/controllers/problemController.js:93-98 | A missing or empty query is a 400; any other query is passed on. |
| Problems.SearchGuardAcceptsBlank | PRO_3/backend/controllers/problemController.js:96-98 | The guard rejects only the empty string. A non-empty all-whitespace query, which trims to nothing, is accepted. |
| Problems.AfterAnswer | PRO_3/backend/controllers/problemController.js:150-152 | Open becomes in-progress; every other status is unchanged. |
| Problems.AddSolution | PRO_3/backend/controllers/problemController.js:116-182 | A missing problem is a 404 and empty content fails validation. On success: exactly one solution is appended, with zero votes, not accepted, and classified media; the status moves by `AfterAnswer` and nothing else changes; the owner is notified. |
| Problems.VoteDelta | PRO_3/backend/controllers/problemController.js:201-205 | An upvote is +1, a downvote -1, and anything else 0. |
| Problems.VoteSolution | PRO_3/backend/controllers/problemController.js:187-231 | A missing problem, then a missing solution, is a 404. On success only that solution's votes move, by `VoteDelta`, and its author is notified. |
| Problems.AcceptOnly | PRO_3/backend/controllers/problemController.js:253-254 | Every solution is unaccepted except the chosen one. |
| Problems.AcceptSolution | PRO_3/backend/controllers/problemController.js:236-283 | The checks run in order: 404 for the problem, then 404 for the solution, then 403 for a non-owner. The owner always succeeds. On success exactly the chosen solution is accepted, nothing else changes, the problem is solved, and the author is notified. |
| Problems.HandlersKeepAtMostOneAccepted | PRO_3/backend/controllers/problemController.js:28-257 | Creating, viewing, adding, voting and accepting, every handler that writes the store, never leave two solutions of a problem accepted. |
| Sorting.SortDesc | PRO_3/backend/controllers/problemController.js:57 | Sorting gives a permutation of the input with keys never increasing. |
| Text.Split | PRO_3/backend/controllers/problemController.js:31 | `split(',')` gives one piece per separator plus one, and no piece holds the separator. |
| Text.JoinSplit | PRO_3/backend/controllers/problemController.js:31 | Joining the pieces with the separator gives back the input. |
| Text.SplitJoin | PRO_3/backend/controllers/problemController.js:31 | Separator-free pieces, joined, split back into themselves. |
| Text.Trim | PRO_3/backend/controllers/problemController.js:31 | `trim()` gives the slice left once whitespace is cut from both ends, and it neither starts nor ends with whitespace. |
| Text.TrimIdempotent | PRO_3/backend/controllers/problemController.js:31 | Trimming twice is trimming once. |
| Text.TrimEmptyIffBlank | PRO_3/frontend/src/pages/ProblemDetail.jsx:77 | A draft trims to nothing exactly when it is all whitespace. |
| Text.Decimal | PRO_3/backend/controllers/gamificationController.js:130 | A number renders as a non-empty string of digits, with no leading zero for a positive number, whose decimal value is the number. |
| Notifications.MarkRead | PRO_3/frontend/src/context/notificationContext.jsx:53-59 | Only notifications with the id become read; all others are unchanged. |
| Notifications.MarkAsRead | PRO_3/frontend/src/context/notificationContext.jsx:40-65 | Signed out, or on a failed request, nothing changes. Otherwise the id's notifications are read and the counter is max(0, prev-1), never negative. |
| Notifications.MarkAsReadConsistent | PRO_3/frontend/src/context/notificationContext.jsx:53-61 | Marking an unread notification read keeps the counter equal to the number of unread notifications. |
| Notifications.MarkAsReadUnlists | PRO_3/frontend/src/pages/Notifications.jsx:70 | A notification just marked read is no longer listed on the page. |
| Notifications.MarkAllAsRead | PRO_3/frontend/src/context/notificationContext.jsx:68-89 | It is a no-op when signed out, when the counter is 0, or when the request fails. Otherwise every notification is read and the counter is 0. |
| Notifications.MarkAllAsReadConsistent | PRO_3/frontend/src/context/notificationContext.jsx:81-85 | The counter stays equal to the number of unread notifications. When there was something unread, the page lists nothing afterwards. |
| Notifications.WithoutId | PRO_3/frontend/src/context/notificationContext.jsx:105-107 | No notification with the id remains. |
| Notifications.WithoutIdKeepsOthers | PRO_3/frontend/src/context/notificationContext.jsx:105-107 | Every other notification is kept, in order. |
| Notifications.DeleteNotification | PRO_3/frontend/src/context/notificationContext.jsx:92-119 | Signed out, or on a failed request, nothing changes. Otherwise the id's notifications are dropped, the others kept in order. The counter drops by one, clamped at 0, exactly when the first match was unread. |
| Notifications.WithoutIdRemovesAt | PRO_3/frontend/src/context/notificationContext.jsx:105-107 | With distinct ids, deleting removes exactly the one notification at its index. |
| Notifications.DeleteConsistent | PRO_3/frontend/src/context/notificationContext.jsx:105-115 | Deleting keeps the counter equal to the number of unread notifications. |
| Notifications.HandleNewNotification | PRO_3/frontend/src/context/notificationContext.jsx:132-134 | While signed in, a new notification is put first and the counter rises by one; otherwise there is no listener. |
| Notifications.NewNotificationConsistent | PRO_3/frontend/src/context/notificationContext.jsx:132-134 | An unread arrival keeps the counter consistent. |
| Notifications.UnreadList | PRO_3/frontend/src/pages/Notifications.jsx:70 | The page lists exactly the unread notifications. |
| Notifications.DisabledIffNothingListed | PRO_3/frontend/src/pages/Notifications.jsx:82 | "Mark all as read" is disabled exactly when the page lists nothing. |
| Notifications.Bucket | PRO_3/frontend/src/pages/Notifications.jsx:36-50 | Under 60 s is "just now" and a week or more is a date. Otherwise the unit is minutes under an hour, hours under a day, else days. The count is the whole number of units elapsed, at least 1. |
| Notifications.Label | PRO_3/frontend/src/pages/Notifications.jsx:38-48 | "just now", or the count in decimal, a space and the unit, always ending in " ago". A count of one gives exactly `1 <unit> ago`. |
| Notifications.PluralIffMoreThanOne | PRO_3/frontend/src/pages/Notifications.jsx:42-48 | Between a minute and a week, the label is the plural `<count> <unit>s ago` exactly when the count is more than one. |
| Notifications.NotificationPath | PRO_3/frontend/src/pages/Notifications.jsx:55-68 | The three solution kinds link to `/problems/<id>` and `new_message` to `/collaborate/<id>`. Anything else links to `#`. The id is the populated `_id`, else the raw value. |
| Notifications.RefId | PRO_3/frontend/src/pages/Notifications.jsx:57 | A raw id or a populated document's id is used as is. A populated document without an id renders as `[object Object]` and a missing one as `undefined`. |
| Notifications.SolutionNoticesLinkToProblem | PRO_3/frontend/src/pages/Notifications.jsx:57-62 | Every notice the solution handlers create links to its problem's page, whether the problem arrives populated or as an id. |
| ProblemView.OnSolutionReceived | PRO_3/frontend/src/pages/ProblemDetail.jsx:40-46 | The relayed document goes at the end as it came, whether a solution or a whole problem, and the other entries are unchanged. |
| ProblemView.OnVoteUpdated | PRO_3/frontend/src/pages/ProblemDetail.jsx:48-55 | Only entries with that `_id` take the new count, and only their votes change; on a problem document the count is added. |
| ProblemView.VoteUpdateIdempotent | PRO_3/frontend/src/pages/ProblemDetail.jsx:51-53 | Applying the same vote update twice is applying it once. |
| ProblemView.OnAcceptanceUpdated | PRO_3/frontend/src/pages/ProblemDetail.jsx:57-66 | An entry is accepted exactly when it has that `_id`, every entry gets the field, and nothing else changes. |
| ProblemView.AcceptanceLeavesOneAccepted | PRO_3/frontend/src/pages/ProblemDetail.jsx:57-65 | With distinct ids, at most one entry is accepted afterwards, namely the matching one. |
| ProblemView.ReceivedMatchesAddSolution | PRO_3/frontend/src/pages/ProblemDetail.jsx:42-45 | A peer that folds in the stored solution document holds exactly the list the server stored. |
| ProblemView.VoteUpdatedMatchesVoteSolution | PRO_3/frontend/src/pages/ProblemDetail.jsx:48-54 | With distinct ids, the vote listener reproduces the server's vote. |
| ProblemView.AcceptanceUpdatedMatchesAcceptSolution | PRO_3/frontend/src/pages/ProblemDetail.jsx:57-65 | With distinct ids, the acceptance listener reproduces the server's acceptance. |
| ProblemView.SubmitWith | PRO_3/frontend/src/pages/ProblemDetail.jsx:75-103 | A blank draft or a signed-out visitor changes nothing, and a failed request shows the error. Otherwise the document is appended and relayed to the room, and the draft is cleared. |
| ProblemView.Submit | PRO_3/frontend/src/pages/ProblemDetail.jsx:75-103 | As written: the appended and relayed document is the 201 response itself, the whole updated problem. |
| ProblemView.SubmitAppendsProblemDocument | PRO_3/frontend/src/pages/ProblemDetail.jsx:91-97 | After a successful submit, the sender's last entry is a problem document with the problem's `_id`. The peers fold in the same entry, so no list equals the stored one. |
| ProblemView.SubmitStored | PRO_3/frontend/src/pages/ProblemDetail.jsx:75-103 | Corrected: the stored solution is appended and relayed instead. |
| ProblemView.SubmitStoredMatchesServer | PRO_3/backend/controllers/problemController.js:141-178 | Corrected: the sender and every peer end with exactly the list the server stored. |
| ProblemView.Vote | PRO_3/frontend/src/pages/ProblemDetail.jsx:105-130 | Only a signed-in, successful vote changes the page or announces anything. Then the voted entries take the returned count, the others are unchanged, and the count is announced. |
| ProblemView.Accept | PRO_3/frontend/src/pages/ProblemDetail.jsx:132-159 | Only a signed-in, successful accept changes the page or announces anything. Then exactly the chosen entry is accepted and the problem, its status included, is untouched. |
| ProblemView.SubmitConverges | PRO_3/frontend/src/pages/ProblemDetail.jsx:91-97 | As written and as corrected, the room relays the announcement once to the others, and a peer that matched the sender ends with the sender's list. |
| ProblemView.VoteConverges | PRO_3/frontend/src/pages/ProblemDetail.jsx:118-126 | As above, for a vote. |
| ProblemView.AcceptConverges | PRO_3/frontend/src/pages/ProblemDetail.jsx:145-155 | As above, for an acceptance. |
| ProblemView.AcceptButtonNotForbidden | PRO_3/frontend/src/pages/ProblemDetail.jsx:219 | Accept is shown only where the server's accept succeeds, never where it would give the owner-only 403. |
| ProblemView.ShowAccept | PRO_3/frontend/src/pages/ProblemDetail.jsx:219 | The button is shown exactly to the problem's owner, on an entry whose `isAccepted` is not true. |
| ProblemView.AcceptMovesButton | PRO_3/frontend/src/pages/ProblemDetail.jsx:219-226 | After the owner accepts, the button disappears from that entry and shows on every other one. |
| GamificationView.OnPointsUpdated | PRO_3/frontend/src/context/GamificationContext.jsx:47-49 | The event's points are added and the badges are unchanged. |
| GamificationView.OnBadgesEarned | PRO_3/frontend/src/context/GamificationContext.jsx:52-57 | All badges are appended in order, and points are added only when present and non-zero. |
| GamificationView.BadgesEarnedHasBadge | PRO_3/frontend/src/context/GamificationContext.jsx:52-57 | Afterwards the user has a badge iff it was held before or is in the event. |
| GamificationView.OnGamificationUpdate | PRO_3/frontend/src/context/GamificationContext.jsx:60-67 | Non-zero points are added and a non-empty badge list is appended. With neither, the state is unchanged. |
| GamificationView.HasBadge | PRO_3/frontend/src/context/GamificationContext.jsx:119-121 | True iff some held badge has the id. |
| GamificationView.HandlersKeepBadges | PRO_3/frontend/src/context/GamificationContext.jsx:47-67 | No handler takes a badge away. |
| GamificationView.StatusAfterGrant | PRO_3/backend/controllers/gamificationController.js:179-187 | Granting catalogue badges adds exactly their public fields to the end of the status report. |
| GamificationView.ApplyAwardEvents | PRO_3/frontend/src/context/GamificationContext.jsx:60-67 | What a positive award emits goes to the user's room, and applying it adds the points and appends the badges. |
| GamificationView.ClientTracksAward | PRO_3/frontend/src/context/GamificationContext.jsx:60-72 | A client that mirrored the user document before a positive award mirrors the saved document afterwards: points and the status badge list. |

## Left out

- Persistence: MongoDB and Mongoose calls (`find`, `save`, `countDocuments`, `populate`, the `$text` search and its ranking) and Express plumbing are abstracted. A store is an in-memory sequence, and a handler returns the new store or its HTTP error.
- The text search: only the query guard of `searchProblems` is modelled; matching and ranking belong to the database.
- Transport: socket.io delivery and room naming, `server.js` (a second relay variant) and `chatController.js` (which emits to differently named rooms). Broadcasts are an event log tagged with audiences.
- Clocks and timers: `new Date()`, `toDateString`, `toISOString` and the daily `setInterval` cleanup. The day, timestamps and elapsed seconds are parameters, and `Notifications.Label` does not render the week-or-older branch (`toLocaleDateString`, locale formatting).
- Floating point: the rounded `percentage` of `getLevelProgress`, and non-integer or `NaN` page numbers, limits and counts.
- Awards.GetLeaderboard: requires `limit > 0`. The route turns 0 and `NaN` into 10, but a negative `limit` would reach the store, whose meaning for it is not modelled.
- Sorting.SortDesc: the contracts state ordering and permutation only, not how equal keys are ordered. The database's `sort({field: -1})` leaves ties unspecified, so nothing more is promised for `getProblems` and `getLeaderboard`. `Array.prototype.sort` is stable (required since ECMAScript 2019), and so is `SortDesc`, whose insertion puts an element before equal keys, but that stability for `getBadgeSummary` is not stated as a contract.
- Inherited object keys: `POINTS_RULES[actionType]` and `BADGES[badgeId]` for names like `toString` are treated as absent.
- Missing payload fields: socket payloads are assumed well-formed. A missing `problemId` or message in JavaScript would use `undefined` as a key, which is not modelled.
- The rest of `getUserGamificationStatus`: only its badge list (`Awards.StatusIn`) is modelled; its points, rank, counts and languages fields are plain copies.
- `updateActivity`, password hashing and the password pre-save hook of `userModel.js`.
- Unused client events: the client listens for `points_updated` and `badges_earned`, which the server never emits. Their handlers are modelled, but only `gamification_update` takes part in `GamificationView.ClientTracksAward`.
- ProblemView.VoteUpdatedMatchesVoteSolution: assumes distinct solution ids, as the store assigns them. With repeated ids the listener updates every match while the server updates only the first.
- ProblemView.AcceptanceUpdatedMatchesAcceptSolution: assumes distinct solution ids, for the same reason.
- Collab.OnDisconnect: states the effect on rooms listed in the map's order, which in a registry that satisfies the invariant is every room.
- Users.Save: models only the points minimum and the level hook, not the other schema validators.
- Problems.CreateProblem: Mongoose's `required` validation is modelled as present and non-empty. The 500 messages for failed validation and a duplicate id stand in for the database's own text.
- Notifications.DeleteNotification: the counter update reads the first notification with the id, as `find` does. Consistency (`Notifications.DeleteConsistent`) is proved for distinct ids.
- Notifications.DeleteNotification: each handler is applied atomically to the current state. In the code, `deleteNotification` filters the list captured at the last render and overwrites the list with it. A notification that arrives while the DELETE request is pending is therefore dropped from the list but stays counted in `unreadCount`. The model does not show that interleaving, and `Notifications.DeleteConsistent` holds only without it.
- Notifications.MarkAllAsRead: the `unreadCount === 0` guard reads the count captured at the last render, not the current one. The model reads the current count.
- ProblemView.Submit: the page's list is rebuilt from the `problem` captured at the last render (`setProblem({...problem, …})`), whereas the listeners use functional updates. A `solution_received`, `vote_updated` or `acceptance_updated` that arrives while the POST is pending is therefore overwritten. The model applies each handler to the current list, and `ProblemView.SubmitConverges` holds only without that interleaving.
- ProblemView.Vote: the same render-time rebuild; `ProblemView.VoteConverges` holds only without a peer event during the request.
- ProblemView.Accept: the same render-time rebuild; `ProblemView.AcceptConverges` holds only without a peer event during the request.
- ProblemView.Submit: the response's `populate` of the problem's and the solutions' `user` fields is not modelled; the appended document is the stored problem.

## Findings

| source | as written | input that shows it | evidently intended | confidence | as-written member | corrected member |
|---|---|---|---|---|---|---|
| PRO_3/backend/controllers/gamificationController.js:158-163 | After recording a new language, `trackLanguageUsage` asks `awardPointsAndBadges` for `UNIQUE_LANGUAGES`. That action has no points rule, so the call returns at its zero-points exit (lines 60-62) before the badge loop. Language Explorer is therefore not granted by this call; the badge waits for the user's next positive award, whose scan checks the language count. | A user with languages `["js", "py"]` and no badges records `"go"`: three languages, and no badge after the call. | The comment at line 162 says the call is a check for the Language Explorer badge: the badge scan should run on the updated document. | not executed | Awards.TrackLanguageUsage, Awards.LanguageExplorerNotGranted | Awards.TrackLanguageUsageChecked, Awards.CheckedGrantsLanguageExplorer |
| PRO_3/frontend/src/pages/ProblemDetail.jsx:91-97 | `handleSubmitSolution` appends `response.data` to the solution list and relays it with `sendNewSolution`. But `addSolution` answers with the whole updated problem (problemController.js:174-178), not the new solution. The sender and every peer therefore add a problem document whose `_id` is the problem's and which has no `content` and no `votes`. | Any successful submit: the last entry of every list in the room has the problem's id. | The page should append and relay the solution just stored, the last element of `response.data.solutions`, so that its list matches the server's. | not executed | ProblemView.Submit, ProblemView.SubmitAppendsProblemDocument | ProblemView.SubmitStored, ProblemView.SubmitStoredMatchesServer |

=== FILE: awards.dfy ===
/**
 * The rule core of backend/controllers/gamificationController.js: the per-(user, action,
 * day) tracker that caps chat points, point and badge awards, language tracking, the
 * badge lists it reports, and leaderboard and rank arithmetic. The document store is a
 * parameter (the user's document, or the list of all users); the calendar day is a
 * parameter in place of `new Date().toDateString()`.
 */
module Awards {
  import opened Common
  import opened Seqs
  import opened Text
  import opened GamificationConfig
  import Users
  import Sorting

  // ---------------------------------------------------------------------------
  // Daily action tracker
  // ---------------------------------------------------------------------------

  /** `dailyActionTracker`: counts keyed by user, action and day. */
  type Tracker = map<string, nat>

  function TrackerKey(userId: string, actionType: string, day: string): string {
    userId + "_" + actionType + "_" + day
  }

  /** `getDailyActionCount`: the count under the key, 0 for a key never seen. */
  function GetDailyActionCount(t: Tracker, userId: string, actionType: string, day: string): (n: nat)
    ensures TrackerKey(userId, actionType, day) !in t ==> n == 0
    ensures TrackerKey(userId, actionType, day) in t ==> n == t[TrackerKey(userId, actionType, day)]
  {
    var key := TrackerKey(userId, actionType, day);
    if key in t then t[key] else 0
  }

  datatype Incremented = Incremented(tracker: Tracker, count: nat)

  /**
   * `incrementDailyActionCount`: stores and returns one more than the current count;
   * every other key keeps its count.
   */
  function IncrementDailyActionCount(t: Tracker, userId: string, actionType: string, day: string): (r: Incremented)
    ensures r.count == GetDailyActionCount(t, userId, actionType, day) + 1
    ensures GetDailyActionCount(r.tracker, userId, actionType, day) == r.count
    ensures r.tracker.Keys == t.Keys + {TrackerKey(userId, actionType, day)}
    ensures forall k :: k in t && k != TrackerKey(userId, actionType, day) ==> r.tracker[k] == t[k]
  {
    var n := GetDailyActionCount(t, userId, actionType, day) + 1;
    Incremented(t[TrackerKey(userId, actionType, day) := n], n)
  }

  /**
   * `cleanupOldTrackers`: drops every key whose text includes the given day string
   * (yesterday's, in the source) and keeps the rest with their counts.
   */
  function CleanupOldTrackers(t: Tracker, yesterday: string): (r: Tracker)
    ensures r.Keys <= t.Keys
    ensures forall k :: k in r ==> r[k] == t[k] && !Contains(k, yesterday)
    ensures forall k :: k in t && !Contains(k, yesterday) ==> k in r
  {
    map k | k in t && !Contains(k, yesterday) :: t[k]
  }

  /** Every tracker entry made on the day being cleaned up is removed. */
  lemma CleanupRemovesDay(t: Tracker, yesterday: string, userId: string, actionType: string)
    ensures TrackerKey(userId, actionType, yesterday) !in CleanupOldTrackers(t, yesterday)
    ensures GetDailyActionCount(CleanupOldTrackers(t, yesterday), userId, actionType, yesterday) == 0
  {
    ContainsSuffix(userId + "_" + actionType + "_", yesterday);
  }

  // ---------------------------------------------------------------------------
  // Points to award
  // ---------------------------------------------------------------------------

  datatype Decision = Decision(points: nat, tracker: Tracker)

  /**
   * The points part of `awardPointsAndBadges`: a chat message earns 1 while fewer than
   * 20 have been counted today, and only then is the day's counter incremented; any
   * other action earns its rule's points (0 when it has none) and leaves the tracker alone.
   */
  function PointsToAward(t: Tracker, userId: string, actionType: string, day: string): (d: Decision)
    ensures actionType == ChatMessage ==>
      var count := GetDailyActionCount(t, userId, actionType, day);
      && (d.points == 1 <==> count < DailyChatCap)
      && (d.points == 0 <==> count >= DailyChatCap)
      && d.tracker == (if d.points > 0 then IncrementDailyActionCount(t, userId, actionType, day).tracker else t)
    ensures actionType != ChatMessage ==> d.points == RulePoints(actionType) && d.tracker == t
  {
    if actionType == ChatMessage then
      var dailyCount := GetDailyActionCount(t, userId, actionType, day);
      var remaining := if DailyChatCap - dailyCount * RulePoints(ChatMessage) > 0
        then DailyChatCap - dailyCount * RulePoints(ChatMessage) else 0;
      var points := if RulePoints(ChatMessage) < remaining then RulePoints(ChatMessage) else remaining;
      if points > 0 then Decision(points, IncrementDailyActionCount(t, userId, actionType, day).tracker)
      else Decision(points, t)
    else Decision(RulePoints(actionType), t)
  }

  datatype ChatDay = ChatDay(total: nat, tracker: Tracker)

  /** `k` chat messages from one user on one day: the points they earn and the tracker after. */
  function ChatMessages(t: Tracker, userId: string, day: string, k: nat): ChatDay
    decreases k
  {
    if k == 0 then ChatDay(0, t)
    else
      var d := PointsToAward(t, userId, ChatMessage, day);
      var rest := ChatMessages(d.tracker, userId, day, k - 1);
      ChatDay(d.points + rest.total, rest.tracker)
  }

  /**
   * The daily chat cap: `k` messages earn `min(k, 20 - c)` points when `c` have been
   * counted already (none once `c` reaches 20), and the counter ends at `c` plus the
   * points; from a fresh day no user earns more than 20 chat points.
   */
  lemma {:induction false} ChatPointsCapped(t: Tracker, userId: string, day: string, k: nat)
    ensures var c := GetDailyActionCount(t, userId, ChatMessage, day);
      var r := ChatMessages(t, userId, day, k);
      && r.total == (if c >= DailyChatCap then 0 else if k < DailyChatCap - c then k else DailyChatCap - c)
      && GetDailyActionCount(r.tracker, userId, ChatMessage, day) == c + r.total
      && r.total <= DailyChatCap
    decreases k
  {
    if k > 0 {
      var d := PointsToAward(t, userId, ChatMessage, day);
      ChatPointsCapped(d.tracker, userId, day, k - 1);
    }
  }

  // ---------------------------------------------------------------------------
  // Badge scan
  // ---------------------------------------------------------------------------

  /**
   * The requirement check of the scan, by requirement type, against the updated document.
   * A requirement type outside the five the scan knows never qualifies.
   */
  predicate Qualifies(b: Badge, p: Users.Profile): (ok: bool)
    ensures (b.requirement.kind != JoinRoom && b.requirement.kind != ChatMessage && b.requirement.kind != TotalPoints &&
             b.requirement.kind != UniqueLanguages && b.requirement.kind != SolvedProblems) ==> !ok
  {
    var need := b.requirement.count;
    if b.requirement.kind == JoinRoom then Users.CountOf(p, JoinRoom) >= need
    else if b.requirement.kind == ChatMessage then Users.CountOf(p, ChatMessage) >= need
    else if b.requirement.kind == TotalPoints then p.points >= need
    else if b.requirement.kind == UniqueLanguages then |p.uniqueLanguages| >= need
    else if b.requirement.kind == SolvedProblems then Users.CountOf(p, SolvedProblems) >= need
    else false
  }

  /** `q` has at least the points, languages and action counts of `p`. */
  ghost predicate Dominates(p: Users.Profile, q: Users.Profile) {
    && p.points <= q.points
    && |p.uniqueLanguages| <= |q.uniqueLanguages|
    && forall a :: Users.CountOf(p, a) <= Users.CountOf(q, a)
  }

  /** Requirements are lower bounds: a document with at least as much of everything still qualifies. */
  lemma QualifiesMonotone(b: Badge, p: Users.Profile, q: Users.Profile)
    requires Dominates(p, q) && Qualifies(b, p)
    ensures Qualifies(b, q)
  {
    var k := b.requirement.kind;
    if k == JoinRoom || k == ChatMessage || k == SolvedProblems {
      assert Users.CountOf(p, k) <= Users.CountOf(q, k);
    }
  }

  /** Crediting an action only adds: the credited document dominates the original. */
  lemma CreditDominates(p: Users.Profile, actionType: string, points: nat)
    ensures Dominates(p, Credit(p, actionType, points))
  {
    var q := Credit(p, actionType, points);
    forall a ensures Users.CountOf(p, a) <= Users.CountOf(q, a) {
    }
  }

  /** Whether the scan grants `b` to `p` given the keys held so far. */
  predicate Passes(b: Badge, held: seq<string>, p: Users.Profile) {
    b.key !in held && !b.isFuture && Qualifies(b, p)
  }

  /**
   * `added` is what a scan of `bs` may grant: badges of `bs`, in order, each one passing;
   * and when the keys of `bs` are distinct, every badge that passes against `held` is there.
   */
  predicate Scanned(bs: seq<Badge>, held: seq<string>, p: Users.Profile, added: seq<Badge>) {
    && Subsequence(added, bs)
    && (forall i :: 0 <= i < |added| ==> Passes(added[i], held, p))
    && (NoDup(KeysOf(bs)) ==> forall j :: 0 <= j < |bs| && Passes(bs[j], held, p) ==> bs[j] in added)
  }

  /**
   * The `for … of Object.entries(BADGES)` loop: the catalogue badges, in order, that are
   * neither held (by key) nor future and whose requirement the document meets. A badge
   * pushed earlier in the loop counts as held for the rest of it.
   */
  function ScanBadges(bs: seq<Badge>, held: seq<string>, p: Users.Profile): (added: seq<Badge>)
    ensures Scanned(bs, held, p, added)
    decreases |bs|
  {
    if |bs| == 0 then []
    else
      var b := bs[0];
      var rest := ScanBadges(bs[1..], if Passes(b, held, p) then held + [b.key] else held, p);
      ScanStep(bs, held, p, rest);
      if Passes(b, held, p) then [b] + rest else rest
  }

  /** Deciding the first badge, in front of the scan of the others with its key held if granted, scans all. */
  lemma ScanStep(bs: seq<Badge>, held: seq<string>, p: Users.Profile, rest: seq<Badge>)
    requires |bs| > 0
    requires Scanned(bs[1..], if Passes(bs[0], held, p) then held + [bs[0].key] else held, p, rest)
    ensures Scanned(bs, held, p, if Passes(bs[0], held, p) then [bs[0]] + rest else rest)
  {
    var b := bs[0];
    assert KeysOf(bs)[1..] == KeysOf(bs[1..]);
    assert forall j :: 1 <= j < |bs| ==> bs[j] == bs[1..][j - 1];
    assert NoDup(KeysOf(bs)) ==> forall j :: 1 <= j < |bs| ==> bs[j].key != b.key;
  }

  /** The public fields of a badge, keyed by its `BADGES` key. */
  datatype BadgeInfo = BadgeInfo(id: string, name: string, description: string, icon: string)

  function InfoOf(b: Badge): (i: BadgeInfo)
    ensures i.id == b.key && i.name == b.name && i.description == b.description && i.icon == b.icon
  {
    BadgeInfo(b.key, b.name, b.description, b.icon)
  }

  function InfosOf(bs: seq<Badge>): (r: seq<BadgeInfo>)
    ensures |r| == |bs| && forall i :: 0 <= i < |bs| ==> r[i] == InfoOf(bs[i])
  {
    seq(|bs|, i requires 0 <= i < |bs| => InfoOf(bs[i]))
  }

  /** Scanning never grants a badge twice: held badges stay free of repeats. */
  lemma ScanKeepsBadgesDistinct(held: seq<string>, p: Users.Profile)
    requires NoDup(held)
    ensures NoDup(held + KeysOf(ScanBadges(Badges, held, p)))
  {
    var added := ScanBadges(Badges, held, p);
    var keys := KeysOf(added);
    CatalogueDistinct();
    SubsequenceKeys(added, Badges);
    SubsequenceNoDup(keys, KeysOf(Badges));
    forall i, j | 0 <= i < j < |held + keys| ensures (held + keys)[i] != (held + keys)[j] {
      if j >= |held| && i < |held| {
        assert (held + keys)[j] == added[j - |held|].key;
      }
    }
  }

  /** Taking keys keeps the subsequence relation. */
  lemma {:induction false} SubsequenceKeys(a: seq<Badge>, b: seq<Badge>)
    requires Subsequence(a, b)
    ensures Subsequence(KeysOf(a), KeysOf(b))
    decreases |b|
  {
    if |a| > 0 {
      assert KeysOf(b)[1..] == KeysOf(b[1..]);
      if a[0] == b[0] && Subsequence(a[1..], b[1..]) {
        assert KeysOf(a)[1..] == KeysOf(a[1..]);
        SubsequenceKeys(a[1..], b[1..]);
      } else {
        SubsequenceKeys(a, b[1..]);
      }
    }
  }

  // ---------------------------------------------------------------------------
  // awardPointsAndBadges
  // ---------------------------------------------------------------------------

  /** What the call returns to its caller. */
  datatype Award = Award(pointsAwarded: nat, totalPoints: Option<int>, newBadges: seq<BadgeInfo>)

  /** Events sent to the user's own socket.io room. */
  datatype UserEvent =
    | GamificationUpdate(points: nat, totalPoints: int, newBadges: seq<BadgeInfo>)
    | BadgeEarned(message: string, badges: seq<BadgeInfo>)

  datatype UserEmit = UserEmit(room: string, event: UserEvent)

  datatype AwardError = UserNotFound | NotSaved(reason: Users.SaveError)

  /** The saved document, the call's return value and the events emitted. */
  datatype Awarded = Awarded(profile: Users.Profile, award: Award, emitted: seq<UserEmit>)

  /** The tracker changes even when the call then fails, so it is returned either way. */
  datatype AwardOutcome = AwardOutcome(tracker: Tracker, result: Result<Awarded, AwardError>)

  function UserRoom(userId: string): string { "user_" + userId }

  /**
   * The `badge_earned` notification text: the number of badges in decimal after the
   * greeting, then "new badge", a plural 's' for more than one, and a closing '!'.
   */
  function BadgeMessage(n: nat): (m: string)
    ensures StartsWith(m, "Congratulations! You earned " + Decimal(n) + " new badge")
    ensures |m| == |"Congratulations! You earned " + Decimal(n) + " new badge"| + (if n > 1 then 2 else 1)
    ensures m[|m| - 1] == '!'
    ensures (n > 1) <==> m[|m| - 2] == 's'
  {
    var head := "Congratulations! You earned " + Decimal(n) + " new badge";
    var m := head + (if n > 1 then "s" else "") + "!";
    assert m[..|head|] == head;
    m
  }

  /** Adds the points and bumps the action's counter (`actionCounts[actionType] || 0) + 1`). */
  function Credit(p: Users.Profile, actionType: string, points: nat): (q: Users.Profile)
    ensures q.points == p.points + points
    ensures q.actionCounts.Keys == p.actionCounts.Keys + {actionType}
    ensures Users.CountOf(q, actionType) == Users.CountOf(p, actionType) + 1
    ensures forall a :: a != actionType ==> Users.CountOf(q, a) == Users.CountOf(p, a)
    ensures q.badges == p.badges && q.uniqueLanguages == p.uniqueLanguages
    ensures q.achievements == p.achievements && q.level == p.level
  {
    p.(points := p.points + points,
       actionCounts := p.actionCounts[actionType := Users.CountOf(p, actionType) + 1])
  }

  /** The badges the scan grants to a document. */
  function Granted(p: Users.Profile): seq<Badge> {
    ScanBadges(Badges, p.badges, p)
  }

  /** What a positive award emits to the user's room when socket.io is available. */
  function AwardEvents(userId: string, withIo: bool, points: nat, total: int, infos: seq<BadgeInfo>): (e: seq<UserEmit>)
    ensures !withIo ==> e == []
    ensures withIo ==>
      (|e| == (if |infos| > 0 then 2 else 1) && e[0] == UserEmit(UserRoom(userId), GamificationUpdate(points, total, infos)))
    ensures withIo && |infos| > 0 ==> e[1] == UserEmit(UserRoom(userId), BadgeEarned(BadgeMessage(|infos|), infos))
  {
    if !withIo then []
    else
      [UserEmit(UserRoom(userId), GamificationUpdate(points, total, infos))]
      + (if |infos| > 0 then [UserEmit(UserRoom(userId), BadgeEarned(BadgeMessage(|infos|), infos))] else [])
  }

  /**
   * `awardPointsAndBadges`. A missing user fails and leaves the tracker alone. A zero
   * award returns `{0, []}` and changes nothing in the document. A positive award is
   * described by `PositiveAward`.
   */
  function AwardPointsAndBadges(user: Option<Users.Profile>, t: Tracker, userId: string, actionType: string, day: string, withIo: bool): (o: AwardOutcome)
    ensures user.None? ==> o == AwardOutcome(t, Err(UserNotFound))
    ensures user.Some? ==> o.tracker == PointsToAward(t, userId, actionType, day).tracker
    ensures user.Some? && PointsToAward(t, userId, actionType, day).points == 0 ==>
      o.result == Ok(Awarded(user.value, Award(0, None, []), []))
  {
    if user.None? then AwardOutcome(t, Err(UserNotFound))
    else
      var d := PointsToAward(t, userId, actionType, day);
      if d.points <= 0 then AwardOutcome(d.tracker, Ok(Awarded(user.value, Award(0, None, []), [])))
      else
        var counted := Credit(user.value, actionType, d.points);
        var added := Granted(counted);
        match Users.Save(counted.(badges := counted.badges + KeysOf(added)), true)
        case Err(e) => AwardOutcome(d.tracker, Err(NotSaved(e)))
        case Ok(saved) =>
          var infos := InfosOf(added);
          AwardOutcome(d.tracker, Ok(Awarded(saved, Award(d.points, Some(saved.points), infos),
                                             AwardEvents(userId, withIo, d.points, saved.points, infos))))
  }

  /**
   * A positive award adds exactly its points and bumps exactly the action's counter,
   * appends the newly qualified badge keys, and saves, which recomputes the level and
   * fails only on negative points; it returns the new total and the badges granted, and
   * emits the matching events.
   */
  lemma PositiveAward(user: Users.Profile, t: Tracker, userId: string, actionType: string, day: string, withIo: bool)
    requires PointsToAward(t, userId, actionType, day).points > 0
    ensures var pts := PointsToAward(t, userId, actionType, day).points;
      var o := AwardPointsAndBadges(Some(user), t, userId, actionType, day, withIo);
      && (o.result.Err? <==> user.points + pts < 0)
      && (o.result.Ok? ==>
        var q := o.result.value.profile;
        var added := ScanBadges(Badges, user.badges, Credit(user, actionType, pts));
        && q.points == user.points + pts
        && Users.CountOf(q, actionType) == Users.CountOf(user, actionType) + 1
        && (forall a :: a != actionType ==> Users.CountOf(q, a) == Users.CountOf(user, a))
        && q.badges == user.badges + KeysOf(added)
        && q.uniqueLanguages == user.uniqueLanguages && q.achievements == user.achievements
        && q.level == Users.CalculateLevel(q.points)
        && o.result.value.award == Award(pts, Some(q.points), InfosOf(added))
        && o.result.value.emitted == AwardEvents(userId, withIo, pts, q.points, InfosOf(added)))
  {
    var pts := PointsToAward(t, userId, actionType, day).points;
    var counted := Credit(user, actionType, pts);
    var updated := counted.(badges := counted.badges + KeysOf(Granted(counted)));
    var saved := Users.Save(updated, true);
    if saved.Ok? {
      Users.LevelUnique(saved.value.points, saved.value.level);
      assert Users.CountOf(saved.value, actionType) == Users.CountOf(counted, actionType);
      forall a | a != actionType ensures Users.CountOf(saved.value, a) == Users.CountOf(user, a) {
        assert Users.CountOf(saved.value, a) == Users.CountOf(counted, a);
      }
    }
  }

  /**
   * The scan runs against the document it is given, which in an award is the credited
   * one: every current catalogue badge not held whose requirement it meets, by the new
   * points total among others, ends up among the held keys.
   */
  lemma ScanGrantsQualified(p: Users.Profile, j: nat)
    requires j < |Badges|
    requires Badges[j].key !in p.badges && !Badges[j].isFuture && Qualifies(Badges[j], p)
    ensures Badges[j].key in p.badges + KeysOf(Granted(p))
  {
    CatalogueDistinct();
    ScanAddsKey(Badges, p.badges, p, j);
  }

  /** Over badges with distinct keys, a scan appends the key of every badge that passes it. */
  lemma ScanAddsKey(bs: seq<Badge>, held: seq<string>, p: Users.Profile, j: nat)
    requires NoDup(KeysOf(bs)) && j < |bs|
    requires bs[j].key !in held && !bs[j].isFuture && Qualifies(bs[j], p)
    ensures bs[j].key in held + KeysOf(ScanBadges(bs, held, p))
  {
    var added := ScanBadges(bs, held, p);
    assert bs[j] in added;
    var k :| 0 <= k < |added| && added[k] == bs[j];
    assert KeysOf(added)[k] == bs[j].key;
    assert (held + KeysOf(added))[|held| + k] == bs[j].key;
  }

  // ---------------------------------------------------------------------------
  // trackLanguageUsage
  // ---------------------------------------------------------------------------

  /**
   * `trackLanguageUsage` as written: a language not yet recorded is appended and saved,
   * then an award for `UNIQUE_LANGUAGES` is requested; that action has no points rule, so
   * the award returns at once and the badge scan never runs. Errors are swallowed, so a
   * failed save leaves the stored document as it was. Returns the stored document.
   */
  function TrackLanguageUsage(user: Option<Users.Profile>, t: Tracker, userId: string, language: string, day: string): (r: Option<Users.Profile>)
    ensures user.None? ==> r.None?
    ensures user.Some? ==> r.Some?
    ensures user.Some? && (language in user.value.uniqueLanguages || user.value.points < 0) ==> r == user
    ensures user.Some? && language !in user.value.uniqueLanguages && user.value.points >= 0 ==>
      r.value == user.value.(uniqueLanguages := user.value.uniqueLanguages + [language])
    ensures user.Some? && NoDup(user.value.uniqueLanguages) ==> NoDup(r.value.uniqueLanguages)
  {
    if user.None? then None
    else
      var p := user.value;
      if language in p.uniqueLanguages then user
      else
        match Users.Save(p.(uniqueLanguages := p.uniqueLanguages + [language]), false)
        case Err(_) => user
        case Ok(saved) =>
          var award := AwardPointsAndBadges(Some(saved), t, userId, UniqueLanguages, day, false);
          if award.result.Ok? then Some(award.result.value.profile) else Some(saved)
  }

  /** The index of Language Explorer in the catalogue. */
  const LanguageExplorer: nat := 3

  /**
   * Recording a third language does not grant Language Explorer: a user with two
   * languages and no badges records a third and still holds no badge.
   */
  lemma LanguageExplorerNotGranted()
    ensures var before := Users.Profile(0, [], map[], ["js", "py"], [], 1);
      var after := TrackLanguageUsage(Some(before), map[], "u1", "go", "Sun Oct 11 2026");
      && after.Some? && |after.value.uniqueLanguages| == Badges[LanguageExplorer].requirement.count
      && Badges[LanguageExplorer].key !in after.value.badges
  {
    var before := Users.Profile(0, [], map[], ["js", "py"], [], 1);
    assert PointsToAward(map[], "u1", UniqueLanguages, "Sun Oct 11 2026").points == 0;
    assert "go" !in before.uniqueLanguages;
  }

  /**
   * `trackLanguageUsage` as its comment intends: after a new language is recorded, the
   * badge check runs against the updated document, without awarding points.
   */
  function TrackLanguageUsageChecked(user: Option<Users.Profile>, language: string): (r: Option<Users.Profile>)
    ensures user.None? ==> r.None?
    ensures user.Some? ==> r.Some? && r.value.points == user.value.points
    ensures user.Some? && NoDup(user.value.uniqueLanguages) ==> NoDup(r.value.uniqueLanguages)
    ensures user.Some? && language !in user.value.uniqueLanguages && user.value.points >= 0 ==>
      r.value.uniqueLanguages == user.value.uniqueLanguages + [language]
  {
    if user.None? then None
    else
      var p := user.value;
      if language in p.uniqueLanguages then user
      else
        var recorded := p.(uniqueLanguages := p.uniqueLanguages + [language]);
        var added := ScanBadges(Badges, recorded.badges, recorded);
        match Users.Save(recorded.(badges := recorded.badges + KeysOf(added)), false)
        case Err(_) => user
        case Ok(saved) => Some(saved)
  }

  /** With the check in place, reaching three languages grants Language Explorer. */
  lemma CheckedGrantsLanguageExplorer(p: Users.Profile, language: string)
    requires language !in p.uniqueLanguages && p.points >= 0
    requires |p.uniqueLanguages| + 1 >= Badges[LanguageExplorer].requirement.count
    ensures Badges[LanguageExplorer].key in TrackLanguageUsageChecked(Some(p), language).value.badges
  {
    var recorded := p.(uniqueLanguages := p.uniqueLanguages + [language]);
    var added := ScanBadges(Badges, recorded.badges, recorded);
    var b := Badges[LanguageExplorer];
    if b.key !in p.badges {
      CatalogueDistinct();
      assert Qualifies(b, recorded);
      ScanAddsKey(Badges, recorded.badges, recorded, LanguageExplorer);
    }
  }

  // ---------------------------------------------------------------------------
  // Reported badge lists
  // ---------------------------------------------------------------------------

  /** The entry of the catalogue `cat` with this key, if any (`BADGES[badgeId]`). */
  function LookupIn(cat: seq<Badge>, key: string): (r: Option<Badge>)
    ensures r.Some? ==> r.value in cat && r.value.key == key
    ensures r.None? ==> forall j :: 0 <= j < |cat| ==> cat[j].key != key
  {
    match FirstIndex(KeysOf(cat), (k: string) => k == key)
    case None => None
    case Some(j) => Some(cat[j])
  }

  /** Whether a held key names an entry of `cat`. */
  function KnownIn(cat: seq<Badge>): string -> bool {
    (key: string) => LookupIn(cat, key).Some?
  }

  function InfoIds(r: seq<BadgeInfo>): (ids: seq<string>)
    ensures |ids| == |r| && forall i :: 0 <= i < |r| ==> ids[i] == r[i].id
  {
    seq(|r|, i requires 0 <= i < |r| => r[i].id)
  }

  /**
   * `r` is what the status report of `held` may be against `cat`: one entry per held key
   * that names an entry of `cat`, carrying the ids in the held order, each the public
   * fields of the entry its id names.
   */
  predicate Reports(cat: seq<Badge>, held: seq<string>, r: seq<BadgeInfo>) {
    && |r| == Count(held, KnownIn(cat))
    && Subsequence(InfoIds(r), held)
    && forall i :: 0 <= i < |r| ==> LookupIn(cat, r[i].id).Some? && r[i] == InfoOf(LookupIn(cat, r[i].id).value)
  }

  /**
   * The badge list of `getUserGamificationStatus` against the catalogue `cat`: each held
   * key that names an entry, future ones included, with that entry's public fields, in
   * the held order; other keys are dropped.
   */
  function StatusIn(cat: seq<Badge>, held: seq<string>): (r: seq<BadgeInfo>)
    ensures Reports(cat, held, r)
    decreases |held|
  {
    if |held| == 0 then []
    else
      var rest := StatusIn(cat, held[1..]);
      StatusStep(cat, held, rest);
      match LookupIn(cat, held[0])
      case None => rest
      case Some(b) => [InfoOf(b)] + rest
  }

  /** Reporting the first key, in front of the report of the others, reports all. */
  lemma StatusStep(cat: seq<Badge>, held: seq<string>, rest: seq<BadgeInfo>)
    requires |held| > 0 && Reports(cat, held[1..], rest)
    ensures LookupIn(cat, held[0]).None? ==> Reports(cat, held, rest)
    ensures LookupIn(cat, held[0]).Some? ==> Reports(cat, held, [InfoOf(LookupIn(cat, held[0]).value)] + rest)
  {
    assert Count(held, KnownIn(cat)) == (if LookupIn(cat, held[0]).Some? then 1 else 0) + Count(held[1..], KnownIn(cat));
    if LookupIn(cat, held[0]).Some? {
      var r := [InfoOf(LookupIn(cat, held[0]).value)] + rest;
      assert InfoIds(r)[1..] == InfoIds(rest);
    }
  }

  /** The badge list of `getUserGamificationStatus`, against `BADGES`. */
  function StatusBadges(held: seq<string>): seq<BadgeInfo> { StatusIn(Badges, held) }

  /** When every held key names a catalogue entry, every one is reported, in order. */
  lemma {:induction false} StatusReportsAllKnown(cat: seq<Badge>, held: seq<string>)
    requires forall i :: 0 <= i < |held| ==> LookupIn(cat, held[i]).Some?
    ensures InfoIds(StatusIn(cat, held)) == held
    decreases |held|
  {
    if |held| > 0 {
      StatusReportsAllKnown(cat, held[1..]);
      var rest := StatusIn(cat, held[1..]);
      assert InfoIds([InfoOf(LookupIn(cat, held[0]).value)] + rest) == [held[0]] + InfoIds(rest);
    }
  }

  /**
   * The two id conventions do not meet: ids produced by `checkBadgeEligibility` are
   * lower-case `id` fields, and the status report, which looks up upper-case keys,
   * drops every one of them.
   */
  lemma EligibilityIdsNotReported(owned: seq<string>, actionType: string, actionCount: int)
    ensures StatusBadges(CheckBadgeEligibility(owned, actionType, actionCount)) == []
  {
    var ids := CheckBadgeEligibility(owned, actionType, actionCount);
    forall i | 0 <= i < |ids| ensures LookupIn(Badges, ids[i]).None? {
      SubsequenceIn(ids, IdsOf(Badges), ids[i]);
      CaseConventions();
    }
    NoneReported(Badges, ids);
  }

  /** Every catalogue id starts with a lower-case letter and every key with an upper-case one. */
  lemma CaseConventions()
    ensures forall j :: 0 <= j < |Badges| ==> |Badges[j].id| > 0 && 'a' <= Badges[j].id[0] <= 'z'
    ensures forall j :: 0 <= j < |Badges| ==> |Badges[j].key| > 0 && 'A' <= Badges[j].key[0] <= 'Z'
  {
  }

  /** Keys that name no entry are all dropped. */
  lemma {:induction false} NoneReported(cat: seq<Badge>, ids: seq<string>)
    requires forall i :: 0 <= i < |ids| ==> LookupIn(cat, ids[i]).None?
    ensures StatusIn(cat, ids) == []
    decreases |ids|
  {
    if |ids| > 0 {
      NoneReported(cat, ids[1..]);
    }
  }

  /** One entry of `getBadgeDetails`. */
  datatype BadgeDetail = BadgeDetail(id: string, name: string, description: string, icon: string, requirement: Requirement)

  function DetailOf(b: Badge): BadgeDetail {
    BadgeDetail(b.key, b.name, b.description, b.icon, b.requirement)
  }

  function Current(b: Badge): bool { !b.isFuture }

  /** The entries of the given badges that are not future, in order. */
  function DetailsOf(bs: seq<Badge>): (r: seq<BadgeDetail>)
    ensures |r| == Count(bs, Current)
    decreases |bs|
  {
    if |bs| == 0 then []
    else (if Current(bs[0]) then [DetailOf(bs[0])] else []) + DetailsOf(bs[1..])
  }

  /** Every listed entry is the entry of a current badge of the list. */
  lemma {:induction false} DetailsSource(bs: seq<Badge>, i: nat) returns (b: Badge)
    requires i < |DetailsOf(bs)|
    ensures b in bs && !b.isFuture && DetailsOf(bs)[i] == DetailOf(b)
    decreases |bs|
  {
    var head := if Current(bs[0]) then [DetailOf(bs[0])] else [];
    if i < |head| {
      b := bs[0];
    } else {
      b := DetailsSource(bs[1..], i - |head|);
      assert DetailsOf(bs)[i] == DetailsOf(bs[1..])[i - |head|];
    }
  }

  /** Every current badge of the list has its entry listed. */
  lemma {:induction false} DetailsCover(bs: seq<Badge>, j: nat)
    requires j < |bs| && !bs[j].isFuture
    ensures DetailOf(bs[j]) in DetailsOf(bs)
    decreases |bs|
  {
    var head := if Current(bs[0]) then [DetailOf(bs[0])] else [];
    if j == 0 {
      assert DetailsOf(bs)[0] == DetailOf(bs[0]);
    } else {
      DetailsCover(bs[1..], j - 1);
      assert bs[1..][j - 1] == bs[j];
      var k :| 0 <= k < |DetailsOf(bs[1..])| && DetailsOf(bs[1..])[k] == DetailOf(bs[j]);
      assert DetailsOf(bs)[|head| + k] == DetailOf(bs[j]);
    }
  }

  /**
   * `getBadgeDetails`: the current catalogue badges, keyed by their `BADGES` key. There
   * are four; every current one is listed and the future Problem Solver is not.
   */
  function GetBadgeDetails(): (r: seq<BadgeDetail>)
    ensures |r| == 4
    ensures forall j :: 0 <= j < |Badges| && !Badges[j].isFuture ==> DetailOf(Badges[j]) in r
    ensures forall i :: 0 <= i < |r| ==> r[i].id != "PROBLEM_SOLVER"
  {
    BadgeDetailsListing();
    DetailsOf(Badges)
  }

  /**
   * The catalogue has four current badges; every current one is listed, every listed
   * entry is a current one, and the future Problem Solver is not among them.
   */
  lemma BadgeDetailsListing()
    ensures |DetailsOf(Badges)| == 4
    ensures forall j :: 0 <= j < |Badges| && !Badges[j].isFuture ==> DetailOf(Badges[j]) in DetailsOf(Badges)
    ensures forall i :: 0 <= i < |DetailsOf(Badges)| ==> DetailsOf(Badges)[i].id != "PROBLEM_SOLVER"
  {
    CurrentBadges();
    var r := DetailsOf(Badges);
    forall j | 0 <= j < |Badges| && !Badges[j].isFuture ensures DetailOf(Badges[j]) in r {
      DetailsCover(Badges, j);
    }
    forall i | 0 <= i < |r| ensures r[i].id != "PROBLEM_SOLVER" {
      var b := DetailsSource(Badges, i);
      NotProblemSolver(b);
    }
  }

  /** Only a future badge carries the Problem Solver key. */
  lemma NotProblemSolver(b: Badge)
    requires b in Badges && !b.isFuture
    ensures DetailOf(b).id != "PROBLEM_SOLVER"
  {
  }

  lemma CurrentBadges()
    ensures Count(Badges, Current) == 4
  {
    assert Count(Badges[5..], Current) == 0;
    assert Badges[4..][1..] == Badges[5..];
    assert Count(Badges[4..], Current) == 0;
    assert Badges[3..][1..] == Badges[4..];
    assert Count(Badges[3..], Current) == 1;
    assert Badges[2..][1..] == Badges[3..];
    assert Count(Badges[2..], Current) == 2;
    assert Badges[1..][1..] == Badges[2..];
    assert Count(Badges[1..], Current) == 3;
  }

  // ---------------------------------------------------------------------------
  // Leaderboard and rank
  // ---------------------------------------------------------------------------

  /** The selected fields of a user document. */
  datatype Member = Member(userId: string, name: string, points: int, badges: seq<string>)

  function PointsOf(m: Member): int { m.points }

  datatype Entry = Entry(rank: nat, userId: string, name: string, points: int, badges: nat)

  datatype Leaderboard = Leaderboard(leaderboard: seq<Entry>, totalUsers: nat, currentPage: int, totalPages: nat)

  function EntryOf(m: Member, rank: nat): Entry {
    Entry(rank, m.userId, m.name, m.points, |m.badges|)
  }

  /** The users, most points first. */
  function Standings(users: seq<Member>): (s: seq<Member>)
    ensures Sorting.SortedDesc(s, PointsOf) && multiset(s) == multiset(users) && |s| == |users|
  {
    Sorting.SortDesc(users, PointsOf)
  }

  /**
   * `getLeaderboard(limit, skip)`: the window of the standings after `skip` users, at
   * most `limit` long, each ranked by its position; a negative skip is refused by the
   * store. The page number is the one holding position `skip`, and the page count the
   * fewest pages of `limit` that hold all users.
   */
  function GetLeaderboard(users: seq<Member>, limit: nat, skip: int): (r: Result<Leaderboard, string>)
    requires limit > 0
    ensures r.Err? <==> skip < 0
    ensures r.Ok? ==>
      var board := r.value.leaderboard;
      && |board| == (if skip >= |users| then 0 else if |users| - skip < limit then |users| - skip else limit)
      && (forall i :: 0 <= i < |board| ==> board[i].rank == skip + i + 1 && board[i] == EntryOf(Standings(users)[skip + i], skip + i + 1))
      && (forall i, j :: 0 <= i < j < |board| ==> board[i].points >= board[j].points)
      && r.value.totalUsers == |users|
      && (r.value.currentPage - 1) * limit <= skip < r.value.currentPage * limit
      && |users| <= r.value.totalPages * limit < |users| + limit
  {
    if skip < 0 then Err("skip must be non-negative")
    else
      var window := Window(Standings(users), skip, limit);
      var board := seq(|window|, i requires 0 <= i < |window| => EntryOf(window[i], skip + i + 1));
      DivBand(skip, limit);
      Ok(Leaderboard(board, |users|, skip / limit + 1, CeilDiv(|users|, limit)))
  }

  /**
   * Asking for page `page` as the route does, with `skip = (page - 1) * limit`, reports
   * that page as the current one and ranks its first entry `skip + 1`.
   */
  lemma LeaderboardPageOfRequest(users: seq<Member>, limit: nat, page: int)
    requires limit > 0 && page >= 1
    ensures var r := GetLeaderboard(users, limit, (page - 1) * limit);
      r.Ok? && r.value.currentPage == page
  {
    var skip := (page - 1) * limit;
    MulMono(0, page - 1, limit);
    var c := GetLeaderboard(users, limit, skip).value.currentPage;
    BandUnique(c - 1, page - 1, limit);
  }

  function Above(p: int): Member -> bool { (m: Member) => m.points > p }

  function HasId(id: string): Member -> bool { (m: Member) => m.userId == id }

  /** `getUserRank`: one more than the number of users with strictly more points; none for an unknown user. */
  function GetUserRank(users: seq<Member>, userId: string): (r: Option<nat>)
    ensures r.None? <==> forall i :: 0 <= i < |users| ==> users[i].userId != userId
    ensures r.Some? ==> 1 <= r.value <= |users|
  {
    match FirstIndex(users, HasId(userId))
    case None => None
    case Some(i) =>
      assert !Above(users[i].points)(users[i]);
      CountRemoveAt(users, i, Above(users[i].points));
      Some(1 + Count(users, Above(users[i].points)))
  }

  /** Users with equal points share a rank. */
  lemma TiesShareRank(users: seq<Member>, a: string, b: string)
    requires GetUserRank(users, a).Some? && GetUserRank(users, b).Some?
    requires users[FirstIndex(users, HasId(a)).value].points == users[FirstIndex(users, HasId(b)).value].points
    ensures GetUserRank(users, a) == GetUserRank(users, b)
  {
  }

  /** More points give a strictly better rank: the rank orders known users by their points. */
  lemma RankOrder(users: seq<Member>, a: string, b: string)
    requires GetUserRank(users, a).Some? && GetUserRank(users, b).Some?
    ensures var pa := users[FirstIndex(users, HasId(a)).value].points;
      var pb := users[FirstIndex(users, HasId(b)).value].points;
      pa > pb ==> GetUserRank(users, a).value < GetUserRank(users, b).value
  {
    var i := FirstIndex(users, HasId(a)).value;
    var j := FirstIndex(users, HasId(b)).value;
    RankUnfold(users, a);
    RankUnfold(users, b);
    if users[i].points > users[j].points {
      forall m: Member ensures Above(users[i].points)(m) ==> Above(users[j].points)(m) {
      }
      CountMonoStrict(users, Above(users[i].points), Above(users[j].points), i);
    }
  }

  /** Rank 1 belongs exactly to the users nobody outscores. */
  lemma RankOneIffTop(users: seq<Member>, a: string)
    requires GetUserRank(users, a).Some?
    ensures var pa := users[FirstIndex(users, HasId(a)).value].points;
      GetUserRank(users, a).value == 1 <==> forall k :: 0 <= k < |users| ==> users[k].points <= pa
  {
    var i := FirstIndex(users, HasId(a)).value;
    var p := Above(users[i].points);
    RankUnfold(users, a);
    if forall k :: 0 <= k < |users| ==> users[k].points <= users[i].points {
      CountNone(users, p);
    } else {
      var k :| 0 <= k < |users| && users[k].points > users[i].points;
      CountSome(users, p, k);
    }
  }

  /** In descending order, the elements above the one at `k` all come before it. */
  lemma AboveBefore(s: seq<Member>, k: nat)
    requires k < |s| && Sorting.SortedDesc(s, PointsOf)
    ensures Count(s, Above(s[k].points)) <= k
  {
    var p := Above(s[k].points);
    assert s == s[..k] + s[k..];
    CountAppend(s[..k], s[k..], p);
    forall i | 0 <= i < |s[k..]| ensures !p(s[k..][i]) {
      assert PointsOf(s[k]) >= PointsOf(s[k + i]);
    }
    CountNone(s[k..], p);
  }

  /**
   * A leaderboard position never claims a better rank than `getUserRank` gives the same
   * user: the two agree except among users tied on points.
   */
  lemma LeaderboardRankNotBetter(users: seq<Member>, limit: nat, skip: int, i: nat)
    requires limit > 0
    requires NoDup(IdsOfMembers(users))
    requires GetLeaderboard(users, limit, skip).Ok?
    requires i < |GetLeaderboard(users, limit, skip).value.leaderboard|
    ensures var e := GetLeaderboard(users, limit, skip).value.leaderboard[i];
      GetUserRank(users, e.userId).Some? && GetUserRank(users, e.userId).value <= e.rank
  {
    var s := Standings(users);
    var k := BoardEntry(users, limit, skip, i);
    var j := MemberIndex(users, s, k);
    FoundAtOwnIndex(users, j);
    RankOfMember(users, j);
    CountPermutation(users, s, Above(s[k].points));
    AboveBefore(s, k);
  }

  /** The leaderboard's `i`-th entry is the standings' user at position `skip + i`, ranked one past it. */
  lemma BoardEntry(users: seq<Member>, limit: nat, skip: int, i: nat) returns (k: nat)
    requires limit > 0
    requires GetLeaderboard(users, limit, skip).Ok?
    requires i < |GetLeaderboard(users, limit, skip).value.leaderboard|
    ensures k == skip + i && k < |users|
    ensures GetLeaderboard(users, limit, skip).value.leaderboard[i] == EntryOf(Standings(users)[k], k + 1)
  {
    k := skip + i;
  }

  /** Where a user of a permutation sits in the original list. */
  lemma MemberIndex(users: seq<Member>, s: seq<Member>, k: nat) returns (j: nat)
    requires k < |s| && multiset(s) == multiset(users)
    ensures j < |users| && users[j] == s[k]
  {
    assert s[k] in multiset(users);
    j :| 0 <= j < |users| && users[j] == s[k];
  }

  /** A user whose id lookup lands on it is ranked one past the users with more points. */
  lemma RankOfMember(users: seq<Member>, j: nat)
    requires j < |users| && FirstIndex(users, HasId(users[j].userId)) == Some(j)
    ensures GetUserRank(users, users[j].userId) == Some(1 + Count(users, Above(users[j].points)))
  {
    var id := users[j].userId;
    RankUnfold(users, id);
    assert GetUserRank(users, id).Some?;
    assert GetUserRank(users, id).value == 1 + Count(users, Above(users[j].points));
  }

  /** With distinct ids, looking a user up by id finds that user's own position. */
  lemma FoundAtOwnIndex(users: seq<Member>, j: nat)
    requires j < |users| && NoDup(IdsOfMembers(users))
    ensures FirstIndex(users, HasId(users[j].userId)) == Some(j)
  {
    var id := users[j].userId;
    assert HasId(id)(users[j]);
  }

  /** A user that is found is ranked one past the users with more points than its first match. */
  lemma RankUnfold(users: seq<Member>, id: string)
    requires FirstIndex(users, HasId(id)).Some?
    ensures GetUserRank(users, id) == Some(1 + Count(users, Above(users[FirstIndex(users, HasId(id)).value].points)))
  {
  }

  function IdsOfMembers(users: seq<Member>): (ids: seq<string>)
    ensures |ids| == |users| && forall i :: 0 <= i < |users| ==> ids[i] == users[i].userId
  {
    seq(|users|, i requires 0 <= i < |users| => users[i].userId)
  }
}

=== FILE: collab.dfy ===
/**
 * The collaboration room coordinator (backend/controllers/socketController.js).
 *
 * `activeRooms` maps a problem id to the sockets in its live session, the shared code
 * buffer and a chat scrollback of at most 100 entries. Each socket event handler is a
 * pure transition from one registry to the next, together with the log of events it
 * emits, each tagged with its audience: the acting socket alone, the others in a room,
 * or everyone in a room. A JavaScript `Map` iterates in insertion order, so the registry
 * records that order next to the map.
 */
module Collab {
  import opened Seqs
  import Problems

  type SocketId = string
  type ProblemId = string

  /** Scrollback cap: the newest 100 chat entries are kept. */
  const ChatHistoryLimit: nat := 100

  datatype ChatEntry = ChatEntry(userId: SocketId, message: string, timestamp: string)

  datatype Room = Room(users: set<SocketId>, code: string, chat: seq<ChatEntry>)

  /** `activeRooms`, with the insertion order a `Map` iterates in. */
  datatype Registry = Registry(order: seq<ProblemId>, rooms: map<ProblemId, Room>)

  /** Who an emitted event reaches. */
  datatype Audience =
    | Sender                       // socket.emit
    | OthersIn(room: ProblemId)    // socket.to(room).emit
    | EveryoneIn(room: ProblemId)  // io.to(room).emit

  /**
   * The `solution` field of `new_solution`, relayed untouched. Clients put a solution
   * document there, or whatever document they hold in its place: the problem page sends
   * the whole problem that `addSolution` answers with.
   */
  datatype Payload = SolutionDoc(solution: Problems.Solution) | ProblemDoc(problem: Problems.Problem)

  datatype Event =
    | CurrentCode(code: string)
    | ChatHistory(chat: seq<ChatEntry>)
    | UserJoined(userId: SocketId, totalUsers: nat)
    | CodeUpdate(code: string)
    | SolutionReceived(solution: Payload)
    | VoteUpdated(solutionId: string, votes: int)
    | AcceptanceUpdated(solutionId: string, isAccepted: bool)
    | NewChatMessage(entry: ChatEntry)
    | UserLeft(userId: SocketId, totalUsers: nat)

  datatype Emit = Emit(to: Audience, event: Event)

  /** The registry after a handler, and what the handler emitted, in order. */
  datatype Step = Step(registry: Registry, emitted: seq<Emit>)

  /** The registry when the server starts. */
  const Empty := Registry([], map[])

  /**
   * The registry's invariant: the order lists every room exactly once, every room has
   * at least one socket, and no scrollback is over the cap.
   */
  ghost predicate Valid(reg: Registry) {
    && NoDup(reg.order)
    && (forall id :: id in reg.order <==> id in reg.rooms)
    && (forall id :: id in reg.rooms ==> reg.rooms[id].users != {} && |reg.rooms[id].chat| <= ChatHistoryLimit)
  }

  /** The sockets in a room; socket.io's room of the same name has exactly these members. */
  function Members(reg: Registry, id: ProblemId): set<SocketId> {
    if id in reg.rooms then reg.rooms[id].users else {}
  }

  /** The sockets an emitted event reaches once the handler of `sender`'s event has run. */
  function Recipients(reg: Registry, sender: SocketId, e: Emit): set<SocketId> {
    match e.to
    case Sender => {sender}
    case OthersIn(id) => Members(reg, id) - {sender}
    case EveryoneIn(id) => Members(reg, id)
  }

  /** The events `socket` receives from one step, in emission order. */
  function Delivered(reg: Registry, sender: SocketId, emitted: seq<Emit>, socket: SocketId): seq<Event>
    decreases |emitted|
  {
    if |emitted| == 0 then []
    else
      (if socket in Recipients(reg, sender, emitted[0]) then [emitted[0].event] else [])
      + Delivered(reg, sender, emitted[1..], socket)
  }

  /** Delivery distributes over the emission log. */
  lemma {:induction false} DeliveredAppend(reg: Registry, sender: SocketId, a: seq<Emit>, b: seq<Emit>, socket: SocketId)
    ensures Delivered(reg, sender, a + b, socket) == Delivered(reg, sender, a, socket) + Delivered(reg, sender, b, socket)
    decreases |a|
  {
    if |a| == 0 {
      assert a + b == b;
    } else {
      assert (a + b)[1..] == a[1..] + b;
      DeliveredAppend(reg, sender, a[1..], b, socket);
    }
  }

  // ---------------------------------------------------------------------------
  // join_problem
  // ---------------------------------------------------------------------------

  /** The room a join finds: the existing one, or a fresh one with no users, no code and no chat. */
  function RoomOrNew(reg: Registry, id: ProblemId): (room: Room)
    ensures id in reg.rooms ==> room == reg.rooms[id]
    ensures id !in reg.rooms ==> room == Room({}, "", [])
  {
    if id in reg.rooms then reg.rooms[id] else Room({}, "", [])
  }

  /**
   * `join_problem`: creates the room if it is missing (appended to the map's order),
   * adds the socket to its user set, sends the joiner the code and the chat history,
   * and tells the others the new user count.
   */
  function OnJoinProblem(reg: Registry, socket: SocketId, problemId: ProblemId): (s: Step)
    ensures problemId in s.registry.rooms
    ensures s.registry.rooms[problemId].users == RoomOrNew(reg, problemId).users + {socket}
    ensures s.registry.rooms[problemId].code == RoomOrNew(reg, problemId).code
    ensures s.registry.rooms[problemId].chat == RoomOrNew(reg, problemId).chat
    ensures forall id :: id != problemId ==> (id in s.registry.rooms <==> id in reg.rooms)
    ensures forall id :: id != problemId && id in reg.rooms ==> s.registry.rooms[id] == reg.rooms[id]
    ensures problemId in reg.rooms ==> s.registry.order == reg.order
    ensures problemId !in reg.rooms ==> s.registry.order == reg.order + [problemId]
    ensures |s.emitted| == 3
  {
    var before := RoomOrNew(reg, problemId);
    var room := before.(users := before.users + {socket});
    var order := if problemId in reg.rooms then reg.order else reg.order + [problemId];
    Step(Registry(order, reg.rooms[problemId := room]),
         [ Emit(Sender, CurrentCode(room.code)),
           Emit(Sender, ChatHistory(room.chat)),
           Emit(OthersIn(problemId), UserJoined(socket, |room.users|)) ])
  }

  /** Joining twice with the same socket changes nothing the second time but the emitted events. */
  lemma RejoinKeepsRoom(reg: Registry, socket: SocketId, problemId: ProblemId)
    ensures var once := OnJoinProblem(reg, socket, problemId).registry;
      OnJoinProblem(once, socket, problemId).registry == once
  {
    var once := OnJoinProblem(reg, socket, problemId).registry;
    assert once.rooms[problemId].users + {socket} == once.rooms[problemId].users;
    assert once.rooms[problemId := once.rooms[problemId]] == once.rooms;
  }

  /**
   * What a join delivers: the joiner gets the code and then the chat history and
   * nothing else; every other user of the room gets the user count, which is the number
   * of distinct sockets now in the room.
   */
  lemma JoinDeliveries(reg: Registry, socket: SocketId, problemId: ProblemId, other: SocketId)
    requires other != socket
    ensures var s := OnJoinProblem(reg, socket, problemId);
      var room := s.registry.rooms[problemId];
      && Delivered(s.registry, socket, s.emitted, socket) == [CurrentCode(room.code), ChatHistory(room.chat)]
      && (other in room.users ==> Delivered(s.registry, socket, s.emitted, other) == [UserJoined(socket, |room.users|)])
      && (other !in room.users ==> Delivered(s.registry, socket, s.emitted, other) == [])
  {
    var s := OnJoinProblem(reg, socket, problemId);
    var e := s.emitted;
    var room := s.registry.rooms[problemId];
    assert e == [e[0]] + [e[1]] + [e[2]];
    assert Members(s.registry, problemId) == room.users;
    JoinDelivery(s.registry, socket, e, socket);
    JoinDelivery(s.registry, socket, e, other);
  }

  lemma JoinDelivery(reg: Registry, sender: SocketId, e: seq<Emit>, x: SocketId)
    requires |e| == 3
    ensures Delivered(reg, sender, e, x)
      == Delivered(reg, sender, [e[0]], x) + Delivered(reg, sender, [e[1]], x) + Delivered(reg, sender, [e[2]], x)
  {
    assert e == [e[0]] + [e[1]] + [e[2]];
    DeliveredAppend(reg, sender, [e[0]] + [e[1]], [e[2]], x);
    DeliveredAppend(reg, sender, [e[0]], [e[1]], x);
  }

  // ---------------------------------------------------------------------------
  // code_change
  // ---------------------------------------------------------------------------

  /**
   * `code_change`: last write wins on a known room; an unknown room is not created. The
   * new code is relayed to the others in the room either way.
   */
  function OnCodeChange(reg: Registry, socket: SocketId, problemId: ProblemId, code: string): (s: Step)
    ensures s.registry.order == reg.order && s.registry.rooms.Keys == reg.rooms.Keys
    ensures problemId in reg.rooms ==> s.registry.rooms[problemId] == reg.rooms[problemId].(code := code)
    ensures forall id :: id in reg.rooms && id != problemId ==> s.registry.rooms[id] == reg.rooms[id]
    ensures problemId !in reg.rooms ==> s.registry == reg
    ensures s.emitted == [Emit(OthersIn(problemId), CodeUpdate(code))]
  {
    var rooms := if problemId in reg.rooms then reg.rooms[problemId := reg.rooms[problemId].(code := code)] else reg.rooms;
    Step(reg.(rooms := rooms), [Emit(OthersIn(problemId), CodeUpdate(code))])
  }

  /** Every other user of the room receives the new code; the sender does not. */
  lemma CodeChangeDeliveries(reg: Registry, socket: SocketId, problemId: ProblemId, code: string, other: SocketId)
    requires other != socket
    ensures var s := OnCodeChange(reg, socket, problemId, code);
      && Delivered(s.registry, socket, s.emitted, socket) == []
      && (other in Members(reg, problemId) ==> Delivered(s.registry, socket, s.emitted, other) == [CodeUpdate(code)])
  {
    var s := OnCodeChange(reg, socket, problemId, code);
    assert Members(s.registry, problemId) == Members(reg, problemId);
    assert s.emitted[1..] == [];
  }

  // ---------------------------------------------------------------------------
  // Solution relays
  // ---------------------------------------------------------------------------

  /** `new_solution`: the payload is relayed, as it came, to the others in the room; no state is kept. */
  function OnNewSolution(reg: Registry, problemId: ProblemId, solution: Payload): (s: Step)
    ensures s.registry == reg
    ensures s.emitted == [Emit(OthersIn(problemId), SolutionReceived(solution))]
  {
    Step(reg, [Emit(OthersIn(problemId), SolutionReceived(solution))])
  }

  /** `solution_vote`: relayed as `vote_updated` to the others in the room. */
  function OnSolutionVote(reg: Registry, problemId: ProblemId, solutionId: string, votes: int): (s: Step)
    ensures s.registry == reg
    ensures s.emitted == [Emit(OthersIn(problemId), VoteUpdated(solutionId, votes))]
  {
    Step(reg, [Emit(OthersIn(problemId), VoteUpdated(solutionId, votes))])
  }

  /** `solution_accepted`: relayed as `acceptance_updated` (always `isAccepted: true`) to the others. */
  function OnSolutionAccepted(reg: Registry, problemId: ProblemId, solutionId: string): (s: Step)
    ensures s.registry == reg
    ensures s.emitted == [Emit(OthersIn(problemId), AcceptanceUpdated(solutionId, true))]
  {
    Step(reg, [Emit(OthersIn(problemId), AcceptanceUpdated(solutionId, true))])
  }

  // ---------------------------------------------------------------------------
  // chat_message
  // ---------------------------------------------------------------------------

  /** The last `n` entries of `s` (all of them when there are fewer). */
  function Newest<T>(s: seq<T>, n: nat): (r: seq<T>)
    ensures |r| == if |s| < n then |s| else n
    ensures r == s[|s| - |r|..]
  {
    if |s| < n then s else s[|s| - n..]
  }

  /**
   * Push then, past the cap, drop the oldest entry. From a scrollback within the cap the
   * result is the newest 100 entries of the old scrollback followed by the new one.
   */
  function AppendCapped(chat: seq<ChatEntry>, entry: ChatEntry): (r: seq<ChatEntry>)
    ensures |chat| <= ChatHistoryLimit ==> r == Newest(chat + [entry], ChatHistoryLimit)
    ensures |r| > 0 && r[|r| - 1] == entry
  {
    var pushed := chat + [entry];
    if |pushed| > ChatHistoryLimit then pushed[1..] else pushed
  }

  /** Applies `AppendCapped` for each entry in arrival order. */
  function AppendAll(chat: seq<ChatEntry>, entries: seq<ChatEntry>): seq<ChatEntry>
    decreases |entries|
  {
    if |entries| == 0 then chat else AppendAll(AppendCapped(chat, entries[0]), entries[1..])
  }

  /** Dropping a prefix that leaves at least `n` entries does not change the newest `n`. */
  lemma NewestAfterDrop<T>(s: seq<T>, k: nat, n: nat)
    requires k <= |s| && (k == 0 || |s| - k >= n)
    ensures Newest(s[k..], n) == Newest(s, n)
  {
    if k > 0 {
      assert s[k..][|s| - k - n..] == s[|s| - n..];
    }
  }

  /** One capped push, then the rest: the newest 100 are those of the uncapped sequence. */
  lemma ScrollbackStep(chat: seq<ChatEntry>, entry: ChatEntry, rest: seq<ChatEntry>)
    requires |chat| <= ChatHistoryLimit
    ensures Newest(AppendCapped(chat, entry) + rest, ChatHistoryLimit) == Newest(chat + [entry] + rest, ChatHistoryLimit)
  {
    var pushed := chat + [entry];
    if |pushed| > ChatHistoryLimit {
      assert AppendCapped(chat, entry) + rest == (pushed + rest)[1..];
      NewestAfterDrop(pushed + rest, 1, ChatHistoryLimit);
    }
  }

  /** However many messages arrive, the scrollback is the newest 100 of everything, in arrival order. */
  lemma {:induction false} ScrollbackKeepsNewest(chat: seq<ChatEntry>, entries: seq<ChatEntry>)
    requires |chat| <= ChatHistoryLimit
    ensures AppendAll(chat, entries) == Newest(chat + entries, ChatHistoryLimit)
    decreases |entries|
  {
    if |entries| > 0 {
      var next := AppendCapped(chat, entries[0]);
      assert AppendAll(chat, entries) == AppendAll(next, entries[1..]);
      ScrollbackKeepsNewest(next, entries[1..]);
      ScrollbackStep(chat, entries[0], entries[1..]);
      ConcatHead(chat, entries);
    } else {
      assert chat + entries == chat;
    }
  }

  /**
   * `chat_message`: on an unknown room nothing changes and nothing is emitted; otherwise
   * the entry, stamped with the sender's socket id and the given time, joins the capped
   * scrollback and is broadcast to the whole room, sender included.
   */
  function OnChatMessage(reg: Registry, socket: SocketId, problemId: ProblemId, message: string, timestamp: string): (s: Step)
    ensures problemId !in reg.rooms ==> s == Step(reg, [])
    ensures problemId in reg.rooms ==>
      var entry := ChatEntry(socket, message, timestamp);
      var room := reg.rooms[problemId];
      && s.registry.order == reg.order
      && s.registry.rooms == reg.rooms[problemId := room.(chat := AppendCapped(room.chat, entry))]
      && s.emitted == [Emit(EveryoneIn(problemId), NewChatMessage(entry))]
  {
    if problemId !in reg.rooms then Step(reg, [])
    else
      var entry := ChatEntry(socket, message, timestamp);
      var room := reg.rooms[problemId];
      Step(reg.(rooms := reg.rooms[problemId := room.(chat := AppendCapped(room.chat, entry))]),
           [Emit(EveryoneIn(problemId), NewChatMessage(entry))])
  }

  /** Every user of the room, the sender included, receives the chat entry; other sockets receive nothing. */
  lemma ChatDeliveries(reg: Registry, socket: SocketId, problemId: ProblemId, message: string, timestamp: string, anyone: SocketId)
    requires problemId in reg.rooms
    ensures var s := OnChatMessage(reg, socket, problemId, message, timestamp);
      && (anyone in reg.rooms[problemId].users ==>
            Delivered(s.registry, socket, s.emitted, anyone) == [NewChatMessage(ChatEntry(socket, message, timestamp))])
      && (anyone !in reg.rooms[problemId].users ==> Delivered(s.registry, socket, s.emitted, anyone) == [])
  {
    var s := OnChatMessage(reg, socket, problemId, message, timestamp);
    assert Members(s.registry, problemId) == reg.rooms[problemId].users;
    assert s.emitted[1..] == [];
  }

  // ---------------------------------------------------------------------------
  // disconnect
  // ---------------------------------------------------------------------------

  /** A room that loses `socket` is deleted exactly when `socket` was its only user. */
  predicate EmptiedBy(room: Room, socket: SocketId) {
    socket in room.users && room.users == {socket}
  }

  datatype Sweep = Sweep(rooms: map<ProblemId, Room>, emitted: seq<Emit>)

  /** What leaving does to one room: the socket is removed, and an emptied room is deleted. */
  function Leave(rooms: map<ProblemId, Room>, id: ProblemId, socket: SocketId): (r: map<ProblemId, Room>)
    requires id in rooms && socket in rooms[id].users
    ensures r.Keys == if EmptiedBy(rooms[id], socket) then rooms.Keys - {id} else rooms.Keys
    ensures id in r ==> r[id] == rooms[id].(users := rooms[id].users - {socket})
    ensures forall x :: x in rooms && x != id ==> r[x] == rooms[x]
  {
    var room := rooms[id].(users := rooms[id].users - {socket});
    if room.users == {} then rooms - {id} else rooms[id := room]
  }

  /**
   * The `forEach` over the rooms in order: each room holding the socket loses it, the
   * remaining users hear the new count, and a room left empty is deleted.
   */
  function LeaveAll(ids: seq<ProblemId>, rooms: map<ProblemId, Room>, socket: SocketId): (r: Sweep)
    ensures r.rooms.Keys <= rooms.Keys
    decreases |ids|
  {
    if |ids| == 0 then Sweep(rooms, [])
    else
      var id := ids[0];
      if id in rooms && socket in rooms[id].users then
        var here := Emit(EveryoneIn(id), UserLeft(socket, |rooms[id].users - {socket}|));
        var rest := LeaveAll(ids[1..], Leave(rooms, id, socket), socket);
        Sweep(rest.rooms, [here] + rest.emitted)
      else
        LeaveAll(ids[1..], rooms, socket)
  }

  /**
   * The sweep's effect on one room: a room not visited is untouched; a visited one
   * loses the socket, and is gone exactly when the socket was its only user.
   */
  lemma {:induction false} LeaveAllRoom(ids: seq<ProblemId>, rooms: map<ProblemId, Room>, socket: SocketId, id: ProblemId)
    requires id in rooms
    ensures var r := LeaveAll(ids, rooms, socket).rooms;
      if id !in ids then id in r && r[id] == rooms[id]
      else if EmptiedBy(rooms[id], socket) then id !in r
      else id in r && r[id] == rooms[id].(users := rooms[id].users - {socket})
    decreases |ids|
  {
    if |ids| > 0 {
      var x := ids[0];
      assert forall y :: y in ids <==> y == x || y in ids[1..];
      if x in rooms && socket in rooms[x].users {
        var next := Leave(rooms, x, socket);
        if id in next {
          LeaveAllRoom(ids[1..], next, socket, id);
          if id == x {
            assert next[id].users == next[id].users - {socket};
            assert next[id] == next[id].(users := next[id].users - {socket});
          }
        }
      } else {
        LeaveAllRoom(ids[1..], rooms, socket, id);
        if id == x && socket !in rooms[id].users {
          assert rooms[id].users - {socket} == rooms[id].users;
        }
      }
    }
  }

  /**
   * Every emitted event is a `user_left` to a visited room that held the socket, with
   * the number of users left in it.
   */
  lemma {:induction false} LeaveAllEmitsOnlyLeaves(ids: seq<ProblemId>, rooms: map<ProblemId, Room>, socket: SocketId, k: nat)
    requires k < |LeaveAll(ids, rooms, socket).emitted|
    ensures var e := LeaveAll(ids, rooms, socket).emitted[k];
      && e.to.EveryoneIn? && e.to.room in ids && e.to.room in rooms && socket in rooms[e.to.room].users
      && e.event == UserLeft(socket, |rooms[e.to.room].users - {socket}|)
    decreases |ids|
  {
    var x := ids[0];
    if x in rooms && socket in rooms[x].users {
      var next := Leave(rooms, x, socket);
      if k > 0 {
        LeaveAllEmitsOnlyLeaves(ids[1..], next, socket, k - 1);
        var id := LeaveAll(ids[1..], next, socket).emitted[k - 1].to.room;
        assert id != x;
      }
    } else {
      LeaveAllEmitsOnlyLeaves(ids[1..], rooms, socket, k);
    }
  }

  /** Every visited room that held the socket is told how many users remain. */
  lemma {:induction false} LeaveAllNotifies(ids: seq<ProblemId>, rooms: map<ProblemId, Room>, socket: SocketId, id: ProblemId)
    requires id in ids && id in rooms && socket in rooms[id].users
    ensures Emit(EveryoneIn(id), UserLeft(socket, |rooms[id].users - {socket}|)) in LeaveAll(ids, rooms, socket).emitted
    decreases |ids|
  {
    var x := ids[0];
    if x != id {
      assert id in ids[1..];
      if x in rooms && socket in rooms[x].users {
        LeaveAllNotifies(ids[1..], Leave(rooms, x, socket), socket, id);
      } else {
        LeaveAllNotifies(ids[1..], rooms, socket, id);
      }
    }
  }

  /**
   * The notices a disconnect owes, read off the rooms before it: one `user_left` per id of
   * `ids` whose room held the socket, in the order of `ids`, with one user fewer.
   */
  function LeaveNotices(ids: seq<ProblemId>, rooms: map<ProblemId, Room>, socket: SocketId): seq<Emit>
    decreases |ids|
  {
    if |ids| == 0 then []
    else
      var id := ids[0];
      var here := if id in rooms && socket in rooms[id].users
        then [Emit(EveryoneIn(id), UserLeft(socket, |rooms[id].users| - 1))] else [];
      here + LeaveNotices(ids[1..], rooms, socket)
  }

  /** No two emitted events go to the same audience. */
  predicate AudiencesDistinct(e: seq<Emit>) {
    forall a, b :: 0 <= a < b < |e| ==> e[a].to != e[b].to
  }

  /** The owed notices depend only on the rooms named in `ids`. */
  lemma {:induction false} LeaveNoticesLocal(ids: seq<ProblemId>, rooms: map<ProblemId, Room>,
                                             other: map<ProblemId, Room>, socket: SocketId)
    requires forall k :: 0 <= k < |ids| ==> (ids[k] in rooms <==> ids[k] in other)
    requires forall k :: 0 <= k < |ids| && ids[k] in rooms ==> rooms[ids[k]] == other[ids[k]]
    ensures LeaveNotices(ids, rooms, socket) == LeaveNotices(ids, other, socket)
    decreases |ids|
  {
    if |ids| > 0 {
      var tail := ids[1..];
      forall k | 0 <= k < |tail| ensures (tail[k] in rooms <==> tail[k] in other) {
        assert tail[k] == ids[k + 1];
      }
      forall k | 0 <= k < |tail| && tail[k] in rooms ensures rooms[tail[k]] == other[tail[k]] {
        assert tail[k] == ids[k + 1];
      }
      LeaveNoticesLocal(tail, rooms, other, socket);
    }
  }

  /** Each owed notice goes to the whole of a room named in `ids`, and no room is told twice. */
  lemma {:induction false} LeaveNoticesDistinct(ids: seq<ProblemId>, rooms: map<ProblemId, Room>, socket: SocketId)
    requires NoDup(ids)
    ensures var e := LeaveNotices(ids, rooms, socket);
      && (forall k :: 0 <= k < |e| ==> e[k].to.EveryoneIn? && e[k].to.room in ids)
      && AudiencesDistinct(e)
    decreases |ids|
  {
    if |ids| > 0 {
      var id := ids[0];
      var rest := LeaveNotices(ids[1..], rooms, socket);
      assert NoDup(ids[1..]) by {
        forall i, j | 0 <= i < j < |ids[1..]| ensures ids[1..][i] != ids[1..][j] {
          assert ids[1..][i] == ids[i + 1] && ids[1..][j] == ids[j + 1];
        }
      }
      LeaveNoticesDistinct(ids[1..], rooms, socket);
      assert id !in ids[1..] by {
        forall j | 0 <= j < |ids[1..]| ensures ids[1..][j] != id {
          assert ids[1..][j] == ids[j + 1];
        }
      }
      assert forall x :: x in ids[1..] ==> x in ids;
      var e := LeaveNotices(ids, rooms, socket);
      if id in rooms && socket in rooms[id].users {
        assert e == [Emit(EveryoneIn(id), UserLeft(socket, |rooms[id].users| - 1))] + rest;
        forall a, b | 0 <= a < b < |e| ensures e[a].to != e[b].to {
          assert e[b] == rest[b - 1];
          if a > 0 {
            assert e[a] == rest[a - 1];
          }
        }
      } else {
        assert e == rest;
      }
    }
  }

  /** With distinct ids, the sweep emits exactly the owed notices. */
  lemma {:induction false} LeaveAllEmitsNotices(ids: seq<ProblemId>, rooms: map<ProblemId, Room>, socket: SocketId)
    requires NoDup(ids)
    ensures LeaveAll(ids, rooms, socket).emitted == LeaveNotices(ids, rooms, socket)
    decreases |ids|
  {
    if |ids| > 0 {
      var x := ids[0];
      assert NoDup(ids[1..]) by {
        forall i, j | 0 <= i < j < |ids[1..]| ensures ids[1..][i] != ids[1..][j] {
          assert ids[1..][i] == ids[i + 1] && ids[1..][j] == ids[j + 1];
        }
      }
      if x in rooms && socket in rooms[x].users {
        var next := Leave(rooms, x, socket);
        LeaveAllEmitsNotices(ids[1..], next, socket);
        assert x !in ids[1..] by {
          forall j | 0 <= j < |ids[1..]| ensures ids[1..][j] != x {
            assert ids[1..][j] == ids[j + 1];
          }
        }
        var tail := ids[1..];
        forall k | 0 <= k < |tail| ensures (tail[k] in next <==> tail[k] in rooms) {
          assert tail[k] != x;
        }
        forall k | 0 <= k < |tail| && tail[k] in next ensures next[tail[k]] == rooms[tail[k]] {
          assert tail[k] != x;
        }
        LeaveNoticesLocal(tail, next, rooms, socket);
        assert |rooms[x].users - {socket}| == |rooms[x].users| - 1;
      } else {
        LeaveAllEmitsNotices(ids[1..], rooms, socket);
      }
    }
  }

  /** The ids of `order` that are still rooms, in the same order. */
  function Surviving(order: seq<ProblemId>, rooms: map<ProblemId, Room>): (r: seq<ProblemId>)
    ensures forall id :: id in r <==> id in order && id in rooms
    ensures NoDup(order) ==> NoDup(r)
    decreases |order|
  {
    if |order| == 0 then []
    else
      var rest := Surviving(order[1..], rooms);
      assert NoDup(order) ==> order[0] !in order[1..];
      if order[0] in rooms then [order[0]] + rest else rest
  }

  /**
   * `disconnect`: removes the socket from every room holding it and deletes the rooms
   * it leaves empty; rooms not in the order, which a valid registry has none of, are
   * untouched.
   */
  function OnDisconnect(reg: Registry, socket: SocketId): (s: Step)
    ensures s.registry.rooms.Keys <= reg.rooms.Keys
    ensures forall id :: id in reg.rooms && id in reg.order ==>
      if EmptiedBy(reg.rooms[id], socket) then id !in s.registry.rooms
      else id in s.registry.rooms && s.registry.rooms[id] == reg.rooms[id].(users := reg.rooms[id].users - {socket})
    ensures forall id :: id in s.registry.order <==> id in reg.order && id in s.registry.rooms
  {
    var sweep := LeaveAll(reg.order, reg.rooms, socket);
    assert forall id :: id in reg.rooms && id in reg.order ==>
      if EmptiedBy(reg.rooms[id], socket) then id !in sweep.rooms
      else id in sweep.rooms && sweep.rooms[id] == reg.rooms[id].(users := reg.rooms[id].users - {socket})
    by {
      forall id | id in reg.rooms && id in reg.order {
        LeaveAllRoom(reg.order, reg.rooms, socket, id);
      }
    }
    Step(Registry(Surviving(reg.order, sweep.rooms), sweep.rooms), sweep.emitted)
  }

  /**
   * What a disconnect tells the rooms: each room that held the socket hears, once and in
   * the map's order, the number of users left in it, and nothing else is emitted.
   */
  lemma DisconnectNotifies(reg: Registry, socket: SocketId)
    requires Valid(reg)
    ensures OnDisconnect(reg, socket).emitted == LeaveNotices(reg.order, reg.rooms, socket)
    ensures AudiencesDistinct(OnDisconnect(reg, socket).emitted)
    ensures var e := OnDisconnect(reg, socket).emitted;
      && (forall id :: id in reg.rooms && socket in reg.rooms[id].users ==>
            Emit(EveryoneIn(id), UserLeft(socket, |reg.rooms[id].users| - 1)) in e)
      && (forall k :: 0 <= k < |e| ==>
            e[k].to.EveryoneIn? && e[k].to.room in reg.rooms && socket in reg.rooms[e[k].to.room].users
            && e[k].event == UserLeft(socket, |reg.rooms[e[k].to.room].users| - 1))
  {
    var e := OnDisconnect(reg, socket).emitted;
    LeaveAllEmitsNotices(reg.order, reg.rooms, socket);
    LeaveNoticesDistinct(reg.order, reg.rooms, socket);
    forall id | id in reg.rooms && socket in reg.rooms[id].users
      ensures Emit(EveryoneIn(id), UserLeft(socket, |reg.rooms[id].users| - 1)) in e
    {
      LeaveAllNotifies(reg.order, reg.rooms, socket, id);
      assert |reg.rooms[id].users - {socket}| == |reg.rooms[id].users| - 1;
    }
    forall k | 0 <= k < |e|
      ensures e[k].to.EveryoneIn? && e[k].to.room in reg.rooms && socket in reg.rooms[e[k].to.room].users
      ensures e[k].event == UserLeft(socket, |reg.rooms[e[k].to.room].users| - 1)
    {
      LeaveAllEmitsOnlyLeaves(reg.order, reg.rooms, socket, k);
      var users := reg.rooms[e[k].to.room].users;
      assert |users - {socket}| == |users| - 1;
    }
  }

  /** After a disconnect from a valid registry the socket is in no room. */
  lemma DisconnectLeavesNoTrace(reg: Registry, socket: SocketId, id: ProblemId)
    requires Valid(reg)
    ensures socket !in Members(OnDisconnect(reg, socket).registry, id)
  {
  }

  // ---------------------------------------------------------------------------
  // The whole coordinator
  // ---------------------------------------------------------------------------

  /** The inbound socket events. */
  datatype Message =
    | JoinProblem(problemId: ProblemId)
    | CodeChange(problemId: ProblemId, code: string)
    | NewSolution(problemId: ProblemId, solution: Payload)
    | SolutionVote(problemId: ProblemId, solutionId: string, votes: int)
    | SolutionAccepted(problemId: ProblemId, solutionId: string)
    | ChatMessage(problemId: ProblemId, message: string, timestamp: string)
    | Disconnect

  /**
   * Dispatches one event from `socket` to its handler. Only a join creates a room, and
   * only a join or a disconnect changes who is in one.
   */
  function Handle(reg: Registry, socket: SocketId, m: Message): (s: Step)
    ensures forall id :: id in s.registry.rooms && id !in reg.rooms ==> m.JoinProblem? && id == m.problemId
    ensures !m.JoinProblem? && !m.Disconnect? ==>
      && s.registry.rooms.Keys == reg.rooms.Keys
      && forall id :: id in reg.rooms ==> s.registry.rooms[id].users == reg.rooms[id].users
  {
    match m
    case JoinProblem(id) => OnJoinProblem(reg, socket, id)
    case CodeChange(id, code) => OnCodeChange(reg, socket, id, code)
    case NewSolution(id, sol) => OnNewSolution(reg, id, sol)
    case SolutionVote(id, sid, votes) => OnSolutionVote(reg, id, sid, votes)
    case SolutionAccepted(id, sid) => OnSolutionAccepted(reg, id, sid)
    case ChatMessage(id, text, at) => OnChatMessage(reg, socket, id, text, at)
    case Disconnect => OnDisconnect(reg, socket)
  }

  lemma JoinPreservesValid(reg: Registry, socket: SocketId, problemId: ProblemId)
    requires Valid(reg)
    ensures Valid(OnJoinProblem(reg, socket, problemId).registry)
  {
    var r := OnJoinProblem(reg, socket, problemId).registry;
    assert forall x :: x in r.order <==> x in r.rooms;
    if problemId !in reg.rooms {
      assert problemId !in reg.order;
      assert NoDup(r.order);
    }
  }

  lemma DisconnectPreservesValid(reg: Registry, socket: SocketId)
    requires Valid(reg)
    ensures Valid(OnDisconnect(reg, socket).registry)
  {
    var r := OnDisconnect(reg, socket).registry;
    forall x | x in r.rooms ensures r.rooms[x].users != {} && |r.rooms[x].chat| <= ChatHistoryLimit {
      var users := reg.rooms[x].users;
      if socket in users {
        assert users != {socket};
        var y :| y in users && y != socket;
        assert y in r.rooms[x].users;
      }
    }
  }

  /** Every handler preserves the registry invariant. */
  lemma HandlePreservesValid(reg: Registry, socket: SocketId, m: Message)
    requires Valid(reg)
    ensures Valid(Handle(reg, socket, m).registry)
  {
    match m
    case JoinProblem(id) => JoinPreservesValid(reg, socket, id);
    case Disconnect => DisconnectPreservesValid(reg, socket);
    case _ =>
  }

  /** The registry after a run of events from various sockets. */
  function Run(reg: Registry, events: seq<(SocketId, Message)>): Registry
    decreases |events|
  {
    if |events| == 0 then reg
    else Run(Handle(reg, events[0].0, events[0].1).registry, events[1..])
  }

  /**
   * The invariant holds after any run from the empty registry: every live room has a
   * user, so a room emptied by disconnects is gone and a later join starts it afresh.
   */
  lemma {:induction false} RunPreservesValid(reg: Registry, events: seq<(SocketId, Message)>)
    requires Valid(reg)
    ensures Valid(Run(reg, events))
    decreases |events|
  {
    if |events| > 0 {
      HandlePreservesValid(reg, events[0].0, events[0].1);
      RunPreservesValid(Handle(reg, events[0].0, events[0].1).registry, events[1..]);
    }
  }

  /** A room re-created after its last user left starts with empty code and empty chat. */
  lemma RejoinAfterEmptyStartsFresh(reg: Registry, leaver: SocketId, joiner: SocketId, problemId: ProblemId)
    requires Valid(reg)
    requires problemId in reg.rooms && reg.rooms[problemId].users == {leaver}
    ensures var gone := OnDisconnect(reg, leaver).registry;
      && problemId !in gone.rooms
      && OnJoinProblem(gone, joiner, problemId).registry.rooms[problemId] == Room({joiner}, "", [])
  {
  }
}

=== FILE: common.dfy ===
/** Small failure-carrying datatypes shared by every module of the model. */
module Common {

  /** A value that may be absent: JavaScript's `undefined`/`null` versus a present value. */
  datatype Option<+T> = None | Some(value: T)

  /** The outcome of a handler: a value, or the error the handler reports. */
  datatype Result<+T, +E> = Ok(value: T) | Err(error: E)
}

=== FILE: gamification_config.dfy ===
/**
 * The gamification rule table (backend/config/gamificationConfig.js): points per action
 * type, the badge catalogue in declaration order, and the two helpers that consult them.
 * Action and requirement types are the strings the code uses, so an unknown type is
 * representable and earns nothing.
 */
module GamificationConfig {
  import opened Seqs

  const JoinRoom := "JOIN_ROOM"
  const ChatMessage := "CHAT_MESSAGE"
  const ChatMessageDailyCap := "CHAT_MESSAGE_DAILY_CAP"
  const SubmitSolution := "SUBMIT_SOLUTION"
  const TotalPoints := "TOTAL_POINTS"
  const UniqueLanguages := "UNIQUE_LANGUAGES"
  const SolvedProblems := "SOLVED_PROBLEMS"

  /** The most chat points a user can earn in one day. */
  const DailyChatCap: nat := 20

  /** The keys of `POINTS_RULES`; the cap is stored there too and so reads as an action. */
  const RuleKeys: set<string> := {JoinRoom, ChatMessage, ChatMessageDailyCap, SubmitSolution}

  /** `POINTS_RULES[actionType] || 0`. */
  function RulePoints(actionType: string): (p: nat)
    ensures actionType !in RuleKeys <==> p == 0
    ensures actionType == ChatMessage ==> p == 1
  {
    if actionType == JoinRoom then 5
    else if actionType == ChatMessage then 1
    else if actionType == ChatMessageDailyCap then DailyChatCap
    else if actionType == SubmitSolution then 50
    else 0
  }

  /**
   * `calculatePoints`: the rule's points, except that a chat message earns at most what
   * is left of the daily cap, which goes negative once `currentPoints` is past the cap.
   */
  function CalculatePoints(actionType: string, currentPoints: int): (p: int)
    ensures actionType != ChatMessage ==> p == RulePoints(actionType)
    ensures actionType == ChatMessage ==>
      && p <= 1
      && currentPoints + p <= DailyChatCap
      && (p == 1 || currentPoints + p == DailyChatCap)
  {
    var points := RulePoints(actionType);
    if actionType == ChatMessage then
      if points < DailyChatCap - currentPoints then points else DailyChatCap - currentPoints
    else points
  }

  /** Only chat points depend on how many the user already has. */
  lemma CalculatePointsIgnoresCurrent(actionType: string, a: int, b: int)
    requires actionType != ChatMessage
    ensures CalculatePoints(actionType, a) == CalculatePoints(actionType, b)
  {
  }

  /** Chat points are 1 below the cap and non-positive from the cap on; there is no lower clamp. */
  lemma ChatPointsAroundCap(currentPoints: int)
    ensures currentPoints < DailyChatCap ==> CalculatePoints(ChatMessage, currentPoints) == 1
    ensures currentPoints >= DailyChatCap ==> CalculatePoints(ChatMessage, currentPoints) <= 0
    ensures currentPoints > DailyChatCap ==> CalculatePoints(ChatMessage, currentPoints) < 0
  {
  }

  datatype Requirement = Requirement(kind: string, count: nat)

  /** One entry of `BADGES`: its key in the object, and the fields of its value. */
  datatype Badge = Badge(
    key: string, id: string, name: string, description: string, icon: string,
    requirement: Requirement, isFuture: bool)

  /** `BADGES`, in declaration order. */
  const Badges: seq<Badge> := [
    Badge("FIRST_COLLABORATOR", "first_collaborator", "First Collaborator",
          "Joined your first collaboration room", "\U{1F91D}", Requirement(JoinRoom, 1), false),
    Badge("CHATTY", "chatty", "Chatty",
          "Sent 50 messages in problem discussions", "\U{1F4AC}", Requirement(ChatMessage, 50), false),
    Badge("POINTS_100_CLUB", "points_100_club", "100 Points Club",
          "Reached 100 total points", "\U{1F3C6}", Requirement(TotalPoints, 100), false),
    Badge("LANGUAGE_EXPLORER", "language_explorer", "Language Explorer",
          "Collaborated in rooms for 3 different programming languages", "\U{1F30D}",
          Requirement(UniqueLanguages, 3), false),
    Badge("PROBLEM_SOLVER", "problem_solver", "Problem Solver",
          "Solved 5 problems", "\U{2705}", Requirement(SolvedProblems, 5), true)
  ]

  /** The `id` fields, in order. */
  function IdsOf(bs: seq<Badge>): (ids: seq<string>)
    ensures |ids| == |bs| && forall i :: 0 <= i < |bs| ==> ids[i] == bs[i].id
  {
    seq(|bs|, i requires 0 <= i < |bs| => bs[i].id)
  }

  /** The object keys, in order. */
  function KeysOf(bs: seq<Badge>): (keys: seq<string>)
    ensures |keys| == |bs| && forall i :: 0 <= i < |bs| ==> keys[i] == bs[i].key
  {
    seq(|bs|, i requires 0 <= i < |bs| => bs[i].key)
  }

  /** Neither the ids nor the keys of the catalogue repeat. */
  lemma CatalogueDistinct()
    ensures NoDup(IdsOf(Badges)) && NoDup(KeysOf(Badges))
  {
    var ids := IdsOf(Badges);
    var keys := KeysOf(Badges);
    assert ids == ["first_collaborator", "chatty", "points_100_club", "language_explorer", "problem_solver"];
    assert keys == ["FIRST_COLLABORATOR", "CHATTY", "POINTS_100_CLUB", "LANGUAGE_EXPLORER", "PROBLEM_SOLVER"];
  }

  /** Whether `checkBadgeEligibility` returns `b`. */
  predicate Earns(b: Badge, owned: seq<string>, actionType: string, actionCount: int) {
    !b.isFuture && b.id !in owned && b.requirement.kind == actionType && actionCount >= b.requirement.count
  }

  /**
   * `r` lists, in the order of `bs`, the ids of the badges of `bs` that are earned: each
   * id in `r` belongs to an earned badge, and every earned badge's id is in `r`.
   */
  predicate EarnedFrom(bs: seq<Badge>, owned: seq<string>, actionType: string, actionCount: int, r: seq<string>) {
    && Subsequence(r, IdsOf(bs))
    && (forall i :: 0 <= i < |r| ==> exists j :: 0 <= j < |bs| && bs[j].id == r[i] && Earns(bs[j], owned, actionType, actionCount))
    && (forall j :: 0 <= j < |bs| && Earns(bs[j], owned, actionType, actionCount) ==> bs[j].id in r)
  }

  /** The ids of the badges of `bs` that are earned, in order. */
  function EarnedIn(bs: seq<Badge>, owned: seq<string>, actionType: string, actionCount: int): (r: seq<string>)
    ensures EarnedFrom(bs, owned, actionType, actionCount, r)
    decreases |bs|
  {
    if |bs| == 0 then []
    else
      var rest := EarnedIn(bs[1..], owned, actionType, actionCount);
      EarnedStep(bs, owned, actionType, actionCount, rest);
      if Earns(bs[0], owned, actionType, actionCount) then [bs[0].id] + rest else rest
  }

  /** Deciding the first badge, in front of the answer for the others, answers for all. */
  lemma EarnedStep(bs: seq<Badge>, owned: seq<string>, actionType: string, actionCount: int, rest: seq<string>)
    requires |bs| > 0 && EarnedFrom(bs[1..], owned, actionType, actionCount, rest)
    ensures EarnedFrom(bs, owned, actionType, actionCount,
      if Earns(bs[0], owned, actionType, actionCount) then [bs[0].id] + rest else rest)
  {
    assert IdsOf(bs)[1..] == IdsOf(bs[1..]);
    assert forall j :: 1 <= j < |bs| ==> bs[j] == bs[1..][j - 1];
  }

  /**
   * `checkBadgeEligibility`: the ids of the catalogue badges that are current, not
   * owned, and whose requirement is this action type with a count the action count
   * reaches; in declaration order and without repeats.
   */
  function CheckBadgeEligibility(owned: seq<string>, actionType: string, actionCount: int): (r: seq<string>)
    ensures forall i :: 0 <= i < |r| ==> r[i] !in owned
    ensures forall i, j :: 0 <= i < |r| && 0 <= j < |Badges| && Badges[j].id == r[i] ==> !Badges[j].isFuture
    ensures forall j :: 0 <= j < |Badges| ==>
      (Badges[j].id in r <==> Earns(Badges[j], owned, actionType, actionCount))
    ensures NoDup(r)
    ensures Subsequence(r, IdsOf(Badges))
  {
    var r := EarnedIn(Badges, owned, actionType, actionCount);
    CatalogueDistinct();
    EarnedExactly(Badges, owned, actionType, actionCount, r);
    SubsequenceNoDup(r, IdsOf(Badges));
    r
  }

  /** When the ids of `bs` are distinct, a badge's id is listed exactly when that badge is earned. */
  lemma EarnedExactly(bs: seq<Badge>, owned: seq<string>, actionType: string, actionCount: int, r: seq<string>)
    requires EarnedFrom(bs, owned, actionType, actionCount, r) && NoDup(IdsOf(bs))
    ensures forall j :: 0 <= j < |bs| ==> (bs[j].id in r <==> Earns(bs[j], owned, actionType, actionCount))
    ensures forall i :: 0 <= i < |r| ==> r[i] !in owned
  {
    forall j | 0 <= j < |bs| && bs[j].id in r
      ensures Earns(bs[j], owned, actionType, actionCount)
    {
      var i :| 0 <= i < |r| && r[i] == bs[j].id;
      var k :| 0 <= k < |bs| && bs[k].id == r[i] && Earns(bs[k], owned, actionType, actionCount);
      assert IdsOf(bs)[k] == IdsOf(bs)[j];
    }
  }

  /** No action type and count ever yields the future Problem Solver badge. */
  lemma NeverProblemSolver(owned: seq<string>, actionType: string, actionCount: int)
    ensures "problem_solver" !in CheckBadgeEligibility(owned, actionType, actionCount)
  {
    assert Badges[4].id == "problem_solver";
  }
}

=== FILE: gamification_view.dfy ===
/**
 * The client's gamification state (frontend/src/context/GamificationContext.jsx): the
 * points total and badge list shown to the signed-in user, the three socket handlers
 * that update them, and `hasBadge`. Payload fields the handlers test for truthiness are
 * `Option`s; an absent field is `None`.
 */
module GamificationView {
  import opened Common
  import opened Seqs
  import opened GamificationConfig
  import Users
  import Awards

  type BadgeInfo = Awards.BadgeInfo

  datatype State = State(points: int, badges: seq<BadgeInfo>)

  /** A number field the handlers test with `if (points)`: present and not zero. */
  predicate Truthy(n: Option<int>) {
    n.Some? && n.value != 0
  }

  /** `points_updated`: the event's points are added to the total. */
  function OnPointsUpdated(s: State, points: int): (r: State)
    ensures r.points - s.points == points
    ensures r.badges == s.badges
  {
    s.(points := s.points + points)
  }

  /** `badges_earned`: every badge is appended in order; points are added only when truthy. */
  function OnBadgesEarned(s: State, badges: seq<BadgeInfo>, points: Option<int>): (r: State)
    ensures |r.badges| == |s.badges| + |badges|
    ensures r.badges[..|s.badges|] == s.badges && r.badges[|s.badges|..] == badges
    ensures !Truthy(points) ==> r.points == s.points
    ensures Truthy(points) ==> r.points - s.points == points.value
  {
    var withBadges := s.(badges := s.badges + badges);
    if Truthy(points) then withBadges.(points := s.points + points.value) else withBadges
  }

  /**
   * `gamification_update`: truthy points are added; a present, non-empty badge list is
   * appended. With neither, the state is left exactly as it was.
   */
  function OnGamificationUpdate(s: State, points: Option<int>, newBadges: Option<seq<BadgeInfo>>): (r: State)
    ensures !Truthy(points) && (newBadges.None? || newBadges.value == []) ==> r == s
    ensures !Truthy(points) ==> r.points == s.points
    ensures Truthy(points) ==> r.points - s.points == points.value
    ensures newBadges.None? ==> r.badges == s.badges
    ensures newBadges.Some? ==>
      |r.badges| == |s.badges| + |newBadges.value| &&
      r.badges[..|s.badges|] == s.badges && r.badges[|s.badges|..] == newBadges.value
  {
    var s1 := if Truthy(points) then s.(points := s.points + points.value) else s;
    if newBadges.Some? && |newBadges.value| > 0 then s1.(badges := s1.badges + newBadges.value) else s1
  }

  /** `hasBadge`: whether some badge in the list carries the id. */
  function HasBadge(s: State, badgeId: string): (b: bool)
    ensures b <==> exists i :: 0 <= i < |s.badges| && s.badges[i].id == badgeId
  {
    FirstIndex(s.badges, (x: BadgeInfo) => x.id == badgeId).Some?
  }

  /** No handler takes a badge away. */
  lemma HandlersKeepBadges(s: State, badgeId: string, points: int, badges: seq<BadgeInfo>,
                           maybePoints: Option<int>, newBadges: Option<seq<BadgeInfo>>)
    requires HasBadge(s, badgeId)
    ensures HasBadge(OnPointsUpdated(s, points), badgeId)
    ensures HasBadge(OnBadgesEarned(s, badges, maybePoints), badgeId)
    ensures HasBadge(OnGamificationUpdate(s, maybePoints, newBadges), badgeId)
  {
    var i :| 0 <= i < |s.badges| && s.badges[i].id == badgeId;
    assert OnBadgesEarned(s, badges, maybePoints).badges[i] == s.badges[i];
    assert OnGamificationUpdate(s, maybePoints, newBadges).badges[i] == s.badges[i];
  }

  /** After `badges_earned` the user has exactly the badges held before and those in the event. */
  lemma BadgesEarnedHasBadge(s: State, badges: seq<BadgeInfo>, points: Option<int>, badgeId: string)
    ensures HasBadge(OnBadgesEarned(s, badges, points), badgeId) <==>
      HasBadge(s, badgeId) || exists i :: 0 <= i < |badges| && badges[i].id == badgeId
  {
    var r := OnBadgesEarned(s, badges, points);
    if HasBadge(r, badgeId) && !HasBadge(s, badgeId) {
      var i :| 0 <= i < |r.badges| && r.badges[i].id == badgeId;
      assert r.badges[i] == badges[i - |s.badges|];
    }
    if exists i :: 0 <= i < |badges| && badges[i].id == badgeId {
      var i :| 0 <= i < |badges| && badges[i].id == badgeId;
      assert r.badges[|s.badges| + i] == badges[i];
    }
    if HasBadge(s, badgeId) {
      var i :| 0 <= i < |s.badges| && s.badges[i].id == badgeId;
      assert r.badges[i] == s.badges[i];
    }
  }

  // ---------------------------------------------------------------------------
  // The client follows the server
  // ---------------------------------------------------------------------------

  /** How the provider reacts to an event in the user's room; the badge notification is handled elsewhere. */
  function Apply(s: State, e: Awards.UserEvent): State {
    match e
    case GamificationUpdate(points, _, newBadges) => OnGamificationUpdate(s, Some(points), Some(newBadges))
    case BadgeEarned(_, _) => s
  }

  function ApplyAll(s: State, es: seq<Awards.UserEmit>): State
    decreases |es|
  {
    if |es| == 0 then s else ApplyAll(Apply(s, es[0].event), es[1..])
  }

  /** The client shows what the status endpoint reports for the document. */
  predicate Mirrors(s: State, p: Users.Profile) {
    s.points == p.points && s.badges == Awards.StatusBadges(p.badges)
  }

  /** The status report of a concatenation is the concatenation of the reports. */
  lemma {:induction false} StatusBadgesAppend(cat: seq<Badge>, a: seq<string>, b: seq<string>)
    ensures Awards.StatusIn(cat, a + b) == Awards.StatusIn(cat, a) + Awards.StatusIn(cat, b)
    decreases |a|
  {
    if |a| > 0 {
      assert (a + b)[0] == a[0];
      assert (a + b)[1..] == a[1..] + b;
      StatusBadgesAppend(cat, a[1..], b);
      match Awards.LookupIn(cat, a[0])
      case None =>
        assert Awards.StatusIn(cat, a) == Awards.StatusIn(cat, a[1..]);
        assert Awards.StatusIn(cat, a + b) == Awards.StatusIn(cat, a[1..] + b);
      case Some(x) =>
        assert Awards.StatusIn(cat, a) == [Awards.InfoOf(x)] + Awards.StatusIn(cat, a[1..]);
        assert Awards.StatusIn(cat, a + b) == [Awards.InfoOf(x)] + Awards.StatusIn(cat, a[1..] + b);
        assert [Awards.InfoOf(x)] + (Awards.StatusIn(cat, a[1..]) + Awards.StatusIn(cat, b))
            == ([Awards.InfoOf(x)] + Awards.StatusIn(cat, a[1..])) + Awards.StatusIn(cat, b);
    } else {
      assert a + b == b;
    }
  }

  /** In a catalogue with distinct keys, an entry is found by its key. */
  lemma LookupCatalogue(cat: seq<Badge>, b: Badge)
    requires NoDup(KeysOf(cat)) && b in cat
    ensures Awards.LookupIn(cat, b.key) == Some(b)
  {
    var j :| 0 <= j < |cat| && cat[j] == b;
    var keys := KeysOf(cat);
    var i := FirstIndex(keys, (k: string) => k == b.key);
    assert keys[j] == b.key;
    assert i.Some? && i.value <= j;
    assert keys[i.value] == keys[j];
  }

  /** Entries of a catalogue with distinct keys, reported by key, come back as their public fields. */
  lemma {:induction false} StatusOfCatalogue(cat: seq<Badge>, bs: seq<Badge>)
    requires NoDup(KeysOf(cat))
    requires forall i :: 0 <= i < |bs| ==> bs[i] in cat
    ensures Awards.StatusIn(cat, KeysOf(bs)) == Awards.InfosOf(bs)
    decreases |bs|
  {
    if |bs| > 0 {
      LookupCatalogue(cat, bs[0]);
      assert KeysOf(bs)[1..] == KeysOf(bs[1..]);
      StatusOfCatalogue(cat, bs[1..]);
      assert Awards.InfosOf(bs) == [Awards.InfoOf(bs[0])] + Awards.InfosOf(bs[1..]);
    }
  }

  /** Granting badges from the catalogue adds exactly their public fields to the status report. */
  lemma StatusAfterGrant(held: seq<string>, added: seq<Badge>)
    requires Subsequence(added, Badges)
    ensures Awards.StatusBadges(held + KeysOf(added)) == Awards.StatusBadges(held) + Awards.InfosOf(added)
  {
    forall i | 0 <= i < |added| ensures added[i] in Badges {
      SubsequenceIn(added, Badges, added[i]);
    }
    CatalogueDistinct();
    StatusOfCatalogue(Badges, added);
    StatusBadgesAppend(Badges, held, KeysOf(added));
  }

  /** What a positive award emits with socket.io present adds its points and appends its badges. */
  lemma ApplyAwardEvents(s: State, userId: string, points: nat, total: int, infos: seq<BadgeInfo>)
    requires points > 0
    ensures var es := Awards.AwardEvents(userId, true, points, total, infos);
      && |es| >= 1
      && (forall i :: 0 <= i < |es| ==> es[i].room == Awards.UserRoom(userId))
      && ApplyAll(s, es) == State(s.points + points, s.badges + infos)
  {
    var es := Awards.AwardEvents(userId, true, points, total, infos);
    var next := OnGamificationUpdate(s, Some(points), Some(infos));
    assert next == State(s.points + points, s.badges + infos);
    assert ApplyAll(s, es) == ApplyAll(next, es[1..]);
    if |es| == 2 {
      assert ApplyAll(next, es[1..]) == ApplyAll(next, es[2..]);
    }
  }

  /**
   * A client that mirrored the document before a positive award and applies everything
   * the award emits to the user's room mirrors the saved document afterwards: the
   * `gamification_update` alone carries the new points and badges.
   */
  lemma ClientTracksAward(s: State, user: Users.Profile, t: Awards.Tracker, userId: string, actionType: string, day: string)
    requires Mirrors(s, user)
    requires Awards.PointsToAward(t, userId, actionType, day).points > 0
    requires Awards.AwardPointsAndBadges(Some(user), t, userId, actionType, day, true).result.Ok?
    ensures var a := Awards.AwardPointsAndBadges(Some(user), t, userId, actionType, day, true).result.value;
      && |a.emitted| >= 1
      && (forall i :: 0 <= i < |a.emitted| ==> a.emitted[i].room == Awards.UserRoom(userId))
      && Mirrors(ApplyAll(s, a.emitted), a.profile)
  {
    var pts := Awards.PointsToAward(t, userId, actionType, day).points;
    Awards.PositiveAward(user, t, userId, actionType, day, true);
    var a := Awards.AwardPointsAndBadges(Some(user), t, userId, actionType, day, true).result.value;
    var added := Awards.ScanBadges(Badges, user.badges, Awards.Credit(user, actionType, pts));
    StatusAfterGrant(user.badges, added);
    ApplyAwardEvents(s, userId, pts, a.profile.points, Awards.InfosOf(added));
  }
}

=== FILE: notifications.dfy ===
/**
 * The client's notification state (frontend/src/context/notificationContext.jsx) and the
 * notifications page's pure helpers (frontend/src/pages/Notifications.jsx). Whether a
 * user is signed in and whether the server accepted a request are parameters; a request
 * that fails leaves local state as it was. Elapsed time is given in whole seconds.
 */
module Notifications {
  import opened Common
  import opened Seqs
  import opened Text
  import Problems

  /** The `problemId` of a notification: populated with the problem, a raw id, or absent. */
  datatype ProblemRef = Populated(id: string) | Raw(id: string) | Absent

  datatype Notification = Notification(
    id: string, kind: string, problem: ProblemRef, message: string, isRead: bool, createdAt: int)

  datatype State = State(notifications: seq<Notification>, unreadCount: int)

  function Unread(n: Notification): bool { !n.isRead }

  /** The unread counter agrees with the list: the state the context is meant to keep. */
  predicate Consistent(st: State) {
    st.unreadCount == Count(st.notifications, Unread)
  }

  /**
   * No two notifications share an id. Fetched notifications carry the store's distinct
   * `_id`s; those pushed over the socket carry none, so they all share `_id` undefined,
   * and the consistency lemmas that assume this are about lists without two of them.
   */
  predicate DistinctIds(ns: seq<Notification>) {
    forall i, j :: 0 <= i < j < |ns| ==> ns[i].id != ns[j].id
  }

  // ---------------------------------------------------------------------------
  // markAsRead
  // ---------------------------------------------------------------------------

  function MarkRead(ns: seq<Notification>, id: string): (r: seq<Notification>)
    ensures |r| == |ns|
    ensures forall i :: 0 <= i < |ns| ==> r[i] == (if ns[i].id == id then ns[i].(isRead := true) else ns[i])
  {
    seq(|ns|, i requires 0 <= i < |ns| => if ns[i].id == id then ns[i].(isRead := true) else ns[i])
  }

  /**
   * `markAsRead`: without a signed-in user, or when the request fails, nothing changes;
   * otherwise the notifications with that id are read and the counter drops by one,
   * never below 0.
   */
  function MarkAsRead(st: State, signedIn: bool, requestOk: bool, id: string): (r: State)
    ensures !signedIn || !requestOk ==> r == st
    ensures signedIn && requestOk ==>
      && r.notifications == MarkRead(st.notifications, id)
      && r.unreadCount == (if st.unreadCount - 1 > 0 then st.unreadCount - 1 else 0)
    ensures st.unreadCount >= 0 ==> r.unreadCount >= 0
  {
    if !signedIn || !requestOk then st
    else State(MarkRead(st.notifications, id), if st.unreadCount - 1 > 0 then st.unreadCount - 1 else 0)
  }

  /** Marking an unread notification read keeps the counter in step with the list. */
  lemma MarkAsReadConsistent(st: State, id: string, k: nat)
    requires Consistent(st) && DistinctIds(st.notifications)
    requires k < |st.notifications| && st.notifications[k].id == id && !st.notifications[k].isRead
    ensures Consistent(MarkAsRead(st, true, true, id))
  {
    var ns := st.notifications;
    var r := MarkRead(ns, id);
    CountRemoveAt(ns, k, Unread);
    CountRemoveAt(r, k, Unread);
    assert ns[..k] + ns[k + 1..] == r[..k] + r[k + 1..];
  }

  /** A read notification is no longer listed on the page. */
  lemma MarkAsReadUnlists(st: State, id: string)
    ensures forall i :: 0 <= i < |UnreadList(MarkAsRead(st, true, true, id).notifications)| ==>
      UnreadList(MarkAsRead(st, true, true, id).notifications)[i].id != id
  {
  }

  // ---------------------------------------------------------------------------
  // markAllAsRead
  // ---------------------------------------------------------------------------

  function ReadAll(ns: seq<Notification>): (r: seq<Notification>)
    ensures |r| == |ns| && forall i :: 0 <= i < |ns| ==> r[i] == ns[i].(isRead := true)
  {
    seq(|ns|, i requires 0 <= i < |ns| => ns[i].(isRead := true))
  }

  /**
   * `markAllAsRead`: a no-op without a signed-in user, when the counter is 0, or when
   * the request fails; otherwise every notification is read and the counter is 0.
   */
  function MarkAllAsRead(st: State, signedIn: bool, requestOk: bool): (r: State)
    ensures !signedIn || st.unreadCount == 0 || !requestOk ==> r == st
    ensures signedIn && st.unreadCount != 0 && requestOk ==>
      r.unreadCount == 0 && |r.notifications| == |st.notifications|
      && forall i :: 0 <= i < |r.notifications| ==> r.notifications[i] == st.notifications[i].(isRead := true)
  {
    if !signedIn || st.unreadCount == 0 || !requestOk then st
    else State(ReadAll(st.notifications), 0)
  }

  /** Marking all as read leaves a consistent state with nothing on the page. */
  lemma MarkAllAsReadConsistent(st: State)
    requires Consistent(st)
    ensures Consistent(MarkAllAsRead(st, true, true))
    ensures st.unreadCount != 0 ==> UnreadList(MarkAllAsRead(st, true, true).notifications) == []
  {
    var r := MarkAllAsRead(st, true, true);
    if st.unreadCount != 0 {
      CountNone(r.notifications, Unread);
    }
  }

  // ---------------------------------------------------------------------------
  // deleteNotification
  // ---------------------------------------------------------------------------

  /** The notifications without that id, in their order. */
  function WithoutId(ns: seq<Notification>, id: string): (r: seq<Notification>)
    ensures |r| <= |ns|
    ensures forall i :: 0 <= i < |r| ==> r[i].id != id
    decreases |ns|
  {
    if |ns| == 0 then []
    else
      var rest := WithoutId(ns[1..], id);
      if ns[0].id != id then [ns[0]] + rest else rest
  }

  /** Deleting keeps every other notification, in order. */
  lemma {:induction false} WithoutIdKeepsOthers(ns: seq<Notification>, id: string)
    ensures Subsequence(WithoutId(ns, id), ns)
    ensures forall i :: 0 <= i < |ns| && ns[i].id != id ==> ns[i] in WithoutId(ns, id)
    decreases |ns|
  {
    if |ns| > 0 {
      WithoutIdKeepsOthers(ns[1..], id);
      assert forall i :: 1 <= i < |ns| ==> ns[i] == ns[1..][i - 1];
    }
  }

  function HasNotificationId(id: string): Notification -> bool { (n: Notification) => n.id == id }

  /**
   * `deleteNotification`: without a signed-in user, or when the request fails, nothing
   * changes; otherwise the notifications with that id are dropped, the others kept in
   * order, and the counter drops by one, never below 0, exactly when the first one with
   * that id was unread.
   */
  function DeleteNotification(st: State, signedIn: bool, requestOk: bool, id: string): (r: State)
    ensures !signedIn || !requestOk ==> r == st
    ensures signedIn && requestOk ==>
      && r.notifications == WithoutId(st.notifications, id)
      && var found := FirstIndex(st.notifications, HasNotificationId(id));
         r.unreadCount == (if found.Some? && !st.notifications[found.value].isRead
                           then (if st.unreadCount - 1 > 0 then st.unreadCount - 1 else 0)
                           else st.unreadCount)
  {
    if !signedIn || !requestOk then st
    else
      var remaining := WithoutId(st.notifications, id);
      match FirstIndex(st.notifications, HasNotificationId(id))
      case Some(k) =>
        if !st.notifications[k].isRead
        then State(remaining, if st.unreadCount - 1 > 0 then st.unreadCount - 1 else 0)
        else State(remaining, st.unreadCount)
      case None => State(remaining, st.unreadCount)
  }

  /** With distinct ids, dropping one notification is removing it at its index. */
  lemma {:induction false} WithoutIdRemovesAt(ns: seq<Notification>, id: string, k: nat)
    requires DistinctIds(ns) && k < |ns| && ns[k].id == id
    ensures WithoutId(ns, id) == ns[..k] + ns[k + 1..]
    decreases |ns|
  {
    var tail := ns[1..];
    if k == 0 {
      forall i | 0 <= i < |tail| ensures tail[i].id != id {
        assert tail[i] == ns[i + 1];
      }
      WithoutIdKeepsAll(tail, id);
      assert ns[..0] + ns[1..] == tail;
    } else {
      forall i, j | 0 <= i < j < |tail| ensures tail[i].id != tail[j].id {
        assert tail[i] == ns[i + 1] && tail[j] == ns[j + 1];
      }
      assert ns[0].id != id by {
        assert ns[0].id != ns[k].id;
      }
      WithoutIdRemovesAt(tail, id, k - 1);
      assert WithoutId(ns, id) == [ns[0]] + WithoutId(tail, id);
      assert tail[..k - 1] == ns[1..k];
      assert tail[k..] == ns[k + 1..];
      assert ns[..k] == [ns[0]] + ns[1..k];
    }
  }

  /** Nothing is dropped when no notification has the id. */
  lemma {:induction false} WithoutIdKeepsAll(ns: seq<Notification>, id: string)
    requires forall i :: 0 <= i < |ns| ==> ns[i].id != id
    ensures WithoutId(ns, id) == ns
    decreases |ns|
  {
    if |ns| > 0 {
      WithoutIdKeepsAll(ns[1..], id);
    }
  }

  /** Deleting keeps the counter in step with the list. */
  lemma DeleteConsistent(st: State, id: string)
    requires Consistent(st) && DistinctIds(st.notifications)
    ensures Consistent(DeleteNotification(st, true, true, id))
  {
    var ns := st.notifications;
    match FirstIndex(ns, HasNotificationId(id))
    case None =>
      WithoutIdKeepsAll(ns, id);
    case Some(k) =>
      WithoutIdRemovesAt(ns, id, k);
      CountRemoveAt(ns, k, Unread);
  }

  // ---------------------------------------------------------------------------
  // Incoming notifications
  // ---------------------------------------------------------------------------

  /**
   * `handleNewNotification`: the listener exists only while a user is signed in; it puts
   * the notification first and raises the counter by one.
   */
  function HandleNewNotification(st: State, signedIn: bool, n: Notification): (r: State)
    ensures !signedIn ==> r == st
    ensures signedIn ==> r.notifications == [n] + st.notifications && r.unreadCount == st.unreadCount + 1
    ensures signedIn ==> r.notifications[1..] == st.notifications
  {
    if !signedIn then st
    else State([n] + st.notifications, st.unreadCount + 1)
  }

  /** A new notification arrives unread, so the counter stays in step. */
  lemma NewNotificationConsistent(st: State, n: Notification)
    requires Consistent(st) && !n.isRead
    ensures Consistent(HandleNewNotification(st, true, n))
  {
    assert ([n] + st.notifications)[1..] == st.notifications;
  }

  // ---------------------------------------------------------------------------
  // The notifications page
  // ---------------------------------------------------------------------------

  /** The page lists only unread notifications, in order. */
  function UnreadList(ns: seq<Notification>): (r: seq<Notification>)
    ensures forall i :: 0 <= i < |r| ==> !r[i].isRead && r[i] in ns
    ensures forall i :: 0 <= i < |ns| && !ns[i].isRead ==> ns[i] in r
    ensures |r| == Count(ns, Unread)
  {
    Filter(ns, Unread)
  }

  /** The disabled state of "Mark all as read": every notification is read. */
  predicate MarkAllDisabled(ns: seq<Notification>) {
    forall i :: 0 <= i < |ns| ==> ns[i].isRead
  }

  /** The button is disabled exactly when the page lists nothing. */
  lemma DisabledIffNothingListed(ns: seq<Notification>)
    ensures MarkAllDisabled(ns) <==> UnreadList(ns) == []
  {
    if MarkAllDisabled(ns) {
      CountNone(ns, Unread);
    } else {
      var i :| 0 <= i < |ns| && !ns[i].isRead;
      assert ns[i] in UnreadList(ns);
    }
  }

  /** What the elapsed-time label says, before rendering. */
  datatype Elapsed = JustNow | Ago(count: nat, unit: string) | Older

  const Minute: nat := 60
  const Hour: nat := 3600
  const Day: nat := 86400
  const Week: nat := 604800

  function UnitSeconds(unit: string): nat {
    if unit == "minute" then Minute else if unit == "hour" then Hour else Day
  }

  /**
   * The bucket of `getTimeString` for whole elapsed seconds: under a minute is "just
   * now"; under an hour counts whole minutes, under a day whole hours, under a week
   * whole days; a week or more falls back to a calendar date.
   */
  function Bucket(seconds: int): (e: Elapsed)
    ensures e.JustNow? <==> seconds < Minute
    ensures e.Older? <==> seconds >= Week
    ensures e.Ago? ==>
      && e.count >= 1
      && e.count * UnitSeconds(e.unit) <= seconds < (e.count + 1) * UnitSeconds(e.unit)
      && (e.unit == "minute" <==> seconds < Hour)
      && (e.unit == "hour" <==> Hour <= seconds < Day)
      && (e.unit == "day" <==> Day <= seconds)
  {
    if seconds < Minute then JustNow
    else if seconds < Hour then Ago(seconds / Minute, "minute")
    else if seconds < Day then Ago(seconds / Hour, "hour")
    else if seconds < Week then Ago(seconds / Day, "day")
    else Older
  }

  /** The label text; the calendar-date fallback is locale formatting and is not modelled. */
  function Label(e: Elapsed): (s: string)
    requires !e.Older?
    ensures e.JustNow? ==> s == "just now"
    ensures e.Ago? ==> StartsWith(s, Decimal(e.count) + " " + e.unit)
    ensures e.Ago? ==> |s| >= 4 && s[|s| - 4..] == " ago"
    ensures e.Ago? && e.count <= 1 ==> s == Decimal(e.count) + " " + e.unit + " ago"
  {
    match e
    case JustNow => "just now"
    case Ago(n, unit) =>
      var head := Decimal(n) + " " + unit;
      var s := head + (if n > 1 then "s" else "") + " ago";
      assert s[..|head|] == head;
      s
  }

  /** The plural 's' appears exactly when the count is more than one. */
  lemma PluralIffMoreThanOne(seconds: int)
    requires Minute <= seconds < Week
    ensures var e := Bucket(seconds);
      var s := Label(e);
      var plural := Decimal(e.count) + " " + e.unit + "s ago";
      (e.count > 1 <==> s == plural)
  {
    var e := Bucket(seconds);
    var head := Decimal(e.count) + " " + e.unit;
    if e.count <= 1 {
      assert Label(e) == head + " ago";
      assert (head + " ago")[|head|] == ' ';
      assert (head + "s ago")[|head|] == 's';
    }
  }

  /**
   * `problemId?._id || problemId`, as it renders in a template literal: a raw id or a
   * populated document's id; a populated document without an id renders as an object,
   * and a missing reference as "undefined".
   */
  function RefId(ref: ProblemRef): (id: string)
    ensures ref.Raw? ==> id == ref.id
    ensures ref.Populated? && ref.id != "" ==> id == ref.id
    ensures ref.Populated? && ref.id == "" ==> id == "[object Object]"
    ensures ref.Absent? ==> id == "undefined"
  {
    match ref
    case Populated(id) => if id == "" then "[object Object]" else id
    case Raw(id) => id
    case Absent => "undefined"
  }

  const ProblemKinds: set<string> := {"new_solution", "solution_accepted", "solution_voted"}

  /**
   * `getNotificationPath`: the three solution kinds open the problem page, a chat
   * message opens the collaboration room, and anything else links nowhere.
   */
  function NotificationPath(n: Notification): (path: string)
    ensures n.kind in ProblemKinds ==> path == "/problems/" + RefId(n.problem)
    ensures n.kind == "new_message" ==> path == "/collaborate/" + RefId(n.problem)
    ensures n.kind !in ProblemKinds && n.kind != "new_message" ==> path == "#"
  {
    if n.kind in ProblemKinds then "/problems/" + RefId(n.problem)
    else if n.kind == "new_message" then "/collaborate/" + RefId(n.problem)
    else "#"
  }

  /**
   * Every notice the solution handlers create links to the problem it concerns, whether
   * the client receives the problem populated or as its id.
   */
  lemma SolutionNoticesLinkToProblem(store: seq<Problems.Problem>, problemId: string, solutionId: string,
                                     content: Option<string>, files: seq<Problems.Upload>, voteType: string,
                                     requester: string, newSolutionId: string, ref: ProblemRef,
                                     message: string, createdAt: int)
    requires problemId != "" && (ref == Raw(problemId) || ref == Populated(problemId))
    ensures var r := Problems.AddSolution(store, problemId, content, files, requester, newSolutionId);
      r.Ok? ==> NotificationPath(Notification(newSolutionId, r.value.notice.kind, ref, message, false, createdAt)) == "/problems/" + problemId
    ensures var r := Problems.VoteSolution(store, problemId, solutionId, voteType, requester);
      r.Ok? ==> NotificationPath(Notification(solutionId, r.value.notice.kind, ref, message, false, createdAt)) == "/problems/" + problemId
    ensures var r := Problems.AcceptSolution(store, problemId, solutionId, requester);
      r.Ok? ==> NotificationPath(Notification(solutionId, r.value.notice.kind, ref, message, false, createdAt)) == "/problems/" + problemId
  {
  }
}

=== FILE: problem_view.dfy ===
/**
 * The problem page of the client (frontend/src/pages/ProblemDetail.jsx): its copy of the
 * problem, the three socket listeners that fold peers' changes into the solution list,
 * and the submit, vote and accept handlers that update the list after a successful
 * request and then announce the change to the room. Requests are represented by their
 * outcome: `None` for a failed request, otherwise the part of the response the page uses.
 */
module ProblemView {
  import opened Common
  import opened Seqs
  import opened Text
  import Problems
  import Collab

  type Solution = Problems.Solution

  /**
   * One element of the page's solution list. The list holds plain documents: the
   * solutions the server sent, and whatever a submit or a peer appended. `Whole` is a
   * whole problem document in that list, with the `votes` and `isAccepted` fields the
   * listeners may have spread onto it (absent until then).
   */
  datatype Entry =
    | Sol(solution: Solution)
    | Whole(problem: Problems.Problem, votes: Option<int>, isAccepted: Option<bool>)

  /** The entry's `_id`: a whole problem document carries the problem's id. */
  function EntryId(e: Entry): string {
    if e.Sol? then e.solution.id else e.problem.id
  }

  /** The entry's vote count, absent on a problem document nobody has voted on. */
  function Votes(e: Entry): Option<int> {
    if e.Sol? then Some(e.solution.votes) else e.votes
  }

  /** The truth of the entry's `isAccepted`, an absent field being falsy. */
  predicate Accepted(e: Entry) {
    if e.Sol? then e.solution.isAccepted else e.isAccepted == Some(true)
  }

  /** A relayed document as a listener appends it: as it came, with no extra fields. */
  function FromPayload(d: Collab.Payload): Entry {
    match d
    case SolutionDoc(s) => Sol(s)
    case ProblemDoc(p) => Whole(p, None, None)
  }

  /** The solution documents of a server response, as the page holds them. */
  function Sols(sols: seq<Solution>): (es: seq<Entry>)
    ensures |es| == |sols| && forall j :: 0 <= j < |sols| ==> es[j] == Sol(sols[j])
  {
    seq(|sols|, j requires 0 <= j < |sols| => Sol(sols[j]))
  }

  /** The `_id` fields of a solution list, in order. */
  function SolutionIds(sols: seq<Solution>): (ids: seq<string>)
    ensures |ids| == |sols| && forall j :: 0 <= j < |sols| ==> ids[j] == sols[j].id
  {
    seq(|sols|, j requires 0 <= j < |sols| => sols[j].id)
  }

  /** The `_id` fields of the page's list, in order. */
  function EntryIds(es: seq<Entry>): (ids: seq<string>)
    ensures |ids| == |es| && forall j :: 0 <= j < |es| ==> ids[j] == EntryId(es[j])
  {
    seq(|es|, j requires 0 <= j < |es| => EntryId(es[j]))
  }

  // ---------------------------------------------------------------------------
  // Socket listeners
  // ---------------------------------------------------------------------------

  /** `solution_received`: the relayed document goes at the end; the others stay as they were. */
  function OnSolutionReceived(es: seq<Entry>, d: Collab.Payload): (r: seq<Entry>)
    ensures |r| == |es| + 1 && r[..|es|] == es
    ensures d.SolutionDoc? ==> r[|es|] == Sol(d.solution)
    ensures d.ProblemDoc? ==> r[|es|] == Whole(d.problem, None, None) && EntryId(r[|es|]) == d.problem.id
  {
    es + [FromPayload(d)]
  }

  /** `{ ...sol, votes }`: the entry with its vote count replaced, or added to a problem document. */
  function WithVotes(e: Entry, votes: int): Entry {
    match e
    case Sol(s) => Sol(s.(votes := votes))
    case Whole(p, _, a) => Whole(p, Some(votes), a)
  }

  /** `{ ...sol, isAccepted: b }`. */
  function WithAccepted(e: Entry, b: bool): Entry {
    match e
    case Sol(s) => Sol(s.(isAccepted := b))
    case Whole(p, v, _) => Whole(p, v, Some(b))
  }

  /** `vote_updated`: the entries with that `_id` take the new vote count; nothing else changes. */
  function OnVoteUpdated(es: seq<Entry>, solutionId: string, votes: int): (r: seq<Entry>)
    ensures |r| == |es|
    ensures forall j :: 0 <= j < |r| ==> EntryId(r[j]) == EntryId(es[j]) && r[j].Sol? == es[j].Sol?
    ensures forall j :: 0 <= j < |r| && EntryId(es[j]) == solutionId ==> Votes(r[j]) == Some(votes)
    ensures forall j :: 0 <= j < |r| && EntryId(es[j]) == solutionId && es[j].Sol? ==>
      r[j].solution == es[j].solution.(votes := votes)
    ensures forall j :: 0 <= j < |r| && EntryId(es[j]) == solutionId && es[j].Whole? ==>
      r[j] == es[j].(votes := Some(votes))
    ensures forall j :: 0 <= j < |r| && EntryId(es[j]) != solutionId ==> r[j] == es[j]
  {
    seq(|es|, j requires 0 <= j < |es| =>
      if EntryId(es[j]) == solutionId then WithVotes(es[j], votes) else es[j])
  }

  /**
   * `acceptance_updated` (and the local accept): the entries with that `_id` become
   * accepted and every other one unaccepted, whatever it was before.
   */
  function OnAcceptanceUpdated(es: seq<Entry>, solutionId: string): (r: seq<Entry>)
    ensures |r| == |es|
    ensures forall j :: 0 <= j < |r| ==> EntryId(r[j]) == EntryId(es[j]) && r[j].Sol? == es[j].Sol?
    ensures forall j :: 0 <= j < |r| ==> (Accepted(r[j]) <==> EntryId(es[j]) == solutionId)
    ensures forall j :: 0 <= j < |r| && es[j].Sol? ==>
      r[j].solution == es[j].solution.(isAccepted := r[j].solution.isAccepted)
    ensures forall j :: 0 <= j < |r| && es[j].Whole? ==>
      r[j].problem == es[j].problem && r[j].votes == es[j].votes && r[j].isAccepted.Some?
  {
    seq(|es|, j requires 0 <= j < |es| => WithAccepted(es[j], EntryId(es[j]) == solutionId))
  }

  /** With distinct ids, at most one entry ends up accepted, and that one has the chosen id. */
  lemma AcceptanceLeavesOneAccepted(es: seq<Entry>, solutionId: string)
    requires NoDup(EntryIds(es))
    ensures var r := OnAcceptanceUpdated(es, solutionId);
      forall a, b :: 0 <= a < b < |r| && Accepted(r[a]) ==> !Accepted(r[b])
    ensures forall j :: 0 <= j < |es| && Accepted(OnAcceptanceUpdated(es, solutionId)[j]) ==> EntryId(es[j]) == solutionId
  {
    var r := OnAcceptanceUpdated(es, solutionId);
    forall a, b | 0 <= a < b < |r| && Accepted(r[a]) ensures !Accepted(r[b]) {
      assert EntryIds(es)[a] != EntryIds(es)[b];
    }
  }

  /** Applying the same vote count twice is applying it once. */
  lemma VoteUpdateIdempotent(es: seq<Entry>, solutionId: string, votes: int)
    ensures OnVoteUpdated(OnVoteUpdated(es, solutionId, votes), solutionId, votes) == OnVoteUpdated(es, solutionId, votes)
  {
  }

  /** The listeners of this page, dispatched on the relayed room event; other room events leave the list alone. */
  function Apply(es: seq<Entry>, e: Collab.Event): seq<Entry> {
    match e
    case SolutionReceived(d) => OnSolutionReceived(es, d)
    case VoteUpdated(id, votes) => OnVoteUpdated(es, id, votes)
    case AcceptanceUpdated(id, _) => OnAcceptanceUpdated(es, id)
    case _ => es
  }

  // ---------------------------------------------------------------------------
  // The listeners agree with the server
  // ---------------------------------------------------------------------------

  /** A peer that held the problem's solutions and folds in the stored solution holds what the server stored. */
  lemma ReceivedMatchesAddSolution(store: seq<Problems.Problem>, problemId: string, content: Option<string>,
                                   files: seq<Problems.Upload>, requester: string, newId: string)
    ensures var r := Problems.AddSolution(store, problemId, content, files, requester, newId);
      r.Ok? ==>
        OnSolutionReceived(Sols(store[Problems.FindProblem(store, problemId).value].solutions),
                           Collab.SolutionDoc(r.value.solution))
          == Sols(r.value.problem.solutions)
  {
    var r := Problems.AddSolution(store, problemId, content, files, requester, newId);
    if r.Ok? {
      var before := store[Problems.FindProblem(store, problemId).value].solutions;
      var mine := OnSolutionReceived(Sols(before), Collab.SolutionDoc(r.value.solution));
      forall j | 0 <= j < |mine| ensures mine[j] == Sols(r.value.problem.solutions)[j] {
        if j < |before| {
          assert mine[j] == mine[..|before|][j];
        }
      }
    }
  }

  /** With distinct solution ids, the vote listener reproduces the server's vote on the peer's copy. */
  lemma VoteUpdatedMatchesVoteSolution(store: seq<Problems.Problem>, problemId: string, solutionId: string,
                                       voteType: string, requester: string)
    requires var i := Problems.FindProblem(store, problemId); i.Some? ==> NoDup(SolutionIds(store[i.value].solutions))
    ensures var r := Problems.VoteSolution(store, problemId, solutionId, voteType, requester);
      r.Ok? ==>
        OnVoteUpdated(Sols(store[Problems.FindProblem(store, problemId).value].solutions), solutionId, r.value.solution.votes)
          == Sols(r.value.problem.solutions)
  {
    var r := Problems.VoteSolution(store, problemId, solutionId, voteType, requester);
    if r.Ok? {
      var sols := store[Problems.FindProblem(store, problemId).value].solutions;
      var k := Problems.FindSolution(sols, solutionId).value;
      var mine := OnVoteUpdated(Sols(sols), solutionId, r.value.solution.votes);
      forall j | 0 <= j < |sols| ensures mine[j] == Sols(r.value.problem.solutions)[j] {
        if j != k {
          assert SolutionIds(sols)[j] != SolutionIds(sols)[k];
        }
      }
    }
  }

  /** With distinct solution ids, the acceptance listener reproduces the server's acceptance. */
  lemma AcceptanceUpdatedMatchesAcceptSolution(store: seq<Problems.Problem>, problemId: string, solutionId: string,
                                               requester: string)
    requires var i := Problems.FindProblem(store, problemId); i.Some? ==> NoDup(SolutionIds(store[i.value].solutions))
    ensures var r := Problems.AcceptSolution(store, problemId, solutionId, requester);
      r.Ok? ==>
        OnAcceptanceUpdated(Sols(store[Problems.FindProblem(store, problemId).value].solutions), solutionId)
          == Sols(r.value.problem.solutions)
  {
    var r := Problems.AcceptSolution(store, problemId, solutionId, requester);
    if r.Ok? {
      var sols := store[Problems.FindProblem(store, problemId).value].solutions;
      var k := Problems.FindSolution(sols, solutionId).value;
      var mine := OnAcceptanceUpdated(Sols(sols), solutionId);
      forall j | 0 <= j < |sols| ensures mine[j] == Sols(r.value.problem.solutions)[j] {
        if j != k {
          assert SolutionIds(sols)[j] != SolutionIds(sols)[k];
        }
      }
    }
  }

  // ---------------------------------------------------------------------------
  // Local handlers
  // ---------------------------------------------------------------------------

  /**
   * The page state: the route's problem id, the loaded problem, the solution list the
   * page renders (it starts as the problem's solutions and is the only copy the handlers
   * and listeners touch), the draft answer and the error shown.
   */
  datatype Page = Page(id: string, problem: Problems.Problem, solutions: seq<Entry>, draft: string,
                       error: Option<string>)

  /** A handler's effect: the new page and the room event it sends, if any. */
  datatype Local = Local(page: Page, sent: Option<Collab.Message>)

  const SubmitFailed := "Failed to submit solution"

  /**
   * The body of `handleSubmitSolution`, given the document it appends and relays
   * (`None` when the request failed). A blank draft or a signed-out visitor does nothing
   * at all; a failed request shows the error; otherwise the document is appended,
   * relayed to the room and the draft cleared.
   */
  function SubmitWith(page: Page, user: Option<string>, doc: Option<Collab.Payload>): (l: Local)
    ensures Blank(page.draft) || user.None? ==> l == Local(page, None)
    ensures !Blank(page.draft) && user.Some? && doc.None? ==>
      l == Local(page.(error := Some(SubmitFailed)), None)
    ensures l.sent.Some? <==> !Blank(page.draft) && user.Some? && doc.Some?
    ensures l.sent.Some? ==>
      && l.sent.value == Collab.NewSolution(page.id, doc.value)
      && l.page == page.(solutions := page.solutions + [FromPayload(doc.value)], draft := "")
  {
    TrimEmptyIffBlank(page.draft);
    if Trim(page.draft) == "" || user.None? then Local(page, None)
    else if doc.None? then Local(page.(error := Some(SubmitFailed)), None)
    else
      Local(page.(solutions := OnSolutionReceived(page.solutions, doc.value), draft := ""),
            Some(Collab.NewSolution(page.id, doc.value)))
  }

  /**
   * `handleSubmitSolution` as written. `response` is the body of the 201 answer, the
   * whole updated problem (`None` when the request failed). That document itself is
   * appended to the list and relayed to the room as the new solution.
   */
  function Submit(page: Page, user: Option<string>, response: Option<Problems.Problem>): (l: Local)
    ensures Blank(page.draft) || user.None? ==> l == Local(page, None)
    ensures !Blank(page.draft) && user.Some? && response.None? ==>
      l == Local(page.(error := Some(SubmitFailed)), None)
    ensures l.sent.Some? <==> !Blank(page.draft) && user.Some? && response.Some?
    ensures l.sent.Some? ==>
      && l.sent.value == Collab.NewSolution(page.id, Collab.ProblemDoc(response.value))
      && l.page == page.(solutions := page.solutions + [Whole(response.value, None, None)], draft := "")
  {
    SubmitWith(page, user, if response.Some? then Some(Collab.ProblemDoc(response.value)) else None)
  }

  /**
   * `handleSubmitSolution` as evidently intended: the page appends and relays the
   * solution the server stored (the last element of the response's `solutions`), not
   * the response itself.
   */
  function SubmitStored(page: Page, user: Option<string>, created: Option<Solution>): (l: Local)
    ensures Blank(page.draft) || user.None? ==> l == Local(page, None)
    ensures !Blank(page.draft) && user.Some? && created.None? ==>
      l == Local(page.(error := Some(SubmitFailed)), None)
    ensures l.sent.Some? <==> !Blank(page.draft) && user.Some? && created.Some?
    ensures l.sent.Some? ==>
      && l.sent.value == Collab.NewSolution(page.id, Collab.SolutionDoc(created.value))
      && l.page == page.(solutions := page.solutions + [Sol(created.value)], draft := "")
  {
    SubmitWith(page, user, if created.Some? then Some(Collab.SolutionDoc(created.value)) else None)
  }

  /**
   * As written, a successful submit puts the whole problem document at the end of the
   * sender's list, and the relay puts it at the end of every peer's: an entry whose `_id`
   * is the problem's and which is no solution, so neither list is the one the server stored.
   */
  lemma SubmitAppendsProblemDocument(store: seq<Problems.Problem>, problemId: string, content: Option<string>,
                                     files: seq<Problems.Upload>, requester: string, newId: string, page: Page)
    ensures var r := Problems.AddSolution(store, problemId, content, files, requester, newId);
      r.Ok? && !Blank(page.draft) ==>
        var l := Submit(page, Some(requester), Some(r.value.problem));
        var n := |l.page.solutions|;
        && n == |page.solutions| + 1
        && l.page.solutions[n - 1].Whole?
        && EntryId(l.page.solutions[n - 1]) == problemId
        && l.page.solutions != Sols(r.value.problem.solutions)
        && l.sent.value.solution == Collab.ProblemDoc(r.value.problem)
        && OnSolutionReceived(page.solutions, l.sent.value.solution) == l.page.solutions
  {
  }

  /**
   * With the evident fix, a sender that held the stored solutions holds the server's new
   * list after a successful submit, and so does every peer that folds in the relay.
   */
  lemma SubmitStoredMatchesServer(store: seq<Problems.Problem>, problemId: string, content: Option<string>,
                                  files: seq<Problems.Upload>, requester: string, newId: string, page: Page)
    ensures var r := Problems.AddSolution(store, problemId, content, files, requester, newId);
      r.Ok? && !Blank(page.draft)
        && page.solutions == Sols(store[Problems.FindProblem(store, problemId).value].solutions) ==>
        var l := SubmitStored(page, Some(requester), Some(r.value.solution));
        && l.page.solutions == Sols(r.value.problem.solutions)
        && OnSolutionReceived(page.solutions, l.sent.value.solution) == Sols(r.value.problem.solutions)
  {
    ReceivedMatchesAddSolution(store, problemId, content, files, requester, newId);
  }

  /**
   * `handleVote`. `votes` is the count the server returned (`None` when the request
   * failed or nobody is signed in, which only raises an alert). On success only the
   * voted entries' counts change and the new count is announced to the room.
   */
  function Vote(page: Page, user: Option<string>, solutionId: string, votes: Option<int>): (l: Local)
    ensures l.sent.Some? <==> user.Some? && votes.Some?
    ensures l.sent.None? ==> l.page == page
    ensures l.sent.Some? ==>
      && l.sent.value == Collab.SolutionVote(page.id, solutionId, votes.value)
      && l.page == page.(solutions := l.page.solutions)
      && |l.page.solutions| == |page.solutions|
      && (forall j :: 0 <= j < |page.solutions| && EntryId(page.solutions[j]) == solutionId ==>
           Votes(l.page.solutions[j]) == Some(votes.value))
      && (forall j :: 0 <= j < |page.solutions| && EntryId(page.solutions[j]) != solutionId ==>
           l.page.solutions[j] == page.solutions[j])
  {
    if user.None? || votes.None? then Local(page, None)
    else
      Local(page.(solutions := OnVoteUpdated(page.solutions, solutionId, votes.value)),
            Some(Collab.SolutionVote(page.id, solutionId, votes.value)))
  }

  /**
   * `handleAccept`. `ok` says whether the request succeeded. On success the chosen
   * entry is marked accepted and every other one unaccepted, and the acceptance is
   * announced to the room; the page's problem (its status included) is not touched.
   */
  function Accept(page: Page, user: Option<string>, solutionId: string, ok: bool): (l: Local)
    ensures l.sent.Some? <==> user.Some? && ok
    ensures l.sent.None? ==> l.page == page
    ensures l.sent.Some? ==>
      && l.sent.value == Collab.SolutionAccepted(page.id, solutionId)
      && l.page == page.(solutions := l.page.solutions)
      && l.page.problem.status == page.problem.status
      && |l.page.solutions| == |page.solutions|
      && forall j :: 0 <= j < |page.solutions| ==>
           (Accepted(l.page.solutions[j]) <==> EntryId(page.solutions[j]) == solutionId)
  {
    if user.None? || !ok then Local(page, None)
    else
      Local(page.(solutions := OnAcceptanceUpdated(page.solutions, solutionId)),
            Some(Collab.SolutionAccepted(page.id, solutionId)))
  }

  /**
   * What a peer sees of a handler's effect: the room server relays the announcement as
   * one event to the other members, and a peer whose list matched the sender's before
   * folds it into exactly the sender's new list.
   */
  predicate PeerConverges(page: Page, l: Local, reg: Collab.Registry, socket: Collab.SocketId)
    requires l.sent.Some?
  {
    var st := Collab.Handle(reg, socket, l.sent.value);
    && |st.emitted| == 1
    && st.emitted[0].to == Collab.OthersIn(page.id)
    && Apply(page.solutions, st.emitted[0].event) == l.page.solutions
  }

  /** Whatever a submit announces, as written or as intended, the sender and its peers converge on the same list. */
  lemma SubmitConverges(page: Page, user: Option<string>, response: Option<Problems.Problem>,
                        created: Option<Solution>, reg: Collab.Registry, socket: Collab.SocketId)
    ensures var l := Submit(page, user, response); l.sent.Some? ==> PeerConverges(page, l, reg, socket)
    ensures var l := SubmitStored(page, user, created); l.sent.Some? ==> PeerConverges(page, l, reg, socket)
  {
  }

  /** Whatever a vote announces, the sender and its peers converge on the same list. */
  lemma VoteConverges(page: Page, user: Option<string>, solutionId: string, votes: Option<int>,
                      reg: Collab.Registry, socket: Collab.SocketId)
    ensures var l := Vote(page, user, solutionId, votes); l.sent.Some? ==> PeerConverges(page, l, reg, socket)
  {
  }

  /** Whatever an acceptance announces, the sender and its peers converge on the same list. */
  lemma AcceptConverges(page: Page, user: Option<string>, solutionId: string, ok: bool,
                        reg: Collab.Registry, socket: Collab.SocketId)
    ensures var l := Accept(page, user, solutionId, ok); l.sent.Some? ==> PeerConverges(page, l, reg, socket)
  {
  }

  // ---------------------------------------------------------------------------
  // The Accept control
  // ---------------------------------------------------------------------------

  /** Whether the Accept button is shown on an entry: to the problem's owner, on an entry not accepted. */
  predicate ShowAccept(user: Option<string>, owner: string, e: Entry): (shown: bool)
    ensures shown ==> user == Some(owner)
    ensures shown ==> !Accepted(e)
    ensures user == Some(owner) && !Accepted(e) ==> shown
  {
    user.Some? && owner == user.value && !Accepted(e)
  }

  /**
   * The button never leads to the 403 the server reserves for non-owners: when the page
   * shows the stored problem, pressing Accept on one of its solutions succeeds.
   */
  lemma AcceptButtonNotForbidden(store: seq<Problems.Problem>, problemId: string, user: Option<string>, k: nat)
    requires Problems.FindProblem(store, problemId).Some?
    requires k < |store[Problems.FindProblem(store, problemId).value].solutions|
    requires var p := store[Problems.FindProblem(store, problemId).value]; ShowAccept(user, p.user, Sol(p.solutions[k]))
    ensures Problems.AcceptSolution(store, problemId, store[Problems.FindProblem(store, problemId).value].solutions[k].id, user.value).Ok?
  {
    var sols := store[Problems.FindProblem(store, problemId).value].solutions;
    assert Problems.FindSolution(sols, sols[k].id).Some?;
  }

  /** After the owner accepts a solution, the button disappears from it and shows on every other entry. */
  lemma AcceptMovesButton(page: Page, user: Option<string>, solutionId: string)
    requires user.Some? && page.problem.user == user.value
    ensures var after := Accept(page, user, solutionId, true).page;
      forall j :: 0 <= j < |page.solutions| ==>
        (ShowAccept(user, after.problem.user, after.solutions[j]) <==> EntryId(page.solutions[j]) != solutionId)
  {
  }
}

=== FILE: problems.dfy ===
/**
 * Problems and their solutions (backend/models/problemModel.js) and the request
 * handlers that create, list, view, search, answer, vote on and accept them
 * (backend/controllers/problemController.js). The document store is a sequence of
 * problem documents; `findById` is the first document with that id. Every handler
 * returns the new store, or the HTTP error the controller answers with.
 */
module Problems {
  import opened Common
  import opened Seqs
  import opened Text
  import Sorting

  // ---------------------------------------------------------------------------
  // Documents
  // ---------------------------------------------------------------------------

  /** The `status` enum of a problem. */
  datatype Status = Open | InProgress | Solved | Closed

  /** The string the schema stores for each status. */
  function StatusName(s: Status): string {
    match s
    case Open => "open"
    case InProgress => "in-progress"
    case Solved => "solved"
    case Closed => "closed"
  }

  /** The schema's enum validator: which stored strings are statuses. */
  function ParseStatus(name: string): (r: Option<Status>)
    ensures r.Some? ==> StatusName(r.value) == name
    ensures r.None? ==> forall s: Status :: StatusName(s) != name
  {
    if name == "open" then Some(Open)
    else if name == "in-progress" then Some(InProgress)
    else if name == "solved" then Some(Solved)
    else if name == "closed" then Some(Closed)
    else None
  }

  /** Every status survives being stored and read back. */
  lemma StatusRoundTrip(s: Status)
    ensures ParseStatus(StatusName(s)) == Some(s)
  {
  }

  /** The media paths of an upload, split by kind. */
  datatype Media = Media(images: seq<string>, videos: seq<string>)

  /** One uploaded file: its MIME type and the path it was stored under. */
  datatype Upload = Upload(mimetype: string, path: string)

  datatype Solution = Solution(
    id: string,
    content: string,
    user: string,
    votes: int,
    isAccepted: bool,
    media: Media)

  datatype Problem = Problem(
    id: string,
    title: string,
    description: string,
    user: string,
    tags: seq<string>,
    status: Status,
    solutions: seq<Solution>,
    viewCount: int,
    media: Media,
    createdAt: int)

  /** A problem document as the schema creates it: untagged unless tags are given, open, unviewed, unanswered. */
  function NewProblem(id: string, title: string, description: string, user: string,
                      tags: Option<seq<string>>, media: Media, createdAt: int): (p: Problem)
    ensures p.status == Open && p.viewCount == 0 && p.solutions == []
    ensures tags.None? ==> p.tags == []
    ensures tags.Some? ==> p.tags == tags.value
  {
    Problem(id, title, description, user,
            match tags case None => [] case Some(t) => t,
            Open, [], 0, media, createdAt)
  }

  /** The notification a handler asks the notification service to create for `recipient`. */
  datatype Notice = Notice(recipient: string, sender: string, problemId: string, kind: string, relatedItemId: string)

  /** The HTTP errors the controller answers with. */
  datatype Failure =
    | BadRequest(message: string)
    | Forbidden(message: string)
    | NotFound(message: string)
    | ServerError(message: string)
  {
    function StatusCode(): int {
      match this
      case BadRequest(_) => 400
      case Forbidden(_) => 403
      case NotFound(_) => 404
      case ServerError(_) => 500
    }
  }

  const ProblemNotFound := "Problem not found"
  const SolutionNotFound := "Solution not found"
  const NotOwner := "You are not authorized to accept a solution for this problem"
  const QueryRequired := "Search query is required"
  const ValidationFailed := "Validation failed"
  const DuplicateKey := "Duplicate key"
  const MissingTags := "Cannot read properties of undefined (reading 'split')"

  /** Mongoose's `required` check on a string path: present and not empty. */
  predicate RequiredString(v: Option<string>) {
    v.Some? && v.value != ""
  }

  // ---------------------------------------------------------------------------
  // Lookups
  // ---------------------------------------------------------------------------

  /** `Problem.findById`: the first document with the id. */
  function FindProblem(store: seq<Problem>, id: string): (r: Option<nat>)
    ensures r.Some? ==> r.value < |store| && store[r.value].id == id
    ensures r.None? ==> forall j :: 0 <= j < |store| ==> store[j].id != id
  {
    FirstIndex(store, (p: Problem) => p.id == id)
  }

  /** `problem.solutions.id(x)`: the first sub-document with the id. */
  function FindSolution(solutions: seq<Solution>, id: string): (r: Option<nat>)
    ensures r.Some? ==> r.value < |solutions| && solutions[r.value].id == id
    ensures r.Some? ==> forall j :: 0 <= j < r.value ==> solutions[j].id != id
    ensures r.None? ==> forall j :: 0 <= j < |solutions| ==> solutions[j].id != id
  {
    FirstIndex(solutions, (s: Solution) => s.id == id)
  }

  // ---------------------------------------------------------------------------
  // createProblem: tags and media
  // ---------------------------------------------------------------------------

  predicate IsImage(f: Upload) { StartsWith(f.mimetype, "image/") }
  predicate IsVideo(f: Upload) { StartsWith(f.mimetype, "video/") }

  /** Sorts uploads by MIME prefix: `image/` to images, else `video/` to videos, anything else dropped. */
  function ClassifyMedia(files: seq<Upload>): (m: Media)
    ensures |m.images| == Count(files, IsImage)
    ensures |m.images| + |m.videos| <= |files|
    decreases |files|
  {
    if |files| == 0 then Media([], [])
    else
      var rest := ClassifyMedia(files[1..]);
      var f := files[0];
      if IsImage(f) then Media([f.path] + rest.images, rest.videos)
      else if IsVideo(f) then Media(rest.images, [f.path] + rest.videos)
      else rest
  }

  /** An upload the video branch takes: a `video/` type that is not also filed as an image. */
  predicate IsOtherVideo(f: Upload) { !IsImage(f) && IsVideo(f) }

  /** The stored paths of a batch of uploads, in order. */
  function Paths(fs: seq<Upload>): (ps: seq<string>)
    ensures |ps| == |fs| && forall i :: 0 <= i < |fs| ==> ps[i] == fs[i].path
  {
    seq(|fs|, i requires 0 <= i < |fs| => fs[i].path)
  }

  lemma PathsAppend(a: seq<Upload>, b: seq<Upload>)
    ensures Paths(a + b) == Paths(a) + Paths(b)
  {
  }

  lemma PathsCons(f: Upload, fs: seq<Upload>)
    ensures Paths([f] + fs) == [f.path] + Paths(fs)
  {
  }

  /**
   * Nothing is misfiled: the images are the paths of the image uploads and the videos
   * those of the remaining video uploads, each in upload order; everything else is dropped.
   */
  lemma {:induction false} ClassifyMediaSound(files: seq<Upload>)
    ensures ClassifyMedia(files).images == Paths(Filter(files, IsImage))
    ensures ClassifyMedia(files).videos == Paths(Filter(files, IsOtherVideo))
    decreases |files|
  {
    if |files| > 0 {
      var f, tail := files[0], files[1..];
      ClassifyMediaSound(tail);
      var rest := ClassifyMedia(tail);
      var images, videos := Filter(tail, IsImage), Filter(tail, IsOtherVideo);
      if IsImage(f) {
        assert Filter(files, IsImage) == [f] + images;
        assert Filter(files, IsOtherVideo) == videos;
        assert ClassifyMedia(files) == Media([f.path] + rest.images, rest.videos);
        PathsCons(f, images);
      } else if IsVideo(f) {
        assert Filter(files, IsImage) == images;
        assert Filter(files, IsOtherVideo) == [f] + videos;
        assert ClassifyMedia(files) == Media(rest.images, [f.path] + rest.videos);
        PathsCons(f, videos);
      } else {
        assert Filter(files, IsImage) == images;
        assert Filter(files, IsOtherVideo) == videos;
        assert ClassifyMedia(files) == rest;
      }
    }
  }

  /** Classification keeps upload order: the media of two batches is the media of each, concatenated. */
  lemma ClassifyMediaAppend(a: seq<Upload>, b: seq<Upload>)
    ensures ClassifyMedia(a + b).images == ClassifyMedia(a).images + ClassifyMedia(b).images
    ensures ClassifyMedia(a + b).videos == ClassifyMedia(a).videos + ClassifyMedia(b).videos
  {
    ClassifyMediaSound(a + b);
    ClassifyMediaSound(a);
    ClassifyMediaSound(b);
    FilterAppend(a, b, IsImage);
    FilterAppend(a, b, IsOtherVideo);
    PathsAppend(Filter(a, IsImage), Filter(b, IsImage));
    PathsAppend(Filter(a, IsOtherVideo), Filter(b, IsOtherVideo));
  }

  /** `tags.split(',').map(tag => tag.trim())`. */
  function ParseTags(tags: string): (r: seq<string>)
    ensures |r| == Occurrences(tags, ',') + 1
    ensures forall i :: 0 <= i < |r| ==> ',' !in r[i]
    ensures forall i :: 0 <= i < |r| ==> r[i] == Trim(Split(tags, ',')[i])
  {
    var pieces := Split(tags, ',');
    seq(|pieces|, i requires 0 <= i < |pieces| =>
      var t := Trim(pieces[i]);
      assert forall c :: c in t ==> c in pieces[i];
      t)
  }

  /** The tags the user typed survive parsing up to whitespace around each piece. */
  lemma ParseTagsOfTrimmedList(tags: seq<string>)
    requires |tags| >= 1
    requires forall i :: 0 <= i < |tags| ==> ',' !in tags[i] && Trim(tags[i]) == tags[i]
    ensures ParseTags(Join(tags, ',')) == tags
  {
    SplitJoin(tags, ',');
  }

  datatype CreateRequest = CreateRequest(title: Option<string>, description: Option<string>, tags: Option<string>, files: seq<Upload>)
  datatype Created = Created(store: seq<Problem>, problem: Problem)

  /**
   * `createProblem`: a missing `tags` field throws inside the handler (500); the schema
   * rejects an empty title or description (500); otherwise the new open problem is
   * stored and answered with 201.
   */
  function CreateProblem(store: seq<Problem>, req: CreateRequest, owner: string, newId: string, now: int): (r: Result<Created, Failure>)
    ensures req.tags.None? ==> r == Err(ServerError(MissingTags))
    ensures r.Ok? <==> req.tags.Some? && RequiredString(req.title) && RequiredString(req.description) && FindProblem(store, newId).None?
    ensures r.Err? ==> r.error.StatusCode() == 500
    ensures r.Ok? ==>
      var p := r.value.problem;
      && r.value.store == store + [p]
      && p.id == newId && p.user == owner && p.createdAt == now
      && p.title == req.title.value && p.description == req.description.value
      && p.status == Open && p.viewCount == 0 && p.solutions == []
      && p.tags == ParseTags(req.tags.value)
      && p.media == ClassifyMedia(req.files)
  {
    var media := ClassifyMedia(req.files);
    if req.tags.None? then Err(ServerError(MissingTags))
    else if !RequiredString(req.title) || !RequiredString(req.description) then Err(ServerError(ValidationFailed))
    else if FindProblem(store, newId).Some? then Err(ServerError(DuplicateKey))
    else
      var p := NewProblem(newId, req.title.value, req.description.value, owner,
                          Some(ParseTags(req.tags.value)), media, now);
      Ok(Created(store + [p], p))
  }

  // ---------------------------------------------------------------------------
  // getProblems: paging
  // ---------------------------------------------------------------------------

  const PageSize: nat := 10

  /** `Number(req.query.pageNumber) || 1`: a missing, unparsable or zero page number means page 1. */
  function PageOf(pageNumber: Option<int>): (page: int)
    ensures pageNumber.None? || pageNumber.value == 0 ==> page == 1
    ensures pageNumber.Some? && pageNumber.value != 0 ==> page == pageNumber.value
    ensures page != 0
  {
    match pageNumber
    case None => 1
    case Some(n) => if n == 0 then 1 else n
  }

  datatype Page = Page(problems: seq<Problem>, page: int, pages: nat, count: nat)

  /**
   * `getProblems`: newest first, ten per page, skipping `10 * (page - 1)`. A negative
   * skip (page below 1) is refused by the store, which the handler answers with 500.
   */
  function GetProblems(store: seq<Problem>, pageNumber: Option<int>): (r: Result<Page, Failure>)
    ensures r.Err? <==> PageOf(pageNumber) < 1
    ensures r.Err? ==> r.error.StatusCode() == 500
    ensures r.Ok? ==>
      var pg := r.value;
      && pg.page == PageOf(pageNumber) && pg.count == |store|
      && pg.count <= pg.pages * PageSize < pg.count + PageSize
      && pg.problems == Window(Sorting.SortDesc(store, CreatedAt), PageSize * (pg.page - 1), PageSize)
  {
    var page := PageOf(pageNumber);
    if page < 1 then Err(ServerError("skip value must be non-negative"))
    else
      var newest := Sorting.SortDesc(store, CreatedAt);
      Ok(Page(Window(newest, PageSize * (page - 1), PageSize), page, CeilDiv(|store|, PageSize), |store|))
  }

  /** The sort key of the problem list: creation time. */
  function CreatedAt(p: Problem): int { p.createdAt }

  /** A window of a descending sequence is descending, and holds only elements of the sequence. */
  lemma WindowOf<T>(s: seq<T>, skip: nat, size: nat, key: T -> int)
    requires Sorting.SortedDesc(s, key)
    ensures Sorting.SortedDesc(Window(s, skip, size), key)
    ensures multiset(Window(s, skip, size)) <= multiset(s)
  {
    var w := Window(s, skip, size);
    forall a, b | 0 <= a < b < |w| ensures key(w[a]) >= key(w[b]) {
      assert w[a] == s[skip + a] && w[b] == s[skip + b];
    }
    if skip < |s| {
      assert s == s[..skip] + w + s[skip + |w|..];
    }
  }

  /** A page holds at most ten problems, newest first, each of them stored. */
  lemma {:induction false} GetProblemsPage(store: seq<Problem>, pageNumber: Option<int>)
    requires PageOf(pageNumber) >= 1
    ensures var pg := GetProblems(store, pageNumber).value;
      && |pg.problems| <= PageSize
      && Sorting.SortedDesc(pg.problems, CreatedAt)
      && multiset(pg.problems) <= multiset(store)
  {
    var newest := Sorting.SortDesc(store, CreatedAt);
    var skip: nat := PageSize * (PageOf(pageNumber) - 1);
    var w := Window(newest, skip, PageSize);
    assert GetProblems(store, pageNumber).value.problems == w;
    WindowOf(newest, skip, PageSize, CreatedAt);
    assert multiset(newest) == multiset(store);
  }

  // ---------------------------------------------------------------------------
  // getProblemById and searchProblems
  // ---------------------------------------------------------------------------

  datatype Viewed = Viewed(store: seq<Problem>, problem: Problem)

  /** `getProblemById`: a found problem is answered with its view count raised by exactly one. */
  function GetProblemById(store: seq<Problem>, id: string): (r: Result<Viewed, Failure>)
    ensures r.Err? <==> FindProblem(store, id).None?
    ensures r.Err? ==> r.error == NotFound(ProblemNotFound)
    ensures r.Ok? ==>
      var i := FindProblem(store, id).value;
      && r.value.problem == store[i].(viewCount := store[i].viewCount + 1)
      && r.value.store == store[i := r.value.problem]
  {
    match FindProblem(store, id)
    case None => Err(NotFound(ProblemNotFound))
    case Some(i) =>
      var p := store[i].(viewCount := store[i].viewCount + 1);
      Ok(Viewed(store[i := p], p))
  }

  /** `searchProblems`' guard: a missing or empty query is a 400; any other query goes to the text index. */
  function SearchProblems(query: Option<string>): (r: Result<string, Failure>)
    ensures r.Err? <==> query.None? || query.value == ""
    ensures r.Err? ==> r.error.StatusCode() == 400
    ensures r.Ok? ==> r.value == query.value
  {
    if query.None? || query.value == "" then Err(BadRequest(QueryRequired)) else Ok(query.value)
  }

  /**
   * The guard rejects only the empty string: a query of spaces, which a client that
   * trims would treat as empty, still goes to the text index.
   */
  lemma SearchGuardAcceptsBlank(q: string)
    ensures SearchProblems(Some(q)).Ok? <==> |q| > 0
    ensures Blank(q) && |q| > 0 ==> SearchProblems(Some(q)).Ok? && Trim(q) == ""
  {
    TrimEmptyIffBlank(q);
  }

  // ---------------------------------------------------------------------------
  // addSolution, voteSolution, acceptSolution
  // ---------------------------------------------------------------------------

  datatype Changed = Changed(store: seq<Problem>, problem: Problem, solution: Solution, notice: Notice)

  /** Adding an answer starts work on an open problem and leaves any other status alone. */
  function AfterAnswer(s: Status): (t: Status)
    ensures s == Open ==> t == InProgress
    ensures s != Open ==> t == s
  {
    if s == Open then InProgress else s
  }

  /**
   * `addSolution`: appends exactly one solution (zero votes, not accepted) and notifies
   * the problem's owner. A missing problem is a 404; empty content fails the schema's
   * `required` check on save (500) and nothing is stored.
   */
  function AddSolution(store: seq<Problem>, problemId: string, content: Option<string>, files: seq<Upload>,
                       requester: string, solutionId: string): (r: Result<Changed, Failure>)
    ensures FindProblem(store, problemId).None? ==> r == Err(NotFound(ProblemNotFound))
    ensures r.Ok? <==> FindProblem(store, problemId).Some? && RequiredString(content)
    ensures r.Ok? ==>
      var i := FindProblem(store, problemId).value;
      var old_ := store[i];
      var p := r.value.problem;
      var s := r.value.solution;
      && r.value.store == store[i := p]
      && p.solutions == old_.solutions + [s]
      && s.id == solutionId && s.content == content.value && s.user == requester
      && s.votes == 0 && !s.isAccepted && s.media == ClassifyMedia(files)
      && p.status == AfterAnswer(old_.status)
      && p == old_.(solutions := p.solutions, status := p.status)
      && r.value.notice == Notice(old_.user, requester, problemId, "new_solution", solutionId)
  {
    match FindProblem(store, problemId)
    case None => Err(NotFound(ProblemNotFound))
    case Some(i) =>
      var media := ClassifyMedia(files);
      if !RequiredString(content) then Err(ServerError(ValidationFailed))
      else
        var old_ := store[i];
        var s := Solution(solutionId, content.value, requester, 0, false, media);
        var p := old_.(solutions := old_.solutions + [s], status := AfterAnswer(old_.status));
        Ok(Changed(store[i := p], p, s, Notice(old_.user, requester, problemId, "new_solution", solutionId)))
  }

  /** The effect of one vote: `upvote` adds one, `downvote` takes one away, anything else counts nothing. */
  function VoteDelta(voteType: string): (d: int)
    ensures voteType == "upvote" ==> d == 1
    ensures voteType == "downvote" ==> d == -1
    ensures voteType != "upvote" && voteType != "downvote" ==> d == 0
  {
    if voteType == "upvote" then 1 else if voteType == "downvote" then -1 else 0
  }

  /**
   * `voteSolution`: 404 for a missing problem, then for a missing solution, with nothing
   * modified; otherwise only the chosen solution's votes move, by `VoteDelta`.
   */
  function VoteSolution(store: seq<Problem>, problemId: string, solutionId: string, voteType: string,
                        requester: string): (r: Result<Changed, Failure>)
    ensures FindProblem(store, problemId).None? ==> r == Err(NotFound(ProblemNotFound))
    ensures FindProblem(store, problemId).Some? ==>
      (FindSolution(store[FindProblem(store, problemId).value].solutions, solutionId).None? ==>
         r == Err(NotFound(SolutionNotFound)))
    ensures r.Ok? ==>
      var i := FindProblem(store, problemId).value;
      var old_ := store[i];
      var k := FindSolution(old_.solutions, solutionId).value;
      var p := r.value.problem;
      && r.value.store == store[i := p]
      && |p.solutions| == |old_.solutions|
      && p.solutions[k].votes == old_.solutions[k].votes + VoteDelta(voteType)
      && p.solutions[k] == old_.solutions[k].(votes := p.solutions[k].votes)
      && (forall j :: 0 <= j < |p.solutions| && j != k ==> p.solutions[j] == old_.solutions[j])
      && p == old_.(solutions := p.solutions)
      && r.value.solution == p.solutions[k]
      && r.value.notice == Notice(old_.solutions[k].user, requester, problemId, "solution_voted", solutionId)
  {
    match FindProblem(store, problemId)
    case None => Err(NotFound(ProblemNotFound))
    case Some(i) =>
      var old_ := store[i];
      match FindSolution(old_.solutions, solutionId)
      case None => Err(NotFound(SolutionNotFound))
      case Some(k) =>
        var s := old_.solutions[k].(votes := old_.solutions[k].votes + VoteDelta(voteType));
        var p := old_.(solutions := old_.solutions[k := s]);
        Ok(Changed(store[i := p], p, s, Notice(old_.solutions[k].user, requester, problemId, "solution_voted", solutionId)))
  }

  /** At most one solution of a list is accepted. */
  predicate AtMostOneAccepted(solutions: seq<Solution>) {
    forall i, j :: 0 <= i < j < |solutions| && solutions[i].isAccepted ==> !solutions[j].isAccepted
  }

  /** Every solution unaccepted except the one at index `k`. */
  function AcceptOnly(solutions: seq<Solution>, k: nat): (r: seq<Solution>)
    ensures |r| == |solutions|
    ensures forall j :: 0 <= j < |r| ==> r[j] == solutions[j].(isAccepted := j == k)
  {
    seq(|solutions|, j requires 0 <= j < |solutions| => solutions[j].(isAccepted := j == k))
  }

  /**
   * `acceptSolution`: 404 for a missing problem, then 404 for a missing solution, then
   * 403 unless the requester owns the problem. On success exactly the chosen solution is
   * accepted and the problem is solved.
   */
  function AcceptSolution(store: seq<Problem>, problemId: string, solutionId: string, requester: string): (r: Result<Changed, Failure>)
    ensures FindProblem(store, problemId).None? ==> r == Err(NotFound(ProblemNotFound))
    ensures FindProblem(store, problemId).Some? ==>
      var old_ := store[FindProblem(store, problemId).value];
      && (FindSolution(old_.solutions, solutionId).None? ==> r == Err(NotFound(SolutionNotFound)))
      && (FindSolution(old_.solutions, solutionId).Some? && old_.user != requester ==> r == Err(Forbidden(NotOwner)))
      && (FindSolution(old_.solutions, solutionId).Some? && old_.user == requester ==> r.Ok?)
    ensures r.Ok? ==>
      var i := FindProblem(store, problemId).value;
      var old_ := store[i];
      var k := FindSolution(old_.solutions, solutionId).value;
      var p := r.value.problem;
      && requester == old_.user
      && r.value.store == store[i := p]
      && p.status == Solved
      && |p.solutions| == |old_.solutions|
      && (forall j :: 0 <= j < |p.solutions| ==> (p.solutions[j].isAccepted <==> j == k))
      && (forall j :: 0 <= j < |p.solutions| ==> p.solutions[j] == old_.solutions[j].(isAccepted := p.solutions[j].isAccepted))
      && p == old_.(solutions := p.solutions, status := Solved)
      && r.value.notice == Notice(old_.solutions[k].user, requester, problemId, "solution_accepted", solutionId)
  {
    match FindProblem(store, problemId)
    case None => Err(NotFound(ProblemNotFound))
    case Some(i) =>
      var old_ := store[i];
      match FindSolution(old_.solutions, solutionId)
      case None => Err(NotFound(SolutionNotFound))
      case Some(k) =>
        if old_.user != requester then Err(Forbidden(NotOwner))
        else
          var sols := AcceptOnly(old_.solutions, k);
          var p := old_.(solutions := sols, status := Solved);
          Ok(Changed(store[i := p], p, sols[k], Notice(old_.solutions[k].user, requester, problemId, "solution_accepted", solutionId)))
  }

  /** No handler that writes the store ever leaves two solutions of a problem accepted. */
  lemma HandlersKeepAtMostOneAccepted(store: seq<Problem>, problemId: string, solutionId: string,
                                      content: Option<string>, files: seq<Upload>, voteType: string,
                                      requester: string, newSolutionId: string,
                                      req: CreateRequest, newProblemId: string, now: int)
    requires forall i :: 0 <= i < |store| ==> AtMostOneAccepted(store[i].solutions)
    ensures var r := AddSolution(store, problemId, content, files, requester, newSolutionId);
      r.Ok? ==> forall i :: 0 <= i < |r.value.store| ==> AtMostOneAccepted(r.value.store[i].solutions)
    ensures var r := VoteSolution(store, problemId, solutionId, voteType, requester);
      r.Ok? ==> forall i :: 0 <= i < |r.value.store| ==> AtMostOneAccepted(r.value.store[i].solutions)
    ensures var r := AcceptSolution(store, problemId, solutionId, requester);
      r.Ok? ==> forall i :: 0 <= i < |r.value.store| ==> AtMostOneAccepted(r.value.store[i].solutions)
    ensures var r := GetProblemById(store, problemId);
      r.Ok? ==> forall i :: 0 <= i < |r.value.store| ==> AtMostOneAccepted(r.value.store[i].solutions)
    ensures var r := CreateProblem(store, req, requester, newProblemId, now);
      r.Ok? ==> forall i :: 0 <= i < |r.value.store| ==> AtMostOneAccepted(r.value.store[i].solutions)
  {
    var add := AddSolution(store, problemId, content, files, requester, newSolutionId);
    if add.Ok? {
      var i := FindProblem(store, problemId).value;
      var sols := add.value.problem.solutions;
      assert sols == store[i].solutions + [add.value.solution];
      assert AtMostOneAccepted(sols) by {
        forall a, b | 0 <= a < b < |sols| && sols[a].isAccepted
          ensures !sols[b].isAccepted
        {
          if b < |sols| - 1 {
            assert sols[a] == store[i].solutions[a] && sols[b] == store[i].solutions[b];
          }
        }
      }
    }
    var vote := VoteSolution(store, problemId, solutionId, voteType, requester);
    if vote.Ok? {
      var i := FindProblem(store, problemId).value;
      var sols := vote.value.problem.solutions;
      assert forall j :: 0 <= j < |sols| ==> sols[j].isAccepted == store[i].solutions[j].isAccepted;
    }
  }
}

=== FILE: seqs.dfy ===
/**
 * Sequence helpers used by several modules: duplicate freedom, first match, counting,
 * filtering, subsequences, and the paging arithmetic of `skip`/`limit` queries.
 */
module Seqs {
  import opened Common

  /** No element occurs twice. */
  predicate NoDup<T(==)>(s: seq<T>) {
    forall i, j :: 0 <= i < j < |s| ==> s[i] != s[j]
  }

  /** `Array.prototype.findIndex`: the position of the first element satisfying `p`. */
  function FirstIndex<T>(s: seq<T>, p: T -> bool): (r: Option<nat>)
    ensures r.Some? ==> r.value < |s| && p(s[r.value])
    ensures r.Some? ==> forall j :: 0 <= j < r.value ==> !p(s[j])
    ensures r.None? ==> forall j :: 0 <= j < |s| ==> !p(s[j])
  {
    if |s| == 0 then None
    else if p(s[0]) then Some(0)
    else
      match FirstIndex(s[1..], p)
      case None => None
      case Some(i) => Some(i + 1)
  }

  /** How many elements satisfy `p`. */
  function Count<T>(s: seq<T>, p: T -> bool): (n: nat)
    ensures n <= |s|
  {
    if |s| == 0 then 0 else (if p(s[0]) then 1 else 0) + Count(s[1..], p)
  }

  /** Keeps, in order, the elements satisfying `p` (`Array.prototype.filter`). */
  function Filter<T>(s: seq<T>, p: T -> bool): (r: seq<T>)
    ensures |r| == Count(s, p)
    ensures forall i :: 0 <= i < |r| ==> r[i] in s && p(r[i])
    ensures forall i :: 0 <= i < |s| && p(s[i]) ==> s[i] in r
  {
    if |s| == 0 then []
    else (if p(s[0]) then [s[0]] else []) + Filter(s[1..], p)
  }

  lemma {:induction false} CountAppend<T>(a: seq<T>, b: seq<T>, p: T -> bool)
    ensures Count(a + b, p) == Count(a, p) + Count(b, p)
    decreases |a|
  {
    if |a| == 0 {
      assert a + b == b;
    } else {
      assert (a + b)[1..] == a[1..] + b;
      CountAppend(a[1..], b, p);
    }
  }

  lemma {:induction false} CountRemoveAt<T>(b: seq<T>, i: nat, p: T -> bool)
    requires i < |b|
    ensures Count(b, p) == (if p(b[i]) then 1 else 0) + Count(b[..i] + b[i + 1..], p)
  {
    var pre, post := b[..i], b[i + 1..];
    var tail := [b[i]] + post;
    assert b == pre + tail;
    CountAppend(pre, tail, p);
    assert tail[1..] == post;
    assert Count(tail, p) == (if p(b[i]) then 1 else 0) + Count(post, p);
    CountAppend(pre, post, p);
  }

  lemma {:induction false} MultisetRemoveAt<T>(b: seq<T>, i: nat)
    requires i < |b|
    ensures multiset(b[..i] + b[i + 1..]) == multiset(b) - multiset{b[i]}
  {
    assert b == b[..i] + [b[i]] + b[i + 1..];
  }

  /** Counting is insensitive to order: two permutations have the same count. */
  lemma {:induction false} CountPermutation<T>(a: seq<T>, b: seq<T>, p: T -> bool)
    requires multiset(a) == multiset(b)
    ensures Count(a, p) == Count(b, p)
    decreases |a|
  {
    if |a| == 0 {
      assert |multiset(b)| == 0;
    } else {
      var i, rest := MatchHead(a, b);
      CountPermutation(a[1..], rest, p);
      CountRemoveAt(b, i, p);
    }
  }

  /** The head of a non-empty sequence sits somewhere in any permutation of it; the rests are permutations. */
  lemma MatchHead<T>(a: seq<T>, b: seq<T>) returns (i: nat, rest: seq<T>)
    requires |a| > 0 && multiset(a) == multiset(b)
    ensures i < |b| && b[i] == a[0] && rest == b[..i] + b[i + 1..]
    ensures multiset(a[1..]) == multiset(rest)
  {
    assert a[0] in multiset(a);
    i :| 0 <= i < |b| && b[i] == a[0];
    rest := b[..i] + b[i + 1..];
    MultisetRemoveAt(b, i);
    assert a == [a[0]] + a[1..];
    assert multiset(a[1..]) == multiset(a) - multiset{a[0]};
    assert multiset(rest) == multiset(b) - multiset{a[0]};
  }

  /** Filtering keeps exactly the elements `p` accepts and drops nothing else. */
  lemma {:induction false} FilterAll<T>(s: seq<T>, p: T -> bool)
    requires forall i :: 0 <= i < |s| ==> p(s[i])
    ensures Filter(s, p) == s
    decreases |s|
  {
    if |s| > 0 {
      FilterAll(s[1..], p);
    }
  }

  /** Filtering two pieces filters their concatenation. */
  lemma {:induction false} FilterAppend<T>(a: seq<T>, b: seq<T>, p: T -> bool)
    ensures Filter(a + b, p) == Filter(a, p) + Filter(b, p)
    decreases |a|
  {
    if |a| == 0 {
      assert a + b == b;
    } else {
      assert (a + b)[1..] == a[1..] + b;
      FilterAppend(a[1..], b, p);
    }
  }

  lemma {:induction false} FilterNoDup<T>(s: seq<T>, p: T -> bool)
    requires NoDup(s)
    ensures NoDup(Filter(s, p))
    decreases |s|
  {
    if |s| > 0 {
      FilterNoDup(s[1..], p);
      assert s[0] !in s[1..];
    }
  }

  /** `a` is `b` with some elements left out, the rest kept in order. */
  predicate Subsequence<T(==)>(a: seq<T>, b: seq<T>)
    decreases |b|
  {
    if |a| == 0 then true
    else if |b| == 0 then false
    else (a[0] == b[0] && Subsequence(a[1..], b[1..])) || Subsequence(a, b[1..])
  }

  /** Appending a sequence's head and then its tail is appending the sequence. */
  lemma ConcatHead<T>(a: seq<T>, s: seq<T>)
    requires |s| > 0
    ensures a + [s[0]] + s[1..] == a + s
  {
    assert [s[0]] + s[1..] == s;
  }

  /** Everything in a subsequence comes from the sequence. */
  lemma {:induction false} SubsequenceIn<T>(a: seq<T>, b: seq<T>, x: T)
    requires Subsequence(a, b) && x in a
    ensures x in b
    decreases |b|
  {
    if a[0] == b[0] && Subsequence(a[1..], b[1..]) {
      if x != a[0] {
        SubsequenceIn(a[1..], b[1..], x);
      }
    } else {
      SubsequenceIn(a, b[1..], x);
    }
  }

  /** Leaving elements out of a duplicate-free sequence cannot create a duplicate. */
  lemma {:induction false} SubsequenceNoDup<T>(a: seq<T>, b: seq<T>)
    requires Subsequence(a, b) && NoDup(b)
    ensures NoDup(a)
    decreases |b|
  {
    if |a| > 0 {
      assert NoDup(b[1..]);
      if a[0] == b[0] && Subsequence(a[1..], b[1..]) {
        SubsequenceNoDup(a[1..], b[1..]);
        if a[0] in a[1..] {
          SubsequenceIn(a[1..], b[1..], a[0]);
          assert false;
        }
        forall i, j | 0 <= i < j < |a| ensures a[i] != a[j] {
          if i == 0 {
            assert a[j] in a[1..];
          } else {
            assert a[i] == a[1..][i - 1] && a[j] == a[1..][j - 1];
          }
        }
      } else {
        SubsequenceNoDup(a, b[1..]);
      }
    }
  }


  /** `Math.ceil(n / d)` for a count `n`: the fewest pages of `d` that hold `n` items. */
  function CeilDiv(n: nat, d: nat): (q: nat)
    requires d > 0
    ensures n <= q * d < n + d
  {
    (n + d - 1) / d
  }

  /** `Math.floor(n / d) + 1` is the 1-based number of the band of width `d` holding `n`. */
  lemma DivBand(n: int, d: nat)
    requires d > 0
    ensures var c := n / d + 1; (c - 1) * d <= n < c * d
  {
    var q, r := n / d, n % d;
    assert n == q * d + r;
    assert (q + 1) * d == q * d + d;
  }

  /** `.skip(skip).limit(size)` over an already ordered result. */
  function Window<T>(s: seq<T>, skip: nat, size: nat): (w: seq<T>)
    ensures |w| == if skip >= |s| then 0 else if |s| - skip < size then |s| - skip else size
    ensures forall k :: 0 <= k < |w| ==> skip + k < |s| && w[k] == s[skip + k]
  {
    if skip >= |s| then []
    else if |s| - skip < size then s[skip..]
    else s[skip..skip + size]
  }
  /** Nothing satisfies `p`, so nothing is counted. */
  lemma {:induction false} CountNone<T>(s: seq<T>, p: T -> bool)
    requires forall i :: 0 <= i < |s| ==> !p(s[i])
    ensures Count(s, p) == 0
    decreases |s|
  {
    if |s| > 0 {
      CountNone(s[1..], p);
    }
  }

  /** Counting with a weaker predicate counts at least as many elements. */
  lemma {:induction false} CountMono<T>(s: seq<T>, p: T -> bool, q: T -> bool)
    requires forall x :: p(x) ==> q(x)
    ensures Count(s, p) <= Count(s, q)
    decreases |s|
  {
    if |s| > 0 {
      CountMono(s[1..], p, q);
    }
  }

  /** An element that only the weaker predicate accepts makes its count strictly larger. */
  lemma {:induction false} CountMonoStrict<T>(s: seq<T>, p: T -> bool, q: T -> bool, i: nat)
    requires forall x :: p(x) ==> q(x)
    requires i < |s| && q(s[i]) && !p(s[i])
    ensures Count(s, p) < Count(s, q)
    decreases |s|
  {
    if i == 0 {
      CountMono(s[1..], p, q);
    } else {
      assert s[1..][i - 1] == s[i];
      CountMonoStrict(s[1..], p, q, i - 1);
    }
  }

  /** An element satisfying `p` is counted. */
  lemma {:induction false} CountSome<T>(s: seq<T>, p: T -> bool, i: nat)
    requires i < |s| && p(s[i])
    ensures Count(s, p) > 0
    decreases |s|
  {
    if i > 0 {
      assert s[1..][i - 1] == s[i];
      CountSome(s[1..], p, i - 1);
    }
  }

  /** Multiplying by a non-negative factor keeps the order. */
  lemma MulMono(a: int, b: int, d: nat)
    requires a <= b
    ensures a * d <= b * d
  {
    assert b * d - a * d == (b - a) * d;
  }

  /** Only one band of width `d` holds a given multiple of `d`. */
  lemma BandUnique(x: int, y: int, d: nat)
    requires d > 0
    requires x * d <= y * d < (x + 1) * d
    ensures x == y
  {
    if y < x {
      MulMono(y + 1, x, d);
    } else if y > x {
      MulMono(x + 1, y, d);
    }
  }
}

=== FILE: sorting.dfy ===
/**
 * Ordering by a numeric key, largest first: `Array.prototype.sort` with a comparator
 * `(a, b) => key(b) - key(a)`, and the document store's `sort({field: -1})`. The sort
 * is a stable insertion sort; the model relies only on its result being ordered and a
 * permutation of its input.
 */
module Sorting {

  /** Keys never increase along the sequence. */
  predicate SortedDesc<T>(s: seq<T>, key: T -> int) {
    forall i, j :: 0 <= i < j < |s| ==> key(s[i]) >= key(s[j])
  }

  /** Places `x` before the first element whose key is not larger than its own. */
  function Insert<T>(x: T, s: seq<T>, key: T -> int): (r: seq<T>)
    requires SortedDesc(s, key)
    ensures |r| == |s| + 1
    ensures r[0] == x || (|s| > 0 && r[0] == s[0])
    ensures SortedDesc(r, key)
    ensures multiset(r) == multiset(s) + multiset{x}
    decreases |s|
  {
    if |s| == 0 then [x]
    else if key(s[0]) <= key(x) then
      ConsSorted(x, s, key);
      [x] + s
    else
      var rest := Insert(x, s[1..], key);
      assert key(s[0]) >= key(rest[0]);
      ConsSorted(s[0], rest, key);
      assert s == [s[0]] + s[1..];
      assert multiset([s[0]] + rest) == multiset{s[0]} + multiset(s[1..]) + multiset{x};
      [s[0]] + rest
  }

  /** An element no smaller than the head of a sorted sequence can go in front of it. */
  lemma ConsSorted<T>(h: T, rest: seq<T>, key: T -> int)
    requires SortedDesc(rest, key) && (|rest| > 0 ==> key(h) >= key(rest[0]))
    ensures SortedDesc([h] + rest, key)
  {
    var r := [h] + rest;
    forall i, j | 0 <= i < j < |r| ensures key(r[i]) >= key(r[j]) {
      assert r[j] == rest[j - 1];
      if i == 0 && j > 1 {
        assert key(rest[0]) >= key(rest[j - 1]);
      }
    }
  }

  /** The elements of `s`, largest key first. */
  function SortDesc<T>(s: seq<T>, key: T -> int): (r: seq<T>)
    ensures SortedDesc(r, key)
    ensures multiset(r) == multiset(s)
    ensures |r| == |s|
    decreases |s|
  {
    if |s| == 0 then []
    else
      assert s == [s[0]] + s[1..];
      Insert(s[0], SortDesc(s[1..], key), key)
  }
}

=== FILE: text.dfy ===
/**
 * The JavaScript string operations the handlers rely on: `startsWith`, `includes`,
 * `split` on a one-character separator, `trim`, and decimal rendering of a number
 * inside a template literal.
 */
module Text {

  /** `s.startsWith(prefix)`. */
  predicate StartsWith(s: string, prefix: string) {
    |prefix| <= |s| && s[..|prefix|] == prefix
  }

  /** `s.includes(part)`: `part` occurs somewhere in `s`. */
  predicate Contains(s: string, part: string)
    decreases |s|
  {
    StartsWith(s, part) || (|s| > 0 && Contains(s[1..], part))
  }

  /** Whatever is glued in front, a string still contains its own tail. */
  lemma {:induction false} ContainsSuffix(front: string, tail: string)
    ensures Contains(front + tail, tail)
    decreases |front|
  {
    if |front| == 0 {
      assert front + tail == tail;
      assert StartsWith(tail, tail);
    } else {
      assert (front + tail)[1..] == front[1..] + tail;
      ContainsSuffix(front[1..], tail);
    }
  }

  /** Occurrences of one character. */
  function Occurrences(s: string, c: char): nat
  {
    if |s| == 0 then 0 else (if s[0] == c then 1 else 0) + Occurrences(s[1..], c)
  }

  /**
   * `s.split(sep)` for a one-character separator: the maximal separator-free pieces,
   * including empty ones, so that there is always one more piece than separators.
   */
  function Split(s: string, sep: char): (parts: seq<string>)
    ensures |parts| == Occurrences(s, sep) + 1
    ensures forall i :: 0 <= i < |parts| ==> sep !in parts[i]
    decreases |s|
  {
    if |s| == 0 then [""]
    else
      var rest := Split(s[1..], sep);
      if s[0] == sep then [""] + rest
      else [[s[0]] + rest[0]] + rest[1..]
  }

  /** `parts.join(sep)`. */
  function Join(parts: seq<string>, sep: char): string
    decreases |parts|
  {
    if |parts| == 0 then ""
    else if |parts| == 1 then parts[0]
    else parts[0] + [sep] + Join(parts[1..], sep)
  }

  /** Splitting loses nothing: joining the pieces back gives the input. */
  lemma {:induction false} JoinSplit(s: string, sep: char)
    ensures Join(Split(s, sep), sep) == s
    decreases |s|
  {
    if |s| > 0 {
      var rest := Split(s[1..], sep);
      JoinSplit(s[1..], sep);
      if s[0] == sep {
        assert ([""] + rest)[1..] == rest;
      } else {
        var parts := [[s[0]] + rest[0]] + rest[1..];
        if |rest| == 1 {
          assert parts == [[s[0]] + rest[0]];
        } else {
          assert parts[1..] == rest[1..];
          assert Join(rest, sep) == rest[0] + [sep] + Join(rest[1..], sep);
        }
      }
    }
  }

  /** The converse: separator-free pieces split back into themselves. */
  lemma {:induction false} SplitJoin(parts: seq<string>, sep: char)
    requires |parts| >= 1
    requires forall i :: 0 <= i < |parts| ==> sep !in parts[i]
    ensures Split(Join(parts, sep), sep) == parts
    decreases |parts|, |parts[0]|
  {
    var head := parts[0];
    if |parts| == 1 {
      SplitPiece(head, [], sep);
      assert head + "" == head;
    } else {
      var rest := Join(parts[1..], sep);
      SplitJoin(parts[1..], sep);
      assert Join(parts, sep) == head + ([sep] + rest);
      SplitPiece(head, parts[1..], sep);
    }
  }

  /** A separator-free `head` in front of `[sep] + Join(tail)` (or of nothing) becomes the first piece. */
  lemma {:induction false} SplitPiece(head: string, tail: seq<string>, sep: char)
    requires sep !in head
    requires |tail| >= 1 ==> Split(Join(tail, sep), sep) == tail
    ensures Split(head + (if |tail| == 0 then "" else [sep] + Join(tail, sep)), sep) == [head] + tail
    decreases |head|
  {
    var after := if |tail| == 0 then "" else [sep] + Join(tail, sep);
    if |head| == 0 {
      assert head + after == after;
      if |tail| > 0 {
        assert after[1..] == Join(tail, sep);
      }
    } else {
      assert (head + after)[1..] == head[1..] + after;
      SplitPiece(head[1..], tail, sep);
      assert [head[0]] + head[1..] == head;
    }
  }

  /**
   * The characters `String.prototype.trim` removes: the ECMAScript WhiteSpace
   * (tab, vertical tab, form feed, space, no-break space, byte-order mark and the
   * Unicode space separators) and LineTerminator code points.
   */
  predicate IsWhitespace(c: char) {
    c in WhitespaceChars
  }

  const WhitespaceChars: set<char> := {
    '\t', '\n', '\U{000B}', '\U{000C}', '\r', ' ', '\U{00A0}', '\U{1680}',
    '\U{2000}', '\U{2001}', '\U{2002}', '\U{2003}', '\U{2004}', '\U{2005}',
    '\U{2006}', '\U{2007}', '\U{2008}', '\U{2009}', '\U{200A}',
    '\U{2028}', '\U{2029}', '\U{202F}', '\U{205F}', '\U{3000}', '\U{FEFF}'
  }

  /** The end of the whitespace run that starts at `i`. */
  function SkipSpace(s: string, i: nat): (n: nat)
    requires i <= |s|
    ensures i <= n <= |s|
    ensures forall k :: i <= k < n ==> IsWhitespace(s[k])
    ensures n < |s| ==> !IsWhitespace(s[n])
    decreases |s| - i
  {
    if i < |s| && IsWhitespace(s[i]) then SkipSpace(s, i + 1) else i
  }

  /** The start of the whitespace run that ends at `j`, looking no further back than `lo`. */
  function SkipSpaceBack(s: string, lo: nat, j: nat): (m: nat)
    requires lo <= j <= |s|
    ensures lo <= m <= j
    ensures forall k :: m <= k < j ==> IsWhitespace(s[k])
    ensures m > lo ==> !IsWhitespace(s[m - 1])
    decreases j
  {
    if j > lo && IsWhitespace(s[j - 1]) then SkipSpaceBack(s, lo, j - 1) else j
  }

  /**
   * `s.trim()`: the slice of `s` left once whitespace is cut from both ends; it
   * neither starts nor ends with whitespace.
   */
  function Trim(s: string): (r: string)
    ensures var lo := SkipSpace(s, 0);
      && lo + |r| <= |s| && r == s[lo..lo + |r|]
      && (forall k :: 0 <= k < lo ==> IsWhitespace(s[k]))
      && (forall k :: lo + |r| <= k < |s| ==> IsWhitespace(s[k]))
    ensures |r| > 0 ==> !IsWhitespace(r[0]) && !IsWhitespace(r[|r| - 1])
  {
    var lo := SkipSpace(s, 0);
    var hi := SkipSpaceBack(s, lo, |s|);
    s[lo..hi]
  }

  /** Trimming twice is trimming once. */
  lemma TrimIdempotent(s: string)
    ensures Trim(Trim(s)) == Trim(s)
  {
    var r := Trim(s);
    if |r| > 0 {
      assert SkipSpace(r, 0) == 0;
      assert SkipSpaceBack(r, 0, |r|) == |r|;
    }
  }

  /** A string trims to nothing exactly when every character of it is whitespace. */
  predicate Blank(s: string) {
    forall k :: 0 <= k < |s| ==> IsWhitespace(s[k])
  }

  lemma TrimEmptyIffBlank(s: string)
    ensures Trim(s) == "" <==> Blank(s)
  {
    var r := Trim(s);
    var lo := SkipSpace(s, 0);
    if |r| > 0 {
      assert r[0] == s[lo];
    }
  }

  /** Every character is a decimal digit. */
  predicate AllDigits(s: string) {
    forall k :: 0 <= k < |s| ==> '0' <= s[k] <= '9'
  }

  /** The number a string of decimal digits denotes, read most significant digit first. */
  function DigitsValue(s: string): nat
    requires AllDigits(s)
    decreases |s|
  {
    if |s| == 0 then 0
    else DigitsValue(s[..|s| - 1]) * 10 + (s[|s| - 1] as int - '0' as int)
  }

  /**
   * The decimal digits of a natural number, as a template literal renders it: digits
   * only, no leading zero, and denoting the number itself.
   */
  function Decimal(n: nat): (r: string)
    ensures |r| >= 1 && AllDigits(r)
    ensures DigitsValue(r) == n
    ensures n > 0 ==> r[0] != '0'
    decreases n
  {
    if n < 10 then [DigitChar(n)]
    else
      var front := Decimal(n / 10);
      var r := front + [DigitChar(n % 10)];
      assert r[..|r| - 1] == front;
      r
  }

  /** The digit character of `d`. */
  function DigitChar(d: nat): (c: char)
    requires d < 10
    ensures '0' <= c <= '9' && c as int - '0' as int == d
  {
    ('0' as int + d) as char
  }
}

=== FILE: users.dfy ===
/**
 * The gamification part of a user document (backend/models/userModel.js): points with a
 * schema minimum of 0, badge keys, per-action counters, languages used, timestamped
 * achievements and a level derived from points. Dates are integer timestamps.
 */
module Users {
  import opened Common
  import opened Seqs
  import Sorting

  datatype Achievement = Achievement(badgeId: string, earnedAt: int)

  datatype Profile = Profile(
    points: int,
    badges: seq<string>,
    actionCounts: map<string, int>,
    uniqueLanguages: seq<string>,
    achievements: seq<Achievement>,
    level: int)

  /** The gamification defaults of a fresh user document. */
  const NewProfile := Profile(0, [], map["JOIN_ROOM" := 0, "CHAT_MESSAGE" := 0, "SOLVED_PROBLEMS" := 0], [], [], 1)

  /** Points per level. */
  const LevelSpan: nat := 100

  /** `actionCounts[action] || 0`. */
  function CountOf(p: Profile, action: string): (n: int)
    ensures action !in p.actionCounts ==> n == 0
    ensures action in p.actionCounts ==> n == p.actionCounts[action]
  {
    if action in p.actionCounts then p.actionCounts[action] else 0
  }

  /**
   * `calculateLevel`: `Math.floor(points / 100) + 1`, the level whose 100-point band
   * holds the points; at least 1 for the non-negative points the schema admits.
   */
  function CalculateLevel(points: int): (level: int)
    ensures (level - 1) * LevelSpan <= points < level * LevelSpan
    ensures points >= 0 ==> level >= 1
  {
    points / LevelSpan + 1
  }

  /** The band property pins the level down: no other level has the points in its band. */
  lemma LevelUnique(points: int, level: int)
    requires (level - 1) * LevelSpan <= points < level * LevelSpan
    ensures level == CalculateLevel(points)
  {
  }

  /** More points never mean a lower level. */
  lemma LevelMonotone(a: int, b: int)
    requires a <= b
    ensures CalculateLevel(a) <= CalculateLevel(b)
  {
  }

  /** The integer fields of `getLevelProgress`; the rounded percentage is left out. */
  datatype LevelProgress = LevelProgress(currentLevel: int, progressPoints: int, requiredPoints: int)

  /** `getLevelProgress`: points past the start of the stored level's band, out of the band width. */
  function GetLevelProgress(p: Profile): (r: LevelProgress)
    ensures r.currentLevel == p.level
    ensures r.requiredPoints == LevelSpan
    ensures r.progressPoints + (p.level - 1) * LevelSpan == p.points
  {
    var current := (p.level - 1) * LevelSpan;
    var next := p.level * LevelSpan;
    LevelProgress(p.level, p.points - current, next - current)
  }

  /** When the stored level is the one derived from the points, progress lies in [0, 100). */
  lemma ProgressWithinBand(p: Profile)
    requires p.level == CalculateLevel(p.points)
    ensures 0 <= GetLevelProgress(p).progressPoints < GetLevelProgress(p).requiredPoints
  {
  }

  function EarnedAt(a: Achievement): int { a.earnedAt }

  datatype BadgeSummary = BadgeSummary(totalBadges: nat, recentBadges: seq<Achievement>, badgeIds: seq<string>)

  /** How many recent achievements the summary shows. */
  const RecentCount: nat := 5

  /**
   * `getBadgeSummary`: the badge count, the badge keys, and the newest five
   * achievements, newest first.
   */
  function GetBadgeSummary(p: Profile): (r: BadgeSummary)
    ensures r.totalBadges == |p.badges| && r.badgeIds == p.badges
    ensures |r.recentBadges| == if |p.achievements| < RecentCount then |p.achievements| else RecentCount
    ensures Sorting.SortedDesc(r.recentBadges, EarnedAt)
    ensures multiset(r.recentBadges) <= multiset(p.achievements)
    ensures |r.recentBadges| == |p.achievements| ==> multiset(r.recentBadges) == multiset(p.achievements)
  {
    var newest := Sorting.SortDesc(p.achievements, EarnedAt);
    var recent := Window(newest, 0, RecentCount);
    assert recent == newest[..|recent|];
    assert newest == recent + newest[|recent|..];
    assert multiset(newest) == multiset(recent) + multiset(newest[|recent|..]);
    BadgeSummary(|p.badges|, recent, p.badges)
  }

  /**
   * The document after `getBadgeSummary`: `Array.prototype.sort` reorders the stored
   * achievements in place, newest first, and the summary shows the front of that order.
   */
  function AfterBadgeSummary(p: Profile): (q: Profile)
    ensures q == p.(achievements := q.achievements)
    ensures multiset(q.achievements) == multiset(p.achievements) && |q.achievements| == |p.achievements|
    ensures Sorting.SortedDesc(q.achievements, EarnedAt)
    ensures GetBadgeSummary(p).recentBadges == q.achievements[..|GetBadgeSummary(p).recentBadges|]
  {
    var newest := Sorting.SortDesc(p.achievements, EarnedAt);
    assert Window(newest, 0, RecentCount) == newest[..|Window(newest, 0, RecentCount)|];
    p.(achievements := newest)
  }

  /** No achievement left out of the summary is newer than one shown. */
  lemma {:induction false} SummaryKeepsNewest(p: Profile, a: Achievement, i: nat)
    requires a in p.achievements
    requires a !in GetBadgeSummary(p).recentBadges
    requires i < |GetBadgeSummary(p).recentBadges|
    ensures a.earnedAt <= GetBadgeSummary(p).recentBadges[i].earnedAt
  {
    var newest := Sorting.SortDesc(p.achievements, EarnedAt);
    var recent := GetBadgeSummary(p).recentBadges;
    assert recent == newest[..|recent|];
    assert a in multiset(newest);
    var j :| 0 <= j < |newest| && newest[j] == a;
    assert j >= |recent|;
    assert EarnedAt(newest[i]) >= EarnedAt(newest[j]);
  }

  datatype SaveError = PointsBelowMinimum

  /**
   * Saving a user document: validation rejects points below the schema minimum of 0;
   * otherwise, when the points were modified, the pre-save hook sets the level from them.
   */
  function Save(p: Profile, pointsModified: bool): (r: Result<Profile, SaveError>)
    ensures r.Err? <==> p.points < 0
    ensures r.Ok? ==> r.value.(level := p.level) == p
    ensures r.Ok? && pointsModified ==>
      (r.value.level - 1) * LevelSpan <= r.value.points < r.value.level * LevelSpan
    ensures r.Ok? && !pointsModified ==> r.value == p
  {
    if p.points < 0 then Err(PointsBelowMinimum)
    else if pointsModified then Ok(p.(level := CalculateLevel(p.points)))
    else Ok(p)
  }

  /** A saved document whose points changed has level at least 1 and progress within its band. */
  lemma SavedLevelConsistent(p: Profile)
    requires Save(p, true).Ok?
    ensures var q := Save(p, true).value;
      q.level >= 1 && 0 <= GetLevelProgress(q).progressPoints < LevelSpan
  {
    var q := Save(p, true).value;
    LevelUnique(q.points, q.level);
  }
}
